=== FILE: README.md ===
# SDMTools frame sequences, in Dafny

A model of the pure logic of SDMTools, a Houdini tool set. Its core is the
frame-sequence classifier (`fileclassification.py`, in two revisions), which:

- splits a file name such as `fooBar.0042.exr` into a prefix, a digit token
  and an extension;
- builds `Frame` records from those parts;
- scans a directory listing for the first sequence of frames, optionally
  limited to an inclusive range;
- derives results from the sequence: its range and length, the missing
  frames, a wildcard name such as `fooBar.####.exr`, and a small
  range-expression notation (`1-5, 9, 13, 20-30:2`) with a printer and a
  parser.

Around the classifier sit these helpers from the two `fileutils.py` modules
and from `utils.py`:

- release-version comparison and filtering;
- the base-directory swap of a path;
- dictionary merges;
- the update rules of `SettingsFile`;
- camel-case splitting and joining.

Everything is stated as pure functions over `seq`, `map`, `int` and
`string`, with contracts and lemmas about them. Python's exceptions are the
`Err` side of a `Result`. The strings are Python 2 byte strings in the C
locale: the letters are the ASCII letters, and whitespace is what `isspace`
accepts.

Modules, by file:

| file | module | models |
|---|---|---|
| results.dfy | Results | `Option` and `Result` |
| seqs.dfy | Seqs | "some element satisfies" and "pointwise image" on sequences (helpers) |
| text.dfy | Text | `int()`, `str()`, `str.split(sep)`, `str.strip()`, `''.join`, zero padding |
| frame.dfy | Frames | `Sequence._decompose` with its default patterns; `Frame` and `_interpretFramePadding` |
| scan.dfy | Scan | `_getFrameListFromDir`: the lock-in, the range filter, the sort |
| sequence.dfy | Sequences | the newer `Sequence`: range, length, missing frames, getters, `next` |
| legacy_sequence.dfy | LegacySequences | what the older `Sequence` does differently: `getMissingFrames` without a flag, a working `getFormatted` |
| range_expr.dfy | RangeExpr | `prettyPrintFrameList` and `parseFrameString` |
| range_examples.dfy | RangeExamples | the documented examples of both, worked through the general lemmas |
| versions.dfy | FileUtils | `compareVersions`, `getLargerVersions`, `mergeDict`, `mergeJsonFiles` |
| paths.dfy | Paths | `os.path.join` on a POSIX host and `changeBaseDir` |
| settings.dfy | Settings | `SettingsFile.set` / `get` on the settings dictionary |
| camel.dfy | CamelCase | `splitByCamelCase` and `convertToCamelCase` |

The two revisions of `fileclassification.py` share the following code, which
differs only in docstrings and is modelled once:

- the frame-name pattern and `_decompose`;
- `_getFrameListFromDir`;
- `Frame`;
- the getters;
- `prettyPrintFrameList`.

Likewise, `compareVersions`, `getLargerVersions` and `changeBaseDir` are the
same in both `fileutils.py` modules. The rows below cite one of the two
copies.

Two choices follow the code where the documentation says otherwise:

- **`getMissingFrames` on a sequence without frames.** The code calls
  `range(*())`, which raises `TypeError`, so the model returns an error. The
  documentation implies an empty list.
- **The documented example `[1, 2, 3, 4, 5, 9, 10, 13, 15]`.** The docstring
  prints it as `1-5, 9-10, 13, 15`. The code splits a streak of two into two
  numbers (`9, 10`), and the model does what the code does.
  `RangeExamples.PrettyPrintDocExample` proves the text the code prints.

## Model

| member | source | states |
|---|---|---|
| Frames.NewFrame | python/sdm/files/fileclassification.py:316-350 | fails exactly when `int()` refuses the token; otherwise keeps prefix and extension, takes the padding from the token's length, and for a digit token the number is its decimal value |
| Frames.FrameTokenRoundTrip | python/sdm/files/fileclassification.py:321-348 | leading zeros only carry padding: zero-padding the number to the padding gives the token back |
| Frames.InterpretPaddingExamples | python/sdm/files/fileclassification.py:326-330 | '0000' gives (4, 0), '010' gives (3, 10), '200' gives (3, 200) |
| Frames.FrameOf | python/sdm/files/fileclassification.py:47-50 | building the frame of a decomposed name never raises |
| Frames.Decompose | python/sdm/files/fileclassification.py:96-103 | whatever it returns satisfies the default patterns: non-empty prefix of `[\w.-]`, digit token, letter extension |
| Frames.DecomposeSound | python/sdm/files/fileclassification.py:16 | the returned groups, with a separator of `.`/`-`/`_` after the prefix, spell the name (less one final newline) |
| Frames.DecomposeComplete | python/sdm/files/fileclassification.py:16 | a name spelled by well-formed groups and a separator decomposes into exactly those groups: the decomposition is unique |
| Frames.ComposeDecomposes | python/sdm/files/fileclassification.py:16 | a composed frame name decomposes back to its groups, also with a trailing newline, which `$` admits |
| Frames.DecomposeNone | python/sdm/files/fileclassification.py:100-103 | a name that does not decompose is spelled by no well-formed groups |
| Scan.FirstGroups | python/sdm/files/fileclassification.py:46-57 | the lock is found exactly when some name of the listing decomposes |
| Scan.Collect | python/sdm/files/fileclassification.py:42-67 | the loop keeps at most one frame per name, and every frame it keeps lies in the range |
| Scan.CollectLocksOnFirst | python/sdm/files/fileclassification.py:42-67 | the loop locks onto the first decomposable name and then keeps exactly the names that fit that lock and the range |
| Scan.CollectLocked | python/sdm/files/fileclassification.py:58-67 | once locked, the loop keeps exactly the names that fit the lock and the range, in listing order |
| Scan.KeptMembers | python/sdm/files/fileclassification.py:58-67 | a frame is kept exactly when some name of the listing fits the lock and the range and builds it |
| Scan.KeptCarries | python/sdm/files/fileclassification.py:52-66 | every kept frame has the locked prefix, extension and padding and lies in the range |
| Scan.InsertByNumber | python/sdm/files/fileclassification.py:69 | inserting into a list sorted by number keeps it sorted and adds exactly one element |
| Scan.SortByNumber | python/sdm/files/fileclassification.py:69 | the result is sorted by number and a permutation of the input |
| Scan.FramesFromListing | python/sdm/files/fileclassification.py:27-71 | the scan is sorted by number and a permutation of the frames the loop kept |
| Scan.FramesAreCollected | python/sdm/files/fileclassification.py:67-71 | the scan holds exactly the frames the loop kept, and is empty when the loop kept none |
| Scan.FramesCarryLock | python/sdm/files/fileclassification.py:52-66 | without a frame name the scan is empty; otherwise every frame carries the prefix, extension and padding of the first frame name and lies in the range |
| Scan.FramesFromListingMeaning | python/sdm/files/fileclassification.py:27-71 | a frame is in the scan exactly when some name of the listing fits the lock and the range and builds it |
| Sequences.RangeOf | python/sdm/files/fileclassification.py:24-25 | the stored range exists exactly when there are frames; it is (first, last) and bounds every frame |
| Sequences.NewSequence | python/sdm/files/fileclassification.py:20-25 | the sequence keeps the directory, holds the scanned frames and stores their range |
| Sequences.Numbers | python/sdm/files/fileclassification.py:108-109 | the frame numbers, position by position |
| Sequences.GetLength | python/sdm/files/fileclassification.py:117-118 | fails exactly when the sequence has no range (`self._range` is an empty tuple) |
| Sequences.LengthSpansFrames | python/sdm/files/fileclassification.py:117-118 | the length fails exactly without frames; otherwise it is at least 1, runs from the first frame to the last, and every frame lies in that window |
| Sequences.Gaps | python/sdm/files/fileclassification.py:140-145 | strictly ascending, and holds exactly the values of the half-open range that are not frame numbers |
| Sequences.GetMissingFrames | python/sdm/files/fileclassification.py:129-150 | fails exactly without a range; otherwise the ascending numbers in [first, last) that are not frame numbers, or with `format` the pretty-printed form of that list |
| Sequences.MissingAreAllGaps | python/sdm/files/fileclassification.py:140-145 | for a scanned sequence the missing frames are exactly the gaps in [first, last], both ends included |
| Sequences.PrintedMissingParses | python/sdm/files/fileclassification.py:147-148 | the printed missing frames parse back to the missing frames whenever frame 0 is not among them |
| Sequences.NoneParsesEmpty | python/sdm/files/fileclassification.py:283-287 | "None", what the printer gives for no frames, is not a block and parses to the empty list |
| Sequences.GetPadding | python/sdm/files/fileclassification.py:120-121 | fails exactly when there are no frames: `self._frames[0]` raises IndexError |
| Sequences.GetPrefix | python/sdm/files/fileclassification.py:123-124 | fails exactly when there are no frames |
| Sequences.GetExt | python/sdm/files/fileclassification.py:126-127 | fails exactly when there are no frames |
| Sequences.GettersDescribeEveryFrame | python/sdm/files/fileclassification.py:120-127 | for a scanned, non-empty sequence the getters give the first frame name's prefix, extension and padding, which every frame carries |
| Sequences.Next | python/sdm/files/fileclassification.py:191-198 | StopIteration exactly at the end; otherwise the frame at the cursor and the advanced cursor |
| Sequences.Drain | python/sdm/files/fileclassification.py:188-198 | iterating from a cursor yields the remaining frames in order, each once, and leaves the cursor at the end, so a second loop over the same instance yields nothing |
| LegacySequences.GetMissingFrames | pythonlibs/api/fileclassification.py:128-141 | fails exactly without a range; otherwise equals the newer revision's unformatted result |
| LegacySequences.FramePadding | pythonlibs/api/fileclassification.py:166-170 | `format` repeated `padding` times, position by position; for `$F` exactly `$F` followed by `str(padding)` when the padding exceeds 1, and `$F` alone otherwise |
| LegacySequences.GetFormatted | pythonlibs/api/fileclassification.py:143-177 | fails exactly without frames; with `includeDir` it is the plain name joined to the directory |
| LegacySequences.FormattedNameCoversEveryFrame | pythonlibs/api/fileclassification.py:143-177 | for a scanned sequence the '#' name is prefix, '#' times padding, extension; writing any frame's number, zero-padded, in place of the '#'s names a file that decomposes back to that frame |
| LegacySequences.HoudiniNameOfScan | pythonlibs/api/fileclassification.py:166-172 | for a scanned sequence the `$F` name is the locked prefix, `$F`, the padding as a number when it exceeds 1, and the locked extension |
| LegacySequences.GetFormattedHashExample | pythonlibs/api/fileclassification.py:150 | 4-digit padding gives `fooBar.####.exr`, and `shots/fooBar.####.exr` with the directory |
| LegacySequences.GetFormattedHoudiniExample | pythonlibs/api/fileclassification.py:154 | 4-digit padding with `$F` gives `fooBar.$F4.exr` |
| LegacySequences.GetFormattedHoudiniUnpadded | pythonlibs/api/fileclassification.py:170 | padding 1 with `$F` gives `fooBar.$F.exr` |
| RangeExpr.Walk | python/sdm/files/fileclassification.py:228-256 | the loop and the flush after it emit at least one part |
| RangeExpr.PrettyPrintFrameList | python/sdm/files/fileclassification.py:210-258 | "None" for no frames; otherwise the rendered maximal runs joined by ", ", with a streak start of 0 taken as no streak |
| RangeExpr.PrettyPrintFrameListIntended | python/sdm/files/fileclassification.py:224-258 | the same with the streak test of line 229 corrected to `is None`: "None" for no frames, otherwise the rendered runs, frame 0 included |
| RangeExpr.WalkRendersRuns | python/sdm/files/fileclassification.py:228-256 | the loop emits exactly the tokens of the runs: one number, two numbers for a streak of two, `a-b` for longer ones |
| RangeExpr.WalkOpen | python/sdm/files/fileclassification.py:235-248 | an open streak is emitted when consecutive values run out, and the loop then restarts |
| RangeExpr.ContinuationMeaning | python/sdm/files/fileclassification.py:235-248 | a streak takes exactly the values that go up by one, and stops at the first that does not |
| RangeExpr.RunsAreMaximal | python/sdm/files/fileclassification.py:235-245 | no run starts right after the previous one ends: the streaks are maximal |
| RangeExpr.RunsCover | python/sdm/files/fileclassification.py:228-256 | laid end to end, the runs give the list back whenever no 0 is dropped |
| RangeExpr.SignedNumberOfInt | python/sdm/files/fileclassification.py:280 | the pattern `-?\d+` reads back `str(n)` of any integer |
| RangeExpr.MatchBlock | python/sdm/files/fileclassification.py:280-285 | the block pattern matches exactly when the block starts with `-?\d+`, and its start is that number |
| RangeExpr.Expand | python/sdm/files/fileclassification.py:301-302 | `range(start, end + 1, step)`: strictly ascending, holds exactly start, start + step, ... up to end |
| RangeExpr.ExpandBlock | python/sdm/files/fileclassification.py:288-302 | end < start fails the assertion; a step of 0 makes `range` raise; otherwise strictly ascending, holding exactly start, start + step, ... up to end |
| RangeExpr.ParseBlock | python/sdm/files/fileclassification.py:284-302 | an unmatched block adds nothing; an earlier error is kept; a new error means the block is refused; a success keeps the frames the later blocks gave, after the new ones |
| RangeExpr.ParseBlocks | python/sdm/files/fileclassification.py:283-302 | the loop fails only when some stripped block is refused |
| RangeExpr.ExpandBlockMeaning | python/sdm/files/fileclassification.py:287-302 | an unmatched block contributes nothing; a matched one fails exactly when end < start or the step is 0, and otherwise contributes exactly its grid |
| RangeExpr.ParseBlockMeaning | python/sdm/files/fileclassification.py:283-302 | one round of the block loop fails exactly when the block is refused, and otherwise adds exactly the frames it denotes |
| RangeExpr.ParseBlocksMeaning | python/sdm/files/fileclassification.py:283-302 | the loop fails exactly when some stripped block is refused, and otherwise yields exactly the frames some block denotes |
| RangeExpr.InsertUnique | python/sdm/files/fileclassification.py:304-306 | inserting into a strictly ascending list keeps it so and adds exactly the value |
| RangeExpr.SortUnique | python/sdm/files/fileclassification.py:304-306 | `sorted(set(xs))`: strictly ascending with the same members |
| RangeExpr.ParseFrameString | python/sdm/files/fileclassification.py:260-308 | strictly ascending; fails exactly when some block is refused; otherwise holds exactly the frames some comma-separated block denotes |
| RangeExpr.RenderedTokensClean | python/sdm/files/fileclassification.py:238-256 | every printed token is free of commas and of surrounding whitespace |
| RangeExpr.ParseRenderedRuns | python/sdm/files/fileclassification.py:283-302 | parsing the rendered runs expands each run back to its values |
| RangeExpr.SplitJoined | python/sdm/files/fileclassification.py:279-284 | splitting the ", "-joined tokens at commas gives one piece per token, which strips back to the token |
| RangeExpr.ParseJoined | python/sdm/files/fileclassification.py:279-284 | the blocks the parser sees in printed text are exactly the printed tokens |
| RangeExpr.RoundTrip | python/sdm/files/fileclassification.py:209-308 | parsing the printed form gives back any non-empty strictly ascending list without frame 0 |
| RangeExpr.ZeroStartIsDropped | python/sdm/files/fileclassification.py:229-233 | [0, 1, 2] prints as "1, 2" and does not parse back, while the corrected printer gives "0-2" |
| RangeExpr.RoundTripIntended | python/sdm/files/fileclassification.py:209-258 | with the streak test corrected, parsing the printed form gives back every non-empty strictly ascending list, frame 0 and negative frames included |
| RangeExamples.PrettyPrintDocExample | python/sdm/files/fileclassification.py:215-216 | the documented list [1, 2, 3, 4, 5, 9, 10, 13, 15] prints as "1-5, 9, 10, 13, 15": the code splits the streak 9, 10 into two numbers, where the docstring shows "9-10" |
| RangeExamples.ParseDocExample | python/sdm/files/fileclassification.py:265-266 | the documented string '1-3, 5, 9, 10-20:2' parses to [1, 2, 3, 5, 9, 10, 12, 14, 16, 18, 20], as the docstring says |
| FileUtils.CompareFrom | python/sdm/houdini/fileutils.py:145-153 | with numeric components from position i to 2 in both versions it does not raise, and when it raises some such component is missing or not numeric |
| FileUtils.CompareVersions | python/sdm/houdini/fileutils.py:121-155 | a version it returns is always verB |
| FileUtils.CompareVersionsMeaning | python/sdm/houdini/fileutils.py:142-155 | with three numeric leading components it returns verB exactly when B's (major, minor, build) is lexicographically greater, and None otherwise; later components play no part |
| FileUtils.CompareFromStep | python/sdm/houdini/fileutils.py:145-153 | one round of the loop: equal components go on to the next, otherwise the answer is whether B's is larger |
| FileUtils.CompareVersionsFailsOnShort | python/sdm/houdini/fileutils.py:145-146 | a version without three numeric components, compared with a version that splits the same, raises |
| FileUtils.CompareVersionsIsStrict | houdini/scripts/python/sdmtools/fileutils.py:36-51 | no version is larger than itself, and of two versions at most one is larger than the other |
| FileUtils.CompareVersionsExamples | python/sdm/houdini/fileutils.py:128-132 | 1.0.1 > 1.0.0, 2.2.1 > 1.0.5 and 2.2.1 > 2.1.3, each only in that direction |
| FileUtils.KeepMeaning | python/sdm/houdini/fileutils.py:119 | a filtering comprehension fails exactly when some test raises, and otherwise selects, in order, exactly the entries whose test is true |
| FileUtils.IsLarger | python/sdm/houdini/fileutils.py:119 | the test of one release raises exactly when it has no 'tag_name' or compareVersions raises on the 'v'-stripped versions, and holds exactly when compareVersions returns the stripped tag |
| FileUtils.GetLargerVersions | python/sdm/houdini/fileutils.py:107-119 | fails exactly when some entry cannot be compared; otherwise it is the order-preserving selection of exactly the entries whose 'v'-stripped tag is larger than `compareTo` |
| FileUtils.MergeDict | python/sdm/houdini/fileutils.py:204-222 | the keys of both; the target's value on shared keys; the source's value elsewhere |
| FileUtils.MergeJsonFiles | houdini/scripts/python/sdmtools/fileutils.py:73-79 | exactly the source's keys, each with the target's value when it has one and the source's otherwise |
| FileUtils.MergesAgree | python/sdm/houdini/fileutils.py:218-222 | the two merges agree on the source's keys, are equal when the target adds no key, and merging twice with the same target changes nothing |
| Paths.JoinPath | python/sdm/houdini/fileutils.py:179 | an absolute part replaces what came before; otherwise both parts are kept, in order |
| Paths.JoinFromComponents | python/sdm/houdini/fileutils.py:179 | joining non-empty components puts exactly one '/' between neighbours |
| Paths.JoinAllOfClean | python/sdm/houdini/fileutils.py:174-179 | splitting a clean relative path at '/' and joining the pieces gives it back |
| Paths.ChangeBaseDirSwapsFirst | python/sdm/houdini/fileutils.py:174-179 | with a new base only the first component changes; the rest of a clean path is kept |
| Paths.ChangeBaseDir | python/sdm/houdini/fileutils.py:157-179 | without a new base a clean path comes back unchanged; with one, a path of one component is replaced as a whole |
| Paths.ChangeBaseDirExample | python/sdm/houdini/fileutils.py:164 | 'foo/bar/path.txt' with 'someOtherDir' gives 'someOtherDir/bar/path.txt' |
| Paths.ChangeBaseDirDropsRoot | python/sdm/houdini/fileutils.py:174-179 | without a new base, '/b/c' comes back as 'b/c' |
| Paths.ChangeBaseDirCollapsesSlashes | python/sdm/houdini/fileutils.py:174-179 | without a new base, 'a//c' comes back as 'a/c' |
| Paths.ChangeBaseDirIntended | python/sdm/houdini/fileutils.py:157-172 | the documented behaviour: unchanged without a base; otherwise the base followed by everything from the first '/' on |
| Paths.ChangeBaseDirAgreesOnClean | python/sdm/houdini/fileutils.py:157-179 | on clean relative paths, with a base not ending in '/', the documented behaviour and the code agree |
| Settings.Set | python/sdm/houdini/fileutils.py:46-75 | an existing truthy setting is kept when not overwriting; otherwise fails exactly when e-mail validation refuses the value, and else stores the value under the key and leaves every other key as it was |
| Settings.Get | python/sdm/houdini/fileutils.py:77-95 | the stored value when the key is present, the default when it is not |
| Settings.EmailMatches | python/sdm/houdini/fileutils.py:69 | the e-mail test accepts exactly the strings that start with a match of `[^@]+@[^@]+\.[^@]+` |
| Settings.EmailExamples | python/sdm/houdini/fileutils.py:69 | 'a@b.c' matches; 'a@b' and '@b.c' do not |
| Settings.GetAfterSet | python/sdm/houdini/fileutils.py:46-95 | after a set that stored its value, get returns it, and every other key reads as before |
| Settings.SetTwice | python/sdm/houdini/fileutils.py:63-74 | setting the same value a second time changes nothing |
| Settings.DefaultsAddEmail | python/sdm/houdini/fileutils.py:53-56 | on the default settings a missing key is added even without overwriting |
| Settings.DefaultsKeepVersion | python/sdm/houdini/fileutils.py:19-24 | the default 'version' is kept without overwriting and replaced with it |
| Settings.DefaultsGet | python/sdm/houdini/fileutils.py:77-91 | on the default settings get returns a stored value as it is and the default for a missing key |
| CamelCase.MatchEnd | python/sdm/utils.py:22 | the lazy `.+?` stops at the first position where a hump or the end follows, and never crosses a newline |
| CamelCase.SplitByCamelCase | python/sdm/utils.py:10-24 | the empty word gives no pieces; every piece is non-empty and has no newline |
| CamelCase.PiecesRespect | python/sdm/utils.py:22-24 | on a newline-free word the matches cut the word at every hump and nowhere else |
| CamelCase.SplitByCamelCaseMeaning | python/sdm/utils.py:22-24 | on a newline-free word the pieces concatenate to the word and are the one cut at exactly its humps |
| CamelCase.SplitFooBar | python/sdm/utils.py:13 | 'fooBar' gives ['foo', 'Bar'] |
| CamelCase.SplitFOOBar | python/sdm/utils.py:14 | 'FOOBar' gives ['FOO', 'Bar'] |
| CamelCase.Words | python/sdm/utils.py:44 | `split()` yields non-empty words without whitespace |
| CamelCase.WordsUnspaced | python/sdm/utils.py:44 | the words hold exactly the input's non-whitespace characters, in order |
| CamelCase.WordsAppend | python/sdm/utils.py:44 | a whitespace character separates the words before it from those after it |
| CamelCase.Lower | python/sdm/utils.py:48 | `str.lower()` lower-cases each character and keeps the length |
| CamelCase.Title | python/sdm/utils.py:50 | `str.title()` keeps the length, upper-cases the first letter of each run of letters, lower-cases the others and keeps other characters |
| CamelCase.TitleOfLetters | python/sdm/utils.py:50 | a word of letters title-cases to its first letter upper-cased and the rest lower-cased |
| CamelCase.ConvertToCamelCase | python/sdm/utils.py:26-52 | the result has no whitespace and spells the input's non-whitespace characters in order, up to case |
| CamelCase.ConvertToCamelCaseFirst | python/sdm/utils.py:46-50 | when the first word starts with a letter, the result starts lower-case with the flag and upper-case without it |
| CamelCase.ConvertTwoWords | python/sdm/utils.py:44-52 | two words are re-cased one by one, the first lowered with the flag and title-cased without it, then joined |
| CamelCase.ConvertFooBar | python/sdm/utils.py:30 | 'Foo Bar' gives 'FooBar' |
| CamelCase.ConvertFooBarLower | python/sdm/utils.py:31 | 'Foo Bar' with the flag gives 'fooBar' |
| CamelCase.ConvertLowerFooBar | python/sdm/utils.py:32 | 'foo bar' gives 'FooBar' |
| Text.ParseInt | python/sdm/houdini/fileutils.py:146 | `int()` of a non-empty string of digits is its decimal value |
| Text.ParseIntOfIntToString | python/sdm/files/fileclassification.py:301 | `int(str(n)) == n` for every integer |
| Text.Split | python/sdm/houdini/fileutils.py:142-143 | `split('.')` gives at least one piece, no piece holds the separator, and the first is no longer than the input |
| Text.JoinSplit | python/sdm/houdini/fileutils.py:174-179 | joining the pieces of a split with the separator gives the input back |
| Text.Strip | python/sdm/files/fileclassification.py:284 | `strip()` leaves no white space at either end and never lengthens the text |
| Text.StripClean | python/sdm/files/fileclassification.py:284 | stripping leading white space off a clean token gives the token back |
| Text.StripPadded | python/sdm/files/fileclassification.py:284 | stripping white space off both sides of a token that starts and ends with a non-space gives exactly the token back, inner white space included |
| Text.RepeatAt | pythonlibs/api/fileclassification.py:167 | `format * padding` holds, at position i, the character at i modulo the length of `format` |

## Left out

- Directory listing: `os.listdir` is replaced by the listing as a sequence of names, in the order it is returned.
- Custom patterns: `Sequence` accepts caller-supplied prefix and extension patterns. Only the defaults are modelled, because arbitrary regular expressions are not.
- The newer `getFormatted` is left out: it never returns a name. Without frames `self.getPadding()` raises IndexError (python/sdm/files/fileclassification.py:175); otherwise the unqualified `HOUDINI_FRAME_FORMAT` raises NameError (:178). The older, working one is modelled.
- Iterator cursor: the class-level `_index = 0` only gives the start value; the first `next()` creates an attribute on the instance, so every instance has its own cursor. That cursor is never reset, so a second loop over the same instance yields nothing (Sequences.Drain). The object's state is not modelled: the cursor is an explicit parameter of `Sequences.Next` and `Sequences.Drain`.
- `os.path.join` is modelled for a POSIX host only; the separator is always '/'.
- `SettingsFile`: its constructor, `write`, JSON reading and writing, and logging are file I/O and are not modelled. The settings are the dictionary `json.loads` produced.
- JSON numbers other than integers are not modelled.
- `writeFileWithStructure`, `isDescendant`, `getRelativeToHip` and `getAllFileReferences` are not modelled: they are file-system or host calls.
- The range filter: a tuple of any length other than 0 or 2 is not modelled.
- `int()`: whitespace between the sign and the digits, accepted by some Python 2 paths, is not modelled.
- CamelCase.SplitByCamelCaseMeaning: stated for words without a newline only. `.` does not match a newline, so the pieces of such a word do not concatenate back to it.
- CamelCase.ConvertToCamelCase: states the result up to case. The exact re-casing is stated word by word for two words (CamelCase.ConvertTwoWords) and for title-casing (CamelCase.Title), not for any number of words.
- FileUtils.CompareVersionsFailsOnShort: states the error only when the two versions split the same way. With different earlier components the loop returns before it reaches a missing or non-numeric one, so no error is promised then.
- Sequences.PrintedMissingParses: excludes a missing frame 0, which the printer drops (see Findings).
- RangeExpr.Walk: its own contract states only that some part is emitted; the parts themselves are stated by RangeExpr.WalkRendersRuns.
- RangeExpr.ParseBlocks: its own contract states only one direction of the error case; both directions and the frames are stated by RangeExpr.ParseBlocksMeaning.
- RangeExpr.ParseBlock: its own contract does not state the frames a block adds; RangeExpr.ParseBlockMeaning does.
- Scan.Collect: its own contract states bounds only; which names are kept is stated by Scan.CollectLocksOnFirst and Scan.CollectLocked.
- Sequences.GetLength: its own contract states when it fails; the value for a scanned sequence is stated by Sequences.LengthSpansFrames.
- Paths.ChangeBaseDir: its own contract covers a missing base and a one-component path; the general case is stated by Paths.ChangeBaseDirSwapsFirst and Paths.ChangeBaseDirAgreesOnClean.
- Text.ParseInt: its own contract states the unsigned case; the signed case is stated through Text.ParseIntOfIntToString.
- Text.Strip: its own contract states only the shape of the result; that exactly the white space on both sides is removed is stated by Text.StripPadded.
- Text.Split: its own contract states the shape of the pieces; that they join back to the input is stated by Text.JoinSplit.
- FileUtils.CompareVersions: its own contract states only that a returned version is verB; when it returns one is stated by FileUtils.CompareVersionsMeaning.
- RangeExpr.RoundTrip: excludes frame 0 for the same reason. RangeExpr.RoundTripIntended states it without that exclusion.
- The class-level default `_settings` dictionary is shared by all `SettingsFile` instances that fail to read a file. Only its contents are modelled.

## Findings

| source | as written | input that shows it | evidently intended | confidence | as-written member | corrected member |
|---|---|---|---|---|---|---|
| python/sdm/files/fileclassification.py:229 | `if not currRangeStart` treats a streak that starts at frame 0 as no streak, so the 0 is overwritten by the next frame | `[0, 1, 2]` prints as `1, 2` | test `currRangeStart is None`, printing `0-2` | high, not executed | RangeExpr.ZeroStartIsDropped | RangeExpr.RoundTripIntended |
| python/sdm/houdini/fileutils.py:174-179 | the docstring says the path is unchanged when `newBaseDir` is None, but splitting at '/' and joining drops a leading '/' and collapses '//' | `changeBaseDir('/b/c', None)` gives `b/c` | return the path as given when no base is given | high, not executed | Paths.ChangeBaseDirDropsRoot | Paths.ChangeBaseDirIntended |

The first row is corrected in `RangeExpr.PrettyPrintFrameListIntended`. The
round trip is proved for it in `RangeExpr.RoundTripIntended`. The missing-frames printer
of `Sequences` keeps the code's behaviour, because it is what callers get.

The second row is corrected in `Paths.ChangeBaseDirIntended`.
`Paths.ChangeBaseDirAgreesOnClean` proves that it agrees with the code on
clean relative paths. `Paths.ChangeBaseDirCollapsesSlashes` shows the '//'
case.

=== FILE: camel.dfy ===
/** Camel-case helpers: splitting a word at its camel-case humps with the
    pattern `.+?(?:(?<=[a-z])(?=[A-Z])|(?<=[A-Z])(?=[A-Z][a-z])|$)` under
    `re.finditer`, and joining whitespace-separated words back into one
    camel-case word. Strings are byte strings in the C locale: the letters are
    the ASCII letters and whitespace is what `isspace` accepts. */
module CamelCase {
  import opened Results
  import opened Text

  // ------------------------------------------------------ splitByCamelCase

  /** A hump between `s[q - 1]` and `s[q]`: a lower-case letter followed by an
      upper-case one, or an upper-case letter followed by an upper-case one
      that starts a lower-case run. */
  predicate CamelBoundary(s: string, q: int)
    requires 0 < q < |s|
  {
    (IsLower(s[q - 1]) && IsUpper(s[q]))
    || (IsUpper(s[q - 1]) && IsUpper(s[q]) && q + 1 < |s| && IsLower(s[q + 1]))
  }

  /** Where the group after `.+?` succeeds: at a hump, or where `$` matches —
      the end of the string, or just before a newline that ends it. */
  predicate StopsAt(s: string, q: int)
    requires 0 < q <= |s|
  {
    q == |s| || (q == |s| - 1 && s[q] == '\n') || CamelBoundary(s, q)
  }

  /** The lazy `.+?` having consumed up to `q`: the first end at or after `q`
      where the group succeeds, or None when a newline (which '.' does not
      match) comes first. */
  function MatchEnd(s: string, q: nat): (r: Option<nat>)
    requires 0 < q <= |s|
    ensures r.Some? ==> q <= r.value <= |s| && StopsAt(s, r.value)
    ensures r.Some? ==> forall i :: q - 1 <= i < r.value ==> s[i] != '\n'
    ensures r.Some? ==> forall k :: q <= k < r.value ==> !StopsAt(s, k)
    ensures '\n' !in s ==> r.Some?
    decreases |s| - q
  {
    if s[q - 1] == '\n' then None
    else if StopsAt(s, q) then Some(q)
    else MatchEnd(s, q + 1)
  }

  /** The matches `re.finditer` yields from position `p`: a match is tried at
      each start in turn, and the search resumes where a match ended. */
  function Pieces(s: string, p: nat): (ps: seq<string>)
    requires p <= |s|
    ensures forall i :: 0 <= i < |ps| ==> ps[i] != [] && '\n' !in ps[i]
    decreases |s| - p
  {
    if p == |s| then []
    else
      match MatchEnd(s, p + 1)
      case None => Pieces(s, p + 1)
      case Some(q) =>
        assert forall i :: 0 <= i < q - p ==> s[p..q][i] == s[p + i];
        [s[p..q]] + Pieces(s, q)
  }

  /** `splitByCamelCase(word)`. */
  function SplitByCamelCase(word: string): (r: seq<string>)
    ensures word == [] ==> r == []
    ensures forall i :: 0 <= i < |r| ==> r[i] != [] && '\n' !in r[i]
  {
    Pieces(word, 0)
  }

  /** `ps` cuts `s[p..]` into non-empty pieces, with a cut at every hump and
      nowhere else. */
  ghost predicate Respects(s: string, p: nat, ps: seq<string>)
    requires p <= |s|
    decreases |ps|
  {
    if ps == [] then p == |s|
    else
      var e := p + |ps[0]|;
      ps[0] != [] && e <= |s| && s[p..e] == ps[0]
      && (forall q :: p < q < e ==> !CamelBoundary(s, q))
      && (e < |s| ==> CamelBoundary(s, e))
      && Respects(s, e, ps[1..])
  }

  /** On a word without newlines the matches cut at the humps. */
  lemma {:induction false} PiecesRespect(s: string, p: nat)
    requires '\n' !in s && p <= |s|
    ensures Respects(s, p, Pieces(s, p))
    decreases |s| - p
  {
    if p < |s| {
      var q := MatchEnd(s, p + 1).value;
      assert Pieces(s, p) == [s[p..q]] + Pieces(s, q);
      forall k | p < k < q
        ensures !CamelBoundary(s, k)
      {
        assert !StopsAt(s, k);
      }
      PiecesRespect(s, q);
      assert ([s[p..q]] + Pieces(s, q))[1..] == Pieces(s, q);
    }
  }

  /** There is only one way to cut at exactly the humps. */
  lemma {:induction false} RespectsUnique(s: string, p: nat, a: seq<string>, b: seq<string>)
    requires p <= |s|
    requires Respects(s, p, a) && Respects(s, p, b)
    ensures a == b
    decreases |a|
  {
    if a != [] && b != [] {
      var ea, eb := p + |a[0]|, p + |b[0]|;
      if ea < eb {
        assert false;
      } else if eb < ea {
        assert false;
      }
      RespectsUnique(s, ea, a[1..], b[1..]);
      assert a == [a[0]] + a[1..] && b == [b[0]] + b[1..];
    }
  }

  /** Concatenating a cut gives back what was cut. */
  lemma {:induction false} RespectsConcat(s: string, p: nat, ps: seq<string>)
    requires p <= |s| && Respects(s, p, ps)
    ensures Join("", ps) == s[p..]
    decreases |ps|
  {
    if ps != [] {
      var e := p + |ps[0]|;
      RespectsConcat(s, e, ps[1..]);
      JoinNothingCons(ps[0], ps[1..]);
      assert ps == [ps[0]] + ps[1..];
      assert s[p..] == s[p..e] + s[e..];
    }
  }

  /** `''.join` of a list with a head. */
  lemma JoinNothingCons(a: string, rest: seq<string>)
    ensures Join("", [a] + rest) == a + Join("", rest)
  {
    if rest != [] {
      assert ([a] + rest)[1..] == rest;
    }
  }

  /** For a word without newlines: the pieces are non-empty, they concatenate
      to the word, and they are the one cut of the word at exactly its humps. */
  lemma SplitByCamelCaseMeaning(word: string, ps: seq<string>)
    requires '\n' !in word
    ensures Join("", SplitByCamelCase(word)) == word
    ensures Respects(word, 0, ps) <==> ps == SplitByCamelCase(word)
  {
    PiecesRespect(word, 0);
    RespectsConcat(word, 0, SplitByCamelCase(word));
    if Respects(word, 0, ps) {
      RespectsUnique(word, 0, ps, SplitByCamelCase(word));
    }
  }

  /** 'fooBar' --> ['foo', 'Bar']. */
  lemma SplitFooBar(word: string)
    requires word == "fooBar"
    ensures SplitByCamelCase(word) == ["foo", "Bar"]
  {
    var ps := ["foo", "Bar"];
    assert word[0..3] == "foo" && word[3..6] == "Bar";
    assert !CamelBoundary(word, 1) && !CamelBoundary(word, 2) && CamelBoundary(word, 3);
    assert !CamelBoundary(word, 4) && !CamelBoundary(word, 5);
    assert Respects(word, 6, ps[2..]);
    assert Respects(word, 3, ps[1..]);
    assert Respects(word, 0, ps);
    SplitByCamelCaseMeaning(word, ps);
  }

  /** 'FOOBar' --> ['FOO', 'Bar']. */
  lemma SplitFOOBar(word: string)
    requires word == "FOOBar"
    ensures SplitByCamelCase(word) == ["FOO", "Bar"]
  {
    var ps := ["FOO", "Bar"];
    assert word[0..3] == "FOO" && word[3..6] == "Bar";
    assert !CamelBoundary(word, 1) && !CamelBoundary(word, 2) && CamelBoundary(word, 3);
    assert !CamelBoundary(word, 4) && !CamelBoundary(word, 5);
    assert Respects(word, 6, ps[2..]);
    assert Respects(word, 3, ps[1..]);
    assert Respects(word, 0, ps);
    SplitByCamelCaseMeaning(word, ps);
  }

  // ------------------------------------------------------ convertToCamelCase

  function ToLower(c: char): char { if IsUpper(c) then (c as int + 32) as char else c }
  function ToUpper(c: char): char { if IsLower(c) then (c as int - 32) as char else c }

  /** `str.lower()`. */
  function Lower(s: string): (r: string)
    ensures |r| == |s| && forall i :: 0 <= i < |s| ==> r[i] == ToLower(s[i])
  {
    seq(|s|, i requires 0 <= i < |s| => ToLower(s[i]))
  }

  /** The length of the run of non-whitespace that starts `s`. */
  function WordLength(s: string): (n: nat)
    ensures n <= |s| && NoSpace(s[..n]) && (n < |s| ==> IsSpace(s[n]))
  {
    if s == [] || IsSpace(s[0]) then 0
    else
      var n := 1 + WordLength(s[1..]);
      assert s[..n] == [s[0]] + s[1..][..n - 1];
      n
  }

  /** `str.split()` without a separator: the maximal runs of non-whitespace. */
  function Words(s: string): (ws: seq<string>)
    ensures forall i :: 0 <= i < |ws| ==> ws[i] != [] && NoSpace(ws[i])
    decreases |s|
  {
    if s == [] then []
    else if IsSpace(s[0]) then Words(s[1..])
    else
      var n := WordLength(s);
      [s[..n]] + Words(s[n..])
  }

  /** `s` with its whitespace removed. */
  function Unspaced(s: string): (r: string)
  {
    if s == [] then [] else (if IsSpace(s[0]) then [] else [s[0]]) + Unspaced(s[1..])
  }

  lemma {:induction false} UnspacedAppend(a: string, b: string)
    ensures Unspaced(a + b) == Unspaced(a) + Unspaced(b)
    decreases |a|
  {
    if a != [] {
      var head := if IsSpace(a[0]) then [] else [a[0]];
      assert (a + b)[0] == a[0] && (a + b)[1..] == a[1..] + b;
      UnspacedAppend(a[1..], b);
      calc {
        Unspaced(a + b);
        head + Unspaced(a[1..] + b);
        head + (Unspaced(a[1..]) + Unspaced(b));
        (head + Unspaced(a[1..])) + Unspaced(b);
        Unspaced(a) + Unspaced(b);
      }
    } else {
      assert a + b == b;
    }
  }

  lemma {:induction false} UnspacedOfWord(w: string)
    requires NoSpace(w)
    ensures Unspaced(w) == w
    decreases |w|
  {
    if w != [] {
      UnspacedOfWord(w[1..]);
    }
  }

  /** The words hold the non-whitespace characters of `s`, in order. */
  lemma {:induction false} WordsUnspaced(s: string)
    ensures Join("", Words(s)) == Unspaced(s)
    decreases |s|
  {
    if s != [] {
      if IsSpace(s[0]) {
        WordsUnspaced(s[1..]);
      } else {
        var n := WordLength(s);
        WordsUnspaced(s[n..]);
        JoinNothingCons(s[..n], Words(s[n..]));
        assert s == s[..n] + s[n..];
        UnspacedAppend(s[..n], s[n..]);
        UnspacedOfWord(s[..n]);
      }
    }
  }

  lemma {:induction false} WordLengthAppend(a: string, c: char, b: string)
    requires IsSpace(c)
    ensures WordLength(a + [c] + b) == WordLength(a)
    decreases |a|
  {
    if a == [] {
      assert (a + [c] + b)[0] == c;
    } else if !IsSpace(a[0]) {
      assert (a + [c] + b)[1..] == a[1..] + [c] + b;
      WordLengthAppend(a[1..], c, b);
    }
  }

  /** A whitespace character separates words: the words of `a + c + b` are
      those of `a` followed by those of `b`. */
  lemma {:induction false} WordsAppend(a: string, c: char, b: string)
    requires IsSpace(c)
    ensures Words(a + [c] + b) == Words(a) + Words(b)
    decreases |a|
  {
    var s := a + [c] + b;
    if a == [] {
      assert s[1..] == b;
    } else if IsSpace(a[0]) {
      assert s[1..] == a[1..] + [c] + b;
      WordsAppend(a[1..], c, b);
    } else {
      var n := WordLength(a);
      WordLengthAppend(a, c, b);
      assert s[..n] == a[..n];
      assert s[n..] == a[n..] + [c] + b;
      WordsAppend(a[n..], c, b);
    }
  }

  /** A run without whitespace is one word. */
  lemma WordsOfWord(w: string)
    requires w != [] && NoSpace(w)
    ensures Words(w) == [w]
  {
    var n := WordLength(w);
    assert n == |w|;
    calc {
      Words(w);
      [w[..n]] + Words(w[n..]);
      { assert w[..n] == w && w[n..] == []; }
      [w] + Words([]);
    }
  }

  /** Python 2's `str.title()`, as its C loop does it: a letter after a
      letter is lower-cased, any other letter upper-cased; `prevCased` says
      whether the previous character was a letter. */
  function TitleFrom(w: string, prevCased: bool): (r: string)
    ensures |r| == |w|
  {
    if w == [] then []
    else
      var c := w[0];
      if IsUpper(c) then [if prevCased then ToLower(c) else c] + TitleFrom(w[1..], true)
      else if IsLower(c) then [if prevCased then c else ToUpper(c)] + TitleFrom(w[1..], true)
      else [c] + TitleFrom(w[1..], false)
  }

  /** `w.title()`: upper-cases the first letter of each run of letters,
      lower-cases the others and keeps every other character. */
  function Title(w: string): (r: string)
    ensures |r| == |w| && forall i :: 0 <= i < |w| ==> r[i] == TitleChar(w, i)
  {
    TitleFromMeaning(w, 0);
    assert w[0..] == w;
    TitleFrom(w, false)
  }

  /** The character at `i` of the title-cased `w`, stated position by position. */
  function TitleChar(w: string, i: nat): char
    requires i < |w|
  {
    if !IsLetter(w[i]) then w[i]
    else if i > 0 && IsLetter(w[i - 1]) then ToLower(w[i])
    else ToUpper(w[i])
  }

  lemma {:induction false} TitleFromMeaning(w: string, k: nat)
    requires k <= |w|
    ensures var t := TitleFrom(w[k..], k > 0 && IsLetter(w[k - 1]));
            forall i :: k <= i < |w| ==> t[i - k] == TitleChar(w, i)
    decreases |w| - k
  {
    if k < |w| {
      TitleFromMeaning(w, k + 1);
      assert w[k..][1..] == w[k + 1..];
    }
  }

  /** The cased form of the word at position `i`. */
  function Recase(ws: seq<string>, firstIsLowercase: bool, i: nat): string
    requires i < |ws|
  {
    if i == 0 && firstIsLowercase then Lower(ws[0]) else Title(ws[i])
  }

  /** Every word of `ws`, re-cased. */
  function Cased(ws: seq<string>, firstIsLowercase: bool): (r: seq<string>)
    ensures |r| == |ws| && forall i :: 0 <= i < |ws| ==> r[i] == Recase(ws, firstIsLowercase, i)
  {
    seq(|ws|, i requires 0 <= i < |ws| => Recase(ws, firstIsLowercase, i))
  }

  /** `convertToCamelCase(input, firstIsLowercase)`: the camel-case word
      holds no whitespace, and it spells the input's non-whitespace
      characters in order, up to case. */
  function ConvertToCamelCase(input: string, firstIsLowercase: bool): (r: string)
    ensures NoSpace(r) && Lower(r) == Lower(Unspaced(input))
  {
    CasedMeaning(input, firstIsLowercase);
    Join("", Cased(Words(input), firstIsLowercase))
  }

  /** Re-casing keeps the length and the letters up to case, and turns no
      character into whitespace. */
  lemma RecaseKeeps(w: string, lower: bool)
    requires NoSpace(w)
    ensures var r := if lower then Lower(w) else Title(w);
            Lower(r) == Lower(w) && NoSpace(r)
  {
  }

  lemma {:induction false} LowerJoin(xs: seq<string>, ys: seq<string>)
    requires |xs| == |ys| && forall i :: 0 <= i < |xs| ==> Lower(xs[i]) == Lower(ys[i]) && NoSpace(xs[i])
    ensures Lower(Join("", xs)) == Lower(Join("", ys)) && NoSpace(Join("", xs))
    decreases |xs|
  {
    if xs != [] {
      LowerJoin(xs[1..], ys[1..]);
      JoinNothingCons(xs[0], xs[1..]);
      JoinNothingCons(ys[0], ys[1..]);
      assert xs == [xs[0]] + xs[1..] && ys == [ys[0]] + ys[1..];
      LowerAppend(xs[0], Join("", xs[1..]));
      LowerAppend(ys[0], Join("", ys[1..]));
    }
  }

  lemma LowerAppend(a: string, b: string)
    ensures Lower(a + b) == Lower(a) + Lower(b)
  {
  }

  /** Joining the re-cased words keeps the letters up to case and adds no
      whitespace. */
  lemma CasedMeaning(input: string, firstIsLowercase: bool)
    ensures var r := Join("", Cased(Words(input), firstIsLowercase));
            NoSpace(r) && Lower(r) == Lower(Unspaced(input))
  {
    var ws := Words(input);
    var cased := Cased(ws, firstIsLowercase);
    forall i | 0 <= i < |ws|
      ensures Lower(cased[i]) == Lower(ws[i]) && NoSpace(cased[i])
    {
      RecaseKeeps(ws[i], i == 0 && firstIsLowercase);
    }
    LowerJoin(cased, ws);
    WordsUnspaced(input);
  }

  /** The first word decides the case of the first letter: lower-case with
      the flag, upper-case without it. */
  lemma ConvertToCamelCaseFirst(input: string, firstIsLowercase: bool)
    requires Words(input) != [] && IsLetter(Words(input)[0][0])
    ensures var r := ConvertToCamelCase(input, firstIsLowercase);
            r != [] && (firstIsLowercase ==> IsLower(r[0])) && (!firstIsLowercase ==> IsUpper(r[0]))
  {
    var ws := Words(input);
    var cased := Cased(ws, firstIsLowercase);
    JoinNothingCons(cased[0], cased[1..]);
    assert cased == [cased[0]] + cased[1..];
  }

  /** Two words separated by one space are re-cased one by one and joined. */
  lemma ConvertTwoWords(x: string, y: string, firstIsLowercase: bool)
    requires x != [] && y != [] && NoSpace(x) && NoSpace(y)
    ensures ConvertToCamelCase(x + " " + y, firstIsLowercase)
            == (if firstIsLowercase then Lower(x) else Title(x)) + Title(y)
  {
    WordsAppend(x, ' ', y);
    WordsOfWord(x);
    WordsOfWord(y);
    assert x + " " + y == x + [' '] + y;
    var ws := [x, y];
    assert Words(x + " " + y) == ws;
    var cased := Cased(ws, firstIsLowercase);
    assert cased == [Recase(ws, firstIsLowercase, 0), Title(y)];
    JoinNothingCons(cased[0], cased[1..]);
    assert cased[1..] == [Title(y)] && cased == [cased[0]] + cased[1..];
  }

  /** A word of letters title-cases to its first letter upper-cased and the
      rest lower-cased. */
  lemma TitleOfLetters(w: string)
    requires w != [] && AllLetters(w)
    ensures Title(w) == [ToUpper(w[0])] + Lower(w[1..])
  {
  }

  /** A word of letters whose tail is already lower-case title-cases by
      upper-casing its first letter. */
  lemma TitleOfCapitalised(w: string)
    requires w != [] && AllLetters(w) && forall i :: 1 <= i < |w| ==> IsLower(w[i])
    ensures Title(w) == [ToUpper(w[0])] + w[1..]
  {
    TitleOfLetters(w);
    assert Lower(w[1..]) == w[1..];
  }

  /** 'Foo Bar' --> 'FooBar'. */
  lemma ConvertFooBar(input: string, x: string, y: string)
    requires input == "Foo Bar" && x == "Foo" && y == "Bar"
    ensures ConvertToCamelCase(input, false) == "FooBar"
  {
    assert input == x + " " + y;
    ConvertTwoWords(x, y, false);
    TitleOfCapitalised(x);
    TitleOfCapitalised(y);
    Spelled(x, y, "FooBar");
  }

  /** 'Foo Bar' with firstIsLowercase --> 'fooBar'. */
  lemma ConvertFooBarLower(input: string, x: string, y: string)
    requires input == "Foo Bar" && x == "Foo" && y == "Bar"
    ensures ConvertToCamelCase(input, true) == "fooBar"
  {
    assert input == x + " " + y;
    ConvertTwoWords(x, y, true);
    TitleOfCapitalised(y);
    LowerFoo(x, "foo");
    SpelledLower(Lower(x), y, "fooBar");
  }

  /** 'foo bar' --> 'FooBar'. */
  lemma ConvertLowerFooBar(input: string, x: string, y: string)
    requires input == "foo bar" && x == "foo" && y == "bar"
    ensures ConvertToCamelCase(input, false) == "FooBar"
  {
    assert input == x + " " + y;
    ConvertTwoWords(x, y, false);
    TitleOfCapitalised(x);
    TitleOfCapitalised(y);
    Spelled(x, y, "FooBar");
  }

  lemma Spelled(x: string, y: string, r: string)
    requires (x == "foo" || x == "Foo") && (y == "bar" || y == "Bar") && r == "FooBar"
    ensures ([ToUpper(x[0])] + x[1..]) + ([ToUpper(y[0])] + y[1..]) == r
  {
  }

  lemma LowerFoo(x: string, l: string)
    requires x == "Foo" && l == "foo"
    ensures Lower(x) == l
  {
  }

  lemma SpelledLower(l: string, y: string, r: string)
    requires l == "foo" && y == "Bar" && r == "fooBar"
    ensures l + ([ToUpper(y[0])] + y[1..]) == r
  {
  }
}

=== FILE: frame.dfy ===
/** File names of frames and the `Frame` record built from them.

    With its default patterns, `Sequence._decompose` matches a file name
    against `prefix [.-_] digits . letters` anchored at both ends, where the
    prefix is drawn from `[A-Za-z0-9_.-]`. Python's `$` also matches just
    before a final newline, so one trailing "\n" is ignored. */
module Frames {
  import opened Results
  import opened Text

  /** The three groups of the frame-name pattern: prefix, frame padding (the
      digit token) and extension. The separator is not a group. */
  datatype Groups = Groups(prefix: string, padding: string, ext: string)

  predicate IsSeparator(c: char) { c == '.' || c == '-' || c == '_' }

  /** `[\w\-\.]` on a byte string: ASCII letters, digits, `_`, `-` and `.`. */
  predicate IsPrefixChar(c: char) { IsLetter(c) || IsDigit(c) || c == '_' || c == '-' || c == '.' }

  predicate AllPrefixChars(s: string) { forall i :: 0 <= i < |s| ==> IsPrefixChar(s[i]) }

  /** Groups the default pattern can produce. */
  predicate WellFormed(g: Groups)
  {
    |g.prefix| > 0 && AllPrefixChars(g.prefix)
    && |g.padding| > 0 && AllDigits(g.padding)
    && |g.ext| > 0 && AllLetters(g.ext)
  }

  /** The file name spelled by groups and a separator. */
  function Compose(g: Groups, sep: char): string
  {
    g.prefix + [sep] + g.padding + "." + g.ext
  }

  /** The text the anchored pattern has to cover: the name without one final newline. */
  function Body(name: string): (b: string)
    ensures b == name || b + "\n" == name
  {
    if |name| > 0 && name[|name| - 1] == '\n' then name[..|name| - 1] else name
  }

  function LastIndexOf(s: string, c: char): (i: nat)
    requires c in s
    ensures i < |s| && s[i] == c && c !in s[i + 1..]
  {
    if s[|s| - 1] == c then |s| - 1
    else
      var i := LastIndexOf(s[..|s| - 1], c);
      assert s[i + 1..] == s[..|s| - 1][i + 1..] + [s[|s| - 1]];
      i
  }

  /** The length of the run of digits that `s` ends with. */
  function TrailingDigits(s: string): (n: nat)
    ensures n <= |s| && AllDigits(s[|s| - n..])
    ensures n < |s| ==> !IsDigit(s[|s| - n - 1])
  {
    if s != [] && IsDigit(s[|s| - 1]) then
      var n := 1 + TrailingDigits(s[..|s| - 1]);
      assert s[|s| - n..] == s[..|s| - 1][|s| - n..] + [s[|s| - 1]];
      n
    else 0
  }

  /** The name split at its last '.': the text before it and the extension after it. */
  function AtLastDot(b: string): (r: Option<(string, string)>)
    ensures r.Some? ==> b == r.value.0 + "." + r.value.1 && '.' !in r.value.1
  {
    if '.' !in b then None
    else
      var d := LastIndexOf(b, '.');
      assert b == b[..d] + "." + b[d + 1..];
      Some((b[..d], b[d + 1..]))
  }

  /** The text before the extension split into the part before the frame
      token and the token, the maximal run of trailing digits. */
  function AtToken(before: string): (r: (string, string))
    ensures before == r.0 + r.1 && AllDigits(r.1)
    ensures r.0 != [] ==> !IsDigit(r.0[|r.0| - 1])
  {
    var n := TrailingDigits(before);
    SplitFromEnd(before, n);
    (before[..|before| - n], before[|before| - n..])
  }

  lemma SplitFromEnd(s: string, n: nat)
    requires n <= |s| && (n < |s| ==> !IsDigit(s[|s| - n - 1]))
    ensures s == s[..|s| - n] + s[|s| - n..]
    ensures s[..|s| - n] != [] ==> !IsDigit(s[..|s| - n][|s| - n - 1])
  {
  }

  /** `Sequence._decompose(name)` with the default patterns: the groups of the
      match, or `None` when the name is not a frame name. The extension is the
      text after the last '.', the token the digits just before that '.', and
      a separator must come between the token and the prefix. */
  function Decompose(name: string): (r: Option<Groups>)
    ensures r.Some? ==> WellFormed(r.value)
  {
    var parts := AtLastDot(Body(name));
    if parts.None? then None else FromParts(parts.value.0, parts.value.1)
  }

  /** The groups, given the text before the last '.' and the extension. */
  function FromParts(before: string, ext: string): (r: Option<Groups>)
    ensures r.Some? ==> WellFormed(r.value)
  {
    var split := AtToken(before);
    var rest, token := split.0, split.1;
    if ext == [] || !AllLetters(ext) || token == [] || |rest| < 2
       || !IsSeparator(rest[|rest| - 1]) || !AllPrefixChars(rest[..|rest| - 1])
    then None
    else Some(Groups(rest[..|rest| - 1], token, ext))
  }

  /** What Decompose returns spells the name's body, with a separator after the prefix. */
  lemma DecomposeSound(name: string)
    requires Decompose(name).Some?
    ensures var g := Decompose(name).value;
            var b := Body(name);
            |b| > |g.prefix| && IsSeparator(b[|g.prefix|]) && b == Compose(g, b[|g.prefix|])
  {
    var parts := AtLastDot(Body(name));
    FromPartsSound(parts.value.0, parts.value.1);
  }

  lemma FromPartsSound(before: string, ext: string)
    requires FromParts(before, ext).Some?
    ensures var g := FromParts(before, ext).value;
            var b := before + "." + ext;
            |b| > |g.prefix| && IsSeparator(b[|g.prefix|]) && b == Compose(g, b[|g.prefix|])
  {
    var split := AtToken(before);
    SoundStep(before + "." + ext, before, ext, split.0, split.1, FromParts(before, ext).value);
  }

  lemma SoundStep(b: string, before: string, ext: string, rest: string, token: string, g: Groups)
    requires b == before + "." + ext && before == rest + token
    requires |rest| >= 2 && IsSeparator(rest[|rest| - 1])
    requires g == Groups(rest[..|rest| - 1], token, ext)
    ensures |b| > |g.prefix| && IsSeparator(b[|g.prefix|]) && b == Compose(g, b[|g.prefix|])
  {
    var prefix := rest[..|rest| - 1];
    assert rest == prefix + [rest[|rest| - 1]];
    assert b[|prefix|] == rest[|rest| - 1];
  }

  lemma LastIndexOfAt(a: string, c: char, e: string)
    requires c !in e
    ensures c in a + [c] + e && LastIndexOf(a + [c] + e, c) == |a|
  {
    var s := a + [c] + e;
    assert s[|a|] == c;
    var i := LastIndexOf(s, c);
    assert s[|a| + 1..] == e;
  }

  lemma AtLastDotOf(before: string, ext: string)
    requires '.' !in ext
    ensures AtLastDot(before + "." + ext) == Some((before, ext))
  {
    var b := before + "." + ext;
    LastIndexOfAt(before, '.', ext);
    assert b[..|before|] == before && b[|before| + 1..] == ext;
  }

  lemma {:induction false} TrailingDigitsAfter(a: string, sep: char, t: string)
    requires !IsDigit(sep) && AllDigits(t)
    ensures TrailingDigits(a + [sep] + t) == |t|
    decreases |t|
  {
    var s := a + [sep] + t;
    if t != [] {
      assert s[..|s| - 1] == a + [sep] + t[..|t| - 1];
      TrailingDigitsAfter(a, sep, t[..|t| - 1]);
    }
  }

  lemma AtTokenOf(a: string, sep: char, t: string)
    requires !IsDigit(sep) && AllDigits(t)
    ensures AtToken(a + [sep] + t) == (a + [sep], t)
  {
    var s := a + [sep] + t;
    TrailingDigitsAfter(a, sep, t);
    assert s[..|s| - |t|] == a + [sep] && s[|s| - |t|..] == t;
  }

  /** A name whose body is spelled by well-formed groups decomposes into
      exactly those groups: the decomposition is unique. */
  lemma DecomposeComplete(name: string, g: Groups, sep: char)
    requires WellFormed(g) && IsSeparator(sep)
    requires Body(name) == Compose(g, sep)
    ensures Decompose(name) == Some(g)
  {
    var before := g.prefix + [sep] + g.padding;
    assert '.' !in g.ext by {
      assert forall i :: 0 <= i < |g.ext| ==> IsLetter(g.ext[i]);
    }
    AtLastDotOf(before, g.ext);
    AtTokenOf(g.prefix, sep, g.padding);
    var rest := g.prefix + [sep];
    assert rest[..|rest| - 1] == g.prefix;
  }

  /** A frame file name, and the same name followed by a newline, both
      decompose into the groups that spell them. */
  lemma ComposeDecomposes(g: Groups, sep: char)
    requires WellFormed(g) && IsSeparator(sep)
    ensures Decompose(Compose(g, sep)) == Some(g)
    ensures Decompose(Compose(g, sep) + "\n") == Some(g)
  {
    var name := Compose(g, sep);
    assert name[|name| - 1] == g.ext[|g.ext| - 1];
    DecomposeComplete(name, g, sep);
    assert (name + "\n")[..|name|] == name;
    DecomposeComplete(name + "\n", g, sep);
  }

  /** Names that are not frame names: no groups spell their body. */
  lemma DecomposeNone(name: string, g: Groups, sep: char)
    requires Decompose(name).None?
    requires WellFormed(g) && IsSeparator(sep)
    ensures Body(name) != Compose(g, sep)
  {
    if Body(name) == Compose(g, sep) {
      DecomposeComplete(name, g, sep);
    }
  }

  // ====================================================== Frame

  /** A frame: the prefix and extension of its file, the number of characters
      of its frame token (the padding) and the token's integer value. */
  datatype Frame = Frame(prefix: string, padding: nat, number: int, ext: string)

  datatype FrameError = MalformedPadding(framePadding: string)

  /** `Frame(prefix, framePadding, ext)`: `_interpretFramePadding` takes the
      padding from the token's length and the number from `int()` of it,
      raising `ValueError` when `int()` refuses the token. */
  function NewFrame(prefix: string, framePadding: string, ext: string): (r: Result<Frame, FrameError>)
    ensures r.Err? <==> ParseInt(framePadding).None?
    ensures r.Ok? ==> r.value.prefix == prefix && r.value.ext == ext && r.value.padding == |framePadding|
    ensures |framePadding| > 0 && AllDigits(framePadding) ==>
              r == Ok(Frame(prefix, |framePadding|, DigitsValue(framePadding), ext))
  {
    match ParseInt(framePadding)
    case None => Err(MalformedPadding(framePadding))
    case Some(n) => Ok(Frame(prefix, |framePadding|, n, ext))
  }

  /** The frame built from a decomposed name; `int()` cannot fail on its digit token. */
  function FrameOf(g: Groups): (f: Frame)
    requires WellFormed(g)
    ensures NewFrame(g.prefix, g.padding, g.ext) == Ok(f)
  {
    NewFrame(g.prefix, g.padding, g.ext).value
  }

  /** Leading zeros only carry the padding: writing a frame's number back at
      its padding gives its token again ('0000' is (4, 0), '010' is (3, 10)). */
  lemma FrameTokenRoundTrip(prefix: string, token: string, ext: string)
    requires |token| > 0 && AllDigits(token)
    ensures NewFrame(prefix, token, ext).Ok?
    ensures var f := NewFrame(prefix, token, ext).value;
            f.padding == |token| && ZeroPad(f.number, f.padding) == token
  {
    ZeroPadOfDigits(token);
  }

  /** The examples of `_interpretFramePadding`. */
  lemma InterpretPaddingExamples()
    ensures NewFrame("a", "0000", "exr") == Ok(Frame("a", 4, 0, "exr"))
    ensures NewFrame("a", "010", "exr") == Ok(Frame("a", 3, 10, "exr"))
    ensures NewFrame("a", "200", "exr") == Ok(Frame("a", 3, 200, "exr"))
  {
    assert DigitsValue("0000") == 0 by {
      assert "0000"[..3] == "000" && "000"[..2] == "00" && "00"[..1] == "0" && "0"[..0] == "";
    }
    assert DigitsValue("010") == 10 by {
      assert "010"[..2] == "01" && "01"[..1] == "0" && "0"[..0] == "";
    }
    assert DigitsValue("200") == 200 by {
      assert "200"[..2] == "20" && "20"[..1] == "2" && "2"[..0] == "";
    }
  }
}

=== FILE: legacy_sequence.dfy ===
/** The parts of the older revision of `Sequence` that differ from the newer
    one: `getMissingFrames` without the `format` flag, and a `getFormatted`
    that works. The scan, the frame record, the getters and the range
    notation are the same code in both revisions and are shared with the
    modules Frames, Scan, Sequences and RangeExpr. */
module LegacySequences {
  import opened Results
  import opened Text
  import opened Frames
  import opened Scan
  import opened Sequences
  import opened Paths

  /** `getMissingFrames()`: the numbers in `range(lo, hi)` that are not frame
      numbers, ascending; like the newer revision's unformatted result. */
  function GetMissingFrames(s: Sequence): (r: Result<seq<int>, SequenceError>)
    ensures r.Err? <==> s.range.None?
    ensures r.Ok? ==> Sequences.GetMissingFrames(s, false) == Ok(Listed(r.value))
  {
    match s.range
    case None => Err(TypeError)
    case Some((lo, hi)) => Ok(Gaps(lo, hi, Numbers(s.frames)))
  }

  const HoudiniFrameFormat := "$F"

  /** The wildcard that stands for the frame token: `format` repeated
      `padding` times, except that Houdini's `$F` carries the padding as a
      number after it (and nothing for a padding of 1). */
  function FramePadding(format: string, padding: nat): (w: string)
    ensures format != HoudiniFrameFormat ==>
              |w| == |format| * padding && forall i :: 0 <= i < |w| ==> w[i] in format
    ensures format != HoudiniFrameFormat && format != [] ==>
              forall i :: 0 <= i < |w| ==> w[i] == format[i % |format|]
    ensures format == HoudiniFrameFormat ==>
              |w| >= 2 && w[..2] == HoudiniFrameFormat
              && (padding <= 1 ==> w == HoudiniFrameFormat)
              && (padding > 1 ==> ParseInt(w[2..]) == Some(padding as int))
    ensures format == HoudiniFrameFormat && padding > 1 ==> w == HoudiniFrameFormat + NatToString(padding)
  {
    if format == HoudiniFrameFormat then
      if padding > 1 then
        var digits := NatToString(padding);
        ParseIntOfIntToString(padding);
        assert (HoudiniFrameFormat + digits)[2..] == digits;
        HoudiniFrameFormat + digits
      else HoudiniFrameFormat
    else
      var w := Repeat(format, padding);
      assert format != [] ==> forall i :: 0 <= i < |w| ==> w[i] == format[i % |format|] by {
        if format != [] { RepeatAt(format, padding); }
      }
      w
  }

  /** `getFormatted(format, includeDir)`: the file name of the sequence with
      the frame token replaced by a wildcard, joined to the directory when
      `includeDir` is set; an IndexError when there are no frames. */
  function GetFormatted(s: Sequence, format: string, includeDir: bool): (r: Result<string, SequenceError>)
    ensures r.Err? <==> s.frames == []
    ensures r.Ok? ==> GetFormatted(s, format, false).Ok?
    ensures r.Ok? && includeDir ==> r.value == JoinPath(s.dir, GetFormatted(s, format, false).value)
  {
    match GetPadding(s)
    case Err(e) => Err(e)
    case Ok(padding) =>
      var fileName := GetPrefix(s).value + "." + FramePadding(format, padding) + "." + GetExt(s).value;
      Ok(if includeDir then JoinPath(s.dir, fileName) else fileName)
  }

  /** The name with '#' wildcards describes every frame of a scanned
      sequence: it is the locked prefix, as many '#' as the padding, and the
      locked extension; and writing any frame's number, zero-padded, in place
      of the '#'s gives a frame name that decomposes back to that frame. */
  lemma FormattedNameCoversEveryFrame(dir: string, listing: seq<string>, filter: Option<(int, int)>)
    ensures var s := NewSequence(dir, listing, filter);
            s.frames != [] ==>
              FirstGroups(listing).Some?
              && var lock := LockOf(FirstGroups(listing).value);
              GetFormatted(s, "#", false) == Ok(lock.prefix + "." + Repeat("#", lock.padding) + "." + lock.ext)
              && forall i :: 0 <= i < |s.frames| ==>
                   s.frames[i].number >= 0
                   && Decompose(Instance(lock, s.frames[i].number)).Some?
                   && FrameOf(Decompose(Instance(lock, s.frames[i].number)).value) == s.frames[i]
  {
    var s := NewSequence(dir, listing, filter);
    GettersDescribeEveryFrame(dir, listing, filter);
    if s.frames != [] {
      var lock := LockOf(FirstGroups(listing).value);
      FramesFromListingMeaning(listing, filter);
      forall i | 0 <= i < |s.frames|
        ensures s.frames[i].number >= 0
        ensures Decompose(Instance(lock, s.frames[i].number)).Some?
        ensures FrameOf(Decompose(Instance(lock, s.frames[i].number)).value) == s.frames[i]
      {
        assert s.frames[i] in s.frames;
        var j :| 0 <= j < |listing| && Builds(listing[j], lock, filter, s.frames[i]);
        FrameOfItsName(listing[j], lock, filter, s.frames[i]);
      }
    }
  }

  /** The Houdini name of a scanned sequence: the locked prefix, `$F`, the
      padding written as a number when it is more than 1, and the locked
      extension. */
  lemma HoudiniNameOfScan(dir: string, listing: seq<string>, filter: Option<(int, int)>)
    ensures var s := NewSequence(dir, listing, filter);
            s.frames != [] ==>
              FirstGroups(listing).Some?
              && var lock := LockOf(FirstGroups(listing).value);
              GetFormatted(s, HoudiniFrameFormat, false)
                == Ok(lock.prefix + "." + HoudiniFrameFormat + (if lock.padding > 1 then NatToString(lock.padding) else "")
                      + "." + lock.ext)
  {
    var s := NewSequence(dir, listing, filter);
    GettersDescribeEveryFrame(dir, listing, filter);
    if s.frames != [] {
      HoudiniNameFromLock(s, LockOf(FirstGroups(listing).value));
    }
  }

  lemma HoudiniNameFromLock(s: Sequence, lock: Lock)
    requires GetPrefix(s) == Ok(lock.prefix) && GetExt(s) == Ok(lock.ext) && GetPadding(s) == Ok(lock.padding)
    ensures GetFormatted(s, HoudiniFrameFormat, false)
              == Ok(lock.prefix + "." + HoudiniFrameFormat + (if lock.padding > 1 then NatToString(lock.padding) else "")
                    + "." + lock.ext)
  {
    var tail := if lock.padding > 1 then NatToString(lock.padding) else "";
    assert FramePadding(HoudiniFrameFormat, lock.padding) == HoudiniFrameFormat + tail;
    assert lock.prefix + "." + (HoudiniFrameFormat + tail) == lock.prefix + "." + HoudiniFrameFormat + tail;
  }

  /** The frame name a lock spells for frame number `n`, with '.' as separator. */
  function Instance(lock: Lock, n: nat): string
  {
    lock.prefix + "." + ZeroPad(n, lock.padding) + "." + lock.ext
  }

  /** A frame built from a kept name is found again from the lock and its number. */
  lemma FrameOfItsName(name: string, lock: Lock, range: Option<(int, int)>, f: Frame)
    requires Builds(name, lock, range, f)
    ensures f.number >= 0
    ensures Decompose(Instance(lock, f.number)).Some?
    ensures FrameOf(Decompose(Instance(lock, f.number)).value) == f
  {
    var g := Decompose(name).value;
    assert f.number == DigitsValue(g.padding);
    ZeroPadOfDigits(g.padding);
    assert Instance(lock, f.number) == Compose(g, '.');
    ComposeDecomposes(g, '.');
  }

  /** The examples of the documentation: `fooBar.####.exr` for 4-digit
      padding, and the directory joined in front when asked for. */
  lemma GetFormattedHashExample(s: Sequence)
    requires s == Sequence("shots", [Frame("fooBar", 4, 1001, "exr")], Some((1001, 1001)))
    ensures GetFormatted(s, "#", false) == Ok("fooBar.####.exr")
    ensures GetFormatted(s, "#", true) == Ok("shots/fooBar.####.exr")
  {
    FormattedFromGetters(s, "#", "fooBar", 4, "exr");
    FourHashes("####");
    HashName("fooBar.####.exr");
    JoinShots(s.dir, "fooBar.####.exr");
  }

  /** Unfolding helper for the examples: `getFormatted` spells the prefix,
      wildcard and extension of the first frame. */
  lemma FormattedFromGetters(s: Sequence, format: string, prefix: string, padding: nat, ext: string)
    requires s.frames != [] && s.frames[0].prefix == prefix && s.frames[0].padding == padding && s.frames[0].ext == ext
    ensures GetFormatted(s, format, false) == Ok(prefix + "." + FramePadding(format, padding) + "." + ext)
    ensures GetFormatted(s, format, true) == Ok(JoinPath(s.dir, prefix + "." + FramePadding(format, padding) + "." + ext))
  {
  }

  lemma FourHashes(w: string)
    requires w == "####"
    ensures FramePadding("#", 4) == w
  {
    assert Repeat("#", 2) == "##" by {
      assert Repeat("#", 1) == "#" + Repeat("#", 0);
    }
    assert Repeat("#", 4) == "#" + ("#" + Repeat("#", 2));
  }

  lemma HashName(name: string)
    requires name == "fooBar.####.exr"
    ensures "fooBar" + "." + "####" + "." + "exr" == name
  {
  }

  lemma JoinShots(dir: string, name: string)
    requires dir == "shots" && name == "fooBar.####.exr"
    ensures JoinPath(dir, name) == "shots/fooBar.####.exr"
  {
    assert name[0] == 'f' && dir[|dir| - 1] == 's';
  }

  /** ... and `fooBar.$F4.exr` for Houdini's wildcard. */
  lemma GetFormattedHoudiniExample(s: Sequence)
    requires s == Sequence("shots", [Frame("fooBar", 4, 1001, "exr")], Some((1001, 1001)))
    ensures GetFormatted(s, "$F", false) == Ok("fooBar.$F4.exr")
  {
    FormattedFromGetters(s, "$F", "fooBar", 4, "exr");
    HoudiniFour("$F4");
    HoudiniName("fooBar.$F4.exr");
  }

  lemma HoudiniFour(w: string)
    requires w == "$F4"
    ensures FramePadding("$F", 4) == w
  {
    assert NatToString(4) == "4";
  }

  lemma HoudiniName(name: string)
    requires name == "fooBar.$F4.exr"
    ensures "fooBar" + "." + "$F4" + "." + "exr" == name
  {
  }

  /** For a padding of 1 the Houdini wildcard carries no number. */
  lemma GetFormattedHoudiniUnpadded(s: Sequence)
    requires s == Sequence("", [Frame("fooBar", 1, 7, "exr")], Some((7, 7)))
    ensures GetFormatted(s, "$F", false) == Ok("fooBar.$F.exr")
  {
    FormattedFromGetters(s, "$F", "fooBar", 1, "exr");
    assert "fooBar" + "." + "$F" + "." + "exr" == "fooBar.$F.exr";
  }
}

=== FILE: paths.dfy ===
/** POSIX path joining (`os.path.join` on a POSIX host) and the base-directory
    swap of `changeBaseDir`, which splits a path at '/' and joins the pieces
    again. */
module Paths {
  import opened Results
  import opened Text

  /** `posixpath.join(a, b)`: an absolute `b` replaces what came before; a
      separator is added unless `a` is empty or already ends with one. */
  function JoinPath(a: string, b: string): (r: string)
    ensures |b| > 0 && b[0] == '/' ==> r == b
    ensures (|b| == 0 || b[0] != '/') ==> |r| >= |a| + |b| && r[..|a|] == a && r[|r| - |b|..] == b
  {
    if |b| > 0 && b[0] == '/' then b
    else if a == [] || a[|a| - 1] == '/' then a + b
    else a + "/" + b
  }

  /** `posixpath.join(acc, *rest)`. */
  function JoinFrom(acc: string, rest: seq<string>): string
    decreases |rest|
  {
    if rest == [] then acc else JoinFrom(JoinPath(acc, rest[0]), rest[1..])
  }

  /** `os.path.join(*parts)`; Python refuses an empty argument list, and
      `split` never produces one. */
  function JoinAll(parts: seq<string>): string
    requires |parts| > 0
  {
    JoinFrom(parts[0], parts[1..])
  }

  /** A path whose '/'-separated components are all non-empty: relative, and
      without a doubled or a trailing '/'. */
  predicate CleanPath(p: string)
  {
    forall i :: 0 <= i < |Split(p, '/')| ==> Split(p, '/')[i] != []
  }

  /** Components without '/' that are not empty. */
  predicate Components(parts: seq<string>)
  {
    forall i :: 0 <= i < |parts| ==> parts[i] != [] && '/' !in parts[i]
  }

  lemma JoinMergeHead(a: string, b: string, more: seq<string>)
    ensures Join("/", [a + "/" + b] + more) == Join("/", [a, b] + more)
  {
    var l := [a + "/" + b] + more;
    var r := [a, b] + more;
    assert r[1..] == [b] + more;
    if more != [] {
      assert l[1..] == more && ([b] + more)[1..] == more;
    }
  }

  /** Joining non-empty components after a start that does not end in '/'
      puts exactly one '/' between neighbours. */
  lemma {:induction false} JoinFromComponents(acc: string, rest: seq<string>)
    requires acc != [] && acc[|acc| - 1] != '/'
    requires Components(rest)
    ensures JoinFrom(acc, rest) == Join("/", [acc] + rest)
    decreases |rest|
  {
    if rest != [] {
      var next := acc + "/" + rest[0];
      assert JoinPath(acc, rest[0]) == next;
      assert next[|next| - 1] == rest[0][|rest[0]| - 1];
      assert rest[0][|rest[0]| - 1] in rest[0];
      JoinFromComponents(next, rest[1..]);
      JoinMergeHead(acc, rest[0], rest[1..]);
      assert [acc, rest[0]] + rest[1..] == [acc] + rest;
    }
  }

  /** Splitting a clean path at '/' and joining the pieces gives it back. */
  lemma JoinAllOfClean(p: string)
    requires CleanPath(p)
    ensures JoinAll(Split(p, '/')) == p
  {
    var parts := Split(p, '/');
    assert Components(parts);
    assert parts[0][|parts[0]| - 1] in parts[0];
    JoinFromComponents(parts[0], parts[1..]);
    assert [parts[0]] + parts[1..] == parts;
    JoinSplit(p, '/');
  }

  /** Python's truth test on `newBaseDir`: `None` and '' are false. */
  predicate Given(newBaseDir: Option<string>)
  {
    newBaseDir.Some? && newBaseDir.value != []
  }

  /** `changeBaseDir(path, newBaseDir)`: split at '/', replace the first piece
      when a new base is given, and join the pieces again. A path of one
      component is replaced as a whole; without a new base a clean path comes
      back unchanged. */
  function ChangeBaseDir(path: string, newBaseDir: Option<string>): (r: string)
    ensures !Given(newBaseDir) && CleanPath(path) ==> r == path
    ensures Given(newBaseDir) && '/' !in path ==> r == newBaseDir.value
  {
    var parts := Split(path, '/');
    var r := JoinAll(if Given(newBaseDir) then [newBaseDir.value] + parts[1..] else parts);
    assert !Given(newBaseDir) && CleanPath(path) ==> r == path by {
      if !Given(newBaseDir) && CleanPath(path) {
        JoinAllOfClean(path);
      }
    }
    assert '/' !in path ==> parts == [path] by {
      if '/' !in path {
        SplitWithout(path, '/');
      }
    }
    r
  }

  /** With a new base, only the first component changes: the components after
      it are kept as they were. */
  lemma ChangeBaseDirSwapsFirst(head: string, tail: string, base: string)
    requires '/' !in head && CleanPath(tail)
    requires base != [] && base[|base| - 1] != '/'
    ensures ChangeBaseDir(head + "/" + tail, Some(base)) == base + "/" + tail
  {
    SplitAfter(head, '/', tail);
    var rest := Split(tail, '/');
    assert (Split(head + "/" + tail, '/'))[1..] == rest;
    JoinFromComponents(base, rest);
    JoinSplit(tail, '/');
    assert ([base] + rest)[1..] == rest;
  }

  /** The example of the documentation. */
  lemma ChangeBaseDirExample(path: string, base: string)
    requires path == "foo/bar/path.txt" && base == "someOtherDir"
    ensures ChangeBaseDir(path, Some(base)) == "someOtherDir/bar/path.txt"
  {
    var tail := "bar" + "/" + "path.txt";
    CleanOfTwo("bar", "path.txt");
    calc {
      ChangeBaseDir(path, Some(base));
      { assert path == "foo" + "/" + tail; }
      ChangeBaseDir("foo" + "/" + tail, Some(base));
      { ChangeBaseDirSwapsFirst("foo", tail, base); }
      base + "/" + tail;
      "someOtherDir/bar/path.txt";
    }
  }

  lemma CleanOfTwo(a: string, b: string)
    requires a != [] && b != [] && '/' !in a && '/' !in b
    ensures CleanPath(a + "/" + b)
  {
    SplitAfter(a, '/', b);
    SplitWithout(b, '/');
  }

  /** Without a new base the path is split and joined again. */
  lemma ChangeBaseDirNone(path: string)
    ensures ChangeBaseDir(path, None) == JoinAll(Split(path, '/'))
  {
  }

  lemma JoinAllThree(x: string, y: string, z: string)
    ensures JoinAll([x, y, z]) == JoinPath(JoinPath(x, y), z)
  {
    assert [x, y, z][1..] == [y, z] && [y, z][1..] == [z];
    JoinFromOne(JoinPath(x, y), z);
  }

  lemma JoinFromOne(acc: string, x: string)
    ensures JoinFrom(acc, [x]) == JoinPath(acc, x)
  {
    assert [x][1..] == [];
  }

  /** As written, "unchanged if newBaseDir is None" fails for paths that are
      not clean: joining drops the leading '/' of an absolute path ... */
  lemma ChangeBaseDirDropsRoot(b: string, c: string)
    requires b != [] && c != [] && '/' !in b && '/' !in c
    ensures ChangeBaseDir("/" + b + "/" + c, None) == b + "/" + c
  {
    SplitRooted(b, c);
    ChangeBaseDirNone("/" + b + "/" + c);
    JoinAllThree("", b, c);
    JoinPathPlain("", b);
    JoinPathPlain(b, c);
  }

  lemma SplitRooted(b: string, c: string)
    requires '/' !in b && '/' !in c
    ensures Split("/" + b + "/" + c, '/') == ["", b, c]
  {
    assert "/" + b + "/" + c == "" + ['/'] + b + ['/'] + c;
    SplitThree("", b, c, '/');
  }

  /** Joining a relative component that does not start with '/'. */
  lemma JoinPathPlain(a: string, b: string)
    requires b != [] && '/' !in b && '/' !in a
    ensures JoinPath(a, b) == if a == [] then b else a + "/" + b
  {
    assert b[0] in b;
    if a != [] {
      assert a[|a| - 1] in a;
    }
  }

  /** ... and collapses a doubled '/'. */
  lemma ChangeBaseDirCollapsesSlashes(a: string, c: string)
    requires a != [] && c != [] && '/' !in a && '/' !in c
    ensures ChangeBaseDir(a + "//" + c, None) == a + "/" + c
  {
    SplitDoubled(a, c);
    ChangeBaseDirNone(a + "//" + c);
    JoinAllThree(a, "", c);
    JoinPathEmpty(a);
    JoinAfterSlash(a, c);
  }

  lemma SplitDoubled(a: string, c: string)
    requires '/' !in a && '/' !in c
    ensures Split(a + "//" + c, '/') == [a, "", c]
  {
    assert a + "//" + c == a + ['/'] + "" + ['/'] + c;
    SplitThree(a, "", c, '/');
  }

  lemma JoinPathEmpty(a: string)
    requires a != [] && '/' !in a
    ensures JoinPath(a, "") == a + "/"
  {
    assert a[|a| - 1] in a;
  }

  lemma JoinAfterSlash(a: string, c: string)
    requires c != [] && '/' !in c
    ensures JoinPath(a + "/", c) == a + "/" + c
  {
    assert c[0] in c;
  }

  /** The documented behaviour: without a new base the path is returned as
      it is; with one, the text before the first '/' is replaced and the rest
      of the path is kept character for character. */
  function ChangeBaseDirIntended(path: string, newBaseDir: Option<string>): (r: string)
    ensures !Given(newBaseDir) ==> r == path
    ensures Given(newBaseDir) && '/' !in path ==> r == newBaseDir.value
    ensures Given(newBaseDir) && '/' in path ==>
              exists k :: 0 <= k < |path| && path[k] == '/' && '/' !in path[..k]
                          && r == newBaseDir.value + path[k..]
  {
    if !Given(newBaseDir) then path
    else if '/' !in path then newBaseDir.value
    else newBaseDir.value + path[IndexOf(path, '/')..]
  }

  /** On clean relative paths, and with a base that does not end in '/', the
      corrected function and the code agree. */
  lemma ChangeBaseDirAgreesOnClean(path: string, newBaseDir: Option<string>)
    requires CleanPath(path)
    requires Given(newBaseDir) ==> newBaseDir.value[|newBaseDir.value| - 1] != '/'
    ensures ChangeBaseDirIntended(path, newBaseDir) == ChangeBaseDir(path, newBaseDir)
  {
    if Given(newBaseDir) && '/' in path {
      AgreesAfterSlash(path, newBaseDir.value);
    }
  }

  lemma AgreesAfterSlash(path: string, base: string)
    requires CleanPath(path) && '/' in path
    requires base != [] && base[|base| - 1] != '/'
    ensures ChangeBaseDirIntended(path, Some(base)) == ChangeBaseDir(path, Some(base))
  {
    var k := IndexOf(path, '/');
    var head, tail := path[..k], path[k + 1..];
    AtFirstSlash(path, k);
    CleanAfterFirst(head, tail);
    ChangeBaseDirSwapsFirst(head, tail, base);
  }

  lemma AtFirstSlash(path: string, k: nat)
    requires k < |path| && path[k] == '/' && '/' !in path[..k]
    ensures path == path[..k] + "/" + path[k + 1..] && path[k..] == "/" + path[k + 1..]
  {
  }

  /** What follows the first '/' of a clean path is clean. */
  lemma CleanAfterFirst(head: string, tail: string)
    requires '/' !in head && CleanPath(head + "/" + tail)
    ensures CleanPath(tail)
  {
    SplitAfter(head, '/', tail);
    var parts := Split(head + "/" + tail, '/');
    assert head + "/" + tail == head + ['/'] + tail;
    assert forall i :: 0 <= i < |Split(tail, '/')| ==> Split(tail, '/')[i] == parts[i + 1];
  }
}

=== FILE: range_examples.dfy ===
/** The documented examples of the frame-range notation, worked through the
    general lemmas of RangeExpr: the printed form of
    [1, 2, 3, 4, 5, 9, 10, 13, 15] and the frames of '1-3, 5, 9, 10-20:2'. */
module RangeExamples {
  import opened Results
  import opened Text
  import opened RangeExpr

  // ------------------------------------------------------ printing

  /** A streak takes exactly the values up to where they stop going up by one. */
  lemma {:induction false} ContinuationIs(last: int, rest: seq<int>, k: nat)
    requires k <= |rest|
    requires forall i :: 0 <= i < k ==> rest[i] == last + 1 + i
    requires k < |rest| ==> rest[k] != last + 1 + k
    ensures Continuation(last, rest) == k
    decreases k
  {
    if k > 0 {
      forall i | 0 <= i < k - 1
        ensures rest[1..][i] == rest[0] + 1 + i
      {
        assert rest[1..][i] == rest[i + 1];
      }
      ContinuationIs(rest[0], rest[1..], k - 1);
    }
  }

  /** The first run of a list whose first `k + 1` values go up by one and
      whose next value breaks the streak. */
  lemma RunAt(xs: seq<int>, k: nat, zeroIsUnset: bool)
    requires k < |xs| && !(zeroIsUnset && xs[0] == 0 && |xs| > 1)
    requires forall i :: 0 < i <= k ==> xs[i] == xs[0] + i
    requires k + 1 < |xs| ==> xs[k + 1] != xs[0] + k + 1
    ensures Runs(xs, zeroIsUnset) == [(xs[0], xs[k])] + Runs(xs[k + 1..], zeroIsUnset)
  {
    forall i | 0 <= i < k
      ensures xs[1..][i] == xs[0] + 1 + i
    {
      assert xs[1..][i] == xs[i + 1];
    }
    ContinuationIs(xs[0], xs[1..], k);
    RunsHead(xs, zeroIsUnset);
  }

  /** The runs of the documented list: 1-5, 9-10, 13 and 15. */
  lemma DocRuns(xs: seq<int>)
    requires xs == [1, 2, 3, 4, 5, 9, 10, 13, 15]
    ensures Runs(xs, true) == [(1, 5), (9, 10), (13, 13), (15, 15)]
  {
    var ys, zs := [9, 10, 13, 15], [13, 15];
    DocFirstRun(xs, ys);
    DocSecondRun(ys, zs);
    DocSingles(zs);
    ConcatRuns(Runs(xs, true), Runs(ys, true), Runs(zs, true));
  }

  lemma ConcatRuns(a: seq<(int, int)>, b: seq<(int, int)>, c: seq<(int, int)>)
    requires a == [(1, 5)] + b && b == [(9, 10)] + c && c == [(13, 13), (15, 15)]
    ensures a == [(1, 5), (9, 10), (13, 13), (15, 15)]
  {
  }

  lemma DocFirstRun(xs: seq<int>, ys: seq<int>)
    requires xs == [1, 2, 3, 4, 5, 9, 10, 13, 15] && ys == [9, 10, 13, 15]
    ensures Runs(xs, true) == [(1, 5)] + Runs(ys, true)
  {
    RunAt(xs, 4, true);
    assert xs[5..] == ys;
  }

  lemma DocSecondRun(ys: seq<int>, zs: seq<int>)
    requires ys == [9, 10, 13, 15] && zs == [13, 15]
    ensures Runs(ys, true) == [(9, 10)] + Runs(zs, true)
  {
    RunAt(ys, 1, true);
    assert ys[2..] == zs;
  }

  lemma DocSingles(zs: seq<int>)
    requires zs == [13, 15]
    ensures Runs(zs, true) == [(13, 13), (15, 15)]
  {
    RunAt(zs, 0, true);
    assert zs[1..] == [15];
    RunAt([15], 0, true);
    assert [15][1..] == [];
  }

  /** `str(n)` of a one-digit number. */
  lemma OneDigitString(n: int, s: string)
    requires 0 <= n < 10 && s == [DigitChar(n)]
    ensures IntToString(n) == s
  {
  }

  /** `str(n)` of a two-digit number. */
  lemma TwoDigitString(n: int, s: string)
    requires 10 <= n < 100 && s == [DigitChar(n / 10), DigitChar(n % 10)]
    ensures IntToString(n) == s
  {
    assert NatToString(n / 10) == [DigitChar(n / 10)];
  }

  lemma RenderCons(run: (int, int), more: seq<(int, int)>)
    ensures RenderRuns([run] + more) == StreakTokens(run.0, run.1) + RenderRuns(more)
  {
    assert ([run] + more)[1..] == more;
  }

  /** The tokens of the documented runs: a streak of two prints as two numbers. */
  lemma DocTokens(runs: seq<(int, int)>)
    requires runs == [(1, 5), (9, 10), (13, 13), (15, 15)]
    ensures RenderRuns(runs) == ["1-5", "9", "10", "13", "15"]
  {
    DocStreaks();
    RenderCons((1, 5), runs[1..]);
    RenderCons((9, 10), runs[2..]);
    RenderCons((13, 13), runs[3..]);
    RenderCons((15, 15), []);
    assert runs[1..] == [(9, 10)] + runs[2..];
    assert runs[2..] == [(13, 13)] + runs[3..];
    assert runs[3..] == [(15, 15)] + [];
  }

  lemma DocStreaks()
    ensures StreakTokens(1, 5) == ["1-5"]
    ensures StreakTokens(9, 10) == ["9", "10"]
    ensures StreakTokens(13, 13) == ["13"]
    ensures StreakTokens(15, 15) == ["15"]
  {
    RangeToken(1, 5, "1-5");
    PairTokens(9, 10, "9", "10");
    SingleTokenText(13, "13");
    SingleTokenText(15, "15");
  }

  lemma RangeToken(a: int, b: int, s: string)
    requires 0 <= a < 10 && a + 1 < b < 10 && s == [DigitChar(a), '-', DigitChar(b)]
    ensures StreakTokens(a, b) == [s]
  {
    OneDigitString(a, [DigitChar(a)]);
    OneDigitString(b, [DigitChar(b)]);
    assert [DigitChar(a)] + "-" + [DigitChar(b)] == s;
  }

  lemma PairTokens(a: int, b: int, s: string, t: string)
    requires a == 9 && b == 10 && s == "9" && t == "10"
    ensures StreakTokens(a, b) == [s, t]
  {
    OneDigitString(a, s);
    TwoDigitString(b, t);
  }

  lemma SingleTokenText(a: int, s: string)
    requires 10 <= a < 100 && s == [DigitChar(a / 10), DigitChar(a % 10)]
    ensures StreakTokens(a, a) == [s]
  {
    TwoDigitString(a, s);
  }

  lemma JoinStep(sep: string, parts: seq<string>)
    requires |parts| > 1
    ensures Join(sep, parts) == parts[0] + sep + Join(sep, parts[1..])
  {
  }

  lemma DocJoin(tokens: seq<string>, s: string)
    requires tokens == ["1-5", "9", "10", "13", "15"] && s == "1-5, 9, 10, 13, 15"
    ensures Join(", ", tokens) == s
  {
    JoinStep(", ", tokens);
    JoinStep(", ", tokens[1..]);
    JoinStep(", ", tokens[2..]);
    JoinStep(", ", tokens[3..]);
    assert tokens[4..] == ["15"];
  }

  /** The documented list prints as "1-5, 9, 10, 13, 15": the streak 9, 10
      is split into two numbers, where the documentation shows "9-10". */
  lemma PrettyPrintDocExample(xs: seq<int>, s: string)
    requires xs == [1, 2, 3, 4, 5, 9, 10, 13, 15] && s == "1-5, 9, 10, 13, 15"
    ensures PrettyPrintFrameList(xs) == s
  {
    DocRuns(xs);
    DocTokens([(1, 5), (9, 10), (13, 13), (15, 15)]);
    DocJoin(["1-5", "9", "10", "13", "15"], s);
  }

  // ------------------------------------------------------ parsing

  /** One step of `str.split(sep)`: the text up to the first separator, then the rest. */
  lemma SplitStep(s: string, a: string, rest: string, sep: char)
    requires sep !in a && s == a + [sep] + rest
    ensures Split(s, sep) == [a] + Split(rest, sep)
  {
    SplitAfter(a, sep, rest);
  }

  lemma SplitLastThree(a: string, b: string, c: string, d: string, sep: char)
    requires sep !in b && sep !in c && sep !in d
    ensures [a] + Split(b + [sep] + c + [sep] + d, sep) == [a, b, c, d]
  {
    SplitThree(b, c, d, sep);
  }

  /** Four separated pieces without separators of their own. */
  lemma SplitFour(s: string, a: string, b: string, c: string, d: string, sep: char)
    requires sep !in a && sep !in b && sep !in c && sep !in d
    requires s == a + [sep] + (b + [sep] + c + [sep] + d)
    ensures Split(s, sep) == [a, b, c, d]
  {
    SplitStep(s, a, b + [sep] + c + [sep] + d, sep);
    SplitLastThree(a, b, c, d, sep);
  }

  /** The documented string splits into four blocks, three of them with a
      leading blank. */
  lemma DocBlocks(s: string, a: string, b: string, c: string, d: string)
    requires s == "1-3, 5, 9, 10-20:2"
    requires a == "1-3" && b == " 5" && c == " 9" && d == " 10-20:2"
    ensures Split(s, ',') == [a, b, c, d]
  {
    assert s == a + [','] + (b + [','] + c + [','] + d);
    SplitFour(s, a, b, c, d, ',');
  }

  /** A block with one leading blank around a clean token. */
  lemma ParsePadded(block: string, t: string, rest: seq<string>, values: seq<int>)
    requires block == " " + t && CleanToken(t)
    requires MatchBlock(t).Some? && ExpandBlock(t, MatchBlock(t).value) == Ok(values)
    ensures ParseBlocks([block] + rest) == Prepend(values, ParseBlocks(rest))
  {
    StripClean(" ", t);
    assert ([block] + rest)[1..] == rest;
  }

  /** A block that a parse accepts, standing for the frames `values`. */
  predicate Accepted(t: string, values: seq<int>)
  {
    CleanToken(t) && MatchBlock(t).Some? && ExpandBlock(t, MatchBlock(t).value) == Ok(values)
  }

  /** A clean block whose groups give a non-empty range with a positive step. */
  lemma AcceptedFrom(t: string, b: Block, values: seq<int>)
    requires CleanToken(t) && MatchBlock(t) == Some(b)
    requires b.start <= EndOf(b) && StepOf(b) > 0 && Expand(b.start, EndOf(b), StepOf(b)) == values
    ensures Accepted(t, values)
  {
  }

  /** A range `a-b` of one-digit numbers stands for a, a + 1, ..., b. */
  lemma DigitRangeBlock(t: string, a: int, b: int)
    requires 0 <= a < b < 10 && t == [DigitChar(a), '-', DigitChar(b)]
    ensures Accepted(t, Expand(a, b, 1))
  {
    var sa, sb := [DigitChar(a)], [DigitChar(b)];
    OneDigitString(a, sa);
    OneDigitString(b, sb);
    assert sa + "-" + sb == t;
    RangeTokenMatches(a, b);
    RangeTokenClean(a, b);
    AcceptedFrom(t, Block(a, Some(b), None), Expand(a, b, 1));
  }

  /** `1-3` stands for 1, 2 and 3. */
  lemma FirstBlock(t: string, values: seq<int>)
    requires t == "1-3" && values == [1, 2, 3]
    ensures Accepted(t, values)
  {
    DigitRangeBlock(t, 1, 3);
    ExpandPair(2);
    ExpandStep(1, 3, 1, [2, 3]);
    assert Expand(1, 3, 1) == values;
  }

  /** A lone one-digit number stands for itself. */
  lemma DigitBlock(t: string, a: int)
    requires 0 <= a < 10 && t == [DigitChar(a)]
    ensures Accepted(t, [a])
  {
    OneDigitString(a, t);
    SingleToken(a);
    ExpandOne(a);
  }

  /** The groups of a block `start-end:inc`. */
  lemma MatchStepped(t: string, n: nat, u: string, m: nat, d: string, v: int, w: int)
    requires SignedNumber(t) == Some((v, n)) && t[n..] == "-" + u
    requires SignedNumber(u) == Some((w, m)) && u[m..] == ":" + d
    requires d != [] && AllDigits(d) && LeadingDigits(d) == |d|
    ensures MatchBlock(t) == Some(Block(v, Some(w), Some(DigitsValue(d))))
  {
    var rest := t[n..];
    assert rest[1..] == u;
    var tail := rest[1 + m..];
    assert tail == ":" + d && tail[1..] == d && d[..|d|] == d;
  }

  /** `10-20:2` matches with start 10, end 20 and step 2. */
  lemma SteppedMatch(t: string, u: string, d: string)
    requires t == "10-20:2" && u == "20:2" && d == "2"
    ensures MatchBlock(t) == Some(Block(10, Some(20), Some(2)))
  {
    TwoDigits(t, "10", "-20:2", 10);
    TwoDigits(u, "20", ":2", 20);
    LeadingDigitsOfDigits(d, []);
    assert d + [] == d;
    MatchStepped(t, 2, u, 2, d, 10, 20);
  }

  /** A number of two digits at the start of a block. */
  lemma TwoDigits(t: string, d: string, rest: string, v: int)
    requires 10 <= v < 100 && d == [DigitChar(v / 10), DigitChar(v % 10)] && t == d + rest
    requires rest != [] && !IsDigit(rest[0])
    ensures SignedNumber(t) == Some((v, 2)) && t[2..] == rest
  {
    assert AllDigits(d);
    assert DigitsValue(d[..1]) == v / 10;
    SignedNumberOfDigits(d, rest);
  }

  /** One step of `range(start, end + 1, step)`. */
  lemma ExpandStep(start: int, end: int, step: nat, rest: seq<int>)
    requires step > 0 && start <= end && Expand(start + step, end, step) == rest
    ensures Expand(start, end, step) == [start] + rest
  {
  }

  /** `range(10, 21, 2)`. */
  lemma SteppedFrames(xs: seq<int>)
    requires xs == [10, 12, 14, 16, 18, 20]
    ensures Expand(10, 20, 2) == xs
  {
    assert Expand(22, 20, 2) == [];
    ExpandStep(20, 20, 2, []);
    ExpandStep(18, 20, 2, xs[5..]);
    ExpandStep(16, 20, 2, xs[4..]);
    ExpandStep(14, 20, 2, xs[3..]);
    ExpandStep(12, 20, 2, xs[2..]);
    ExpandStep(10, 20, 2, xs[1..]);
  }

  /** `10-20:2` stands for the even frames from 10 to 20. */
  lemma SteppedBlock(t: string, values: seq<int>)
    requires t == "10-20:2" && values == [10, 12, 14, 16, 18, 20]
    ensures Accepted(t, values)
  {
    var u, d := "20:2", "2";
    SteppedMatch(t, u, d);
    SteppedFrames(values);
    SteppedClean(t);
    AcceptedFrom(t, Block(10, Some(20), Some(2)), values);
  }

  /** An accepted block after a blank, in front of blocks that parse. */
  lemma ParsePaddedOk(block: string, t: string, v: seq<int>, rest: seq<string>, w: seq<int>)
    requires block == " " + t && Accepted(t, v) && ParseBlocks(rest) == Ok(w)
    ensures ParseBlocks([block] + rest) == Ok(v + w)
  {
    ParsePadded(block, t, rest, v);
  }

  /** Four accepted blocks, the last three after a blank, stand for their
      frames in order. */
  lemma ParseFour(blocks: seq<string>, t1: string, t2: string, t3: string, t4: string,
                  v1: seq<int>, v2: seq<int>, v3: seq<int>, v4: seq<int>)
    requires blocks == [t1] + ([" " + t2] + ([" " + t3] + ([" " + t4] + [])))
    requires Accepted(t1, v1) && Accepted(t2, v2) && Accepted(t3, v3) && Accepted(t4, v4)
    ensures ParseBlocks(blocks) == Ok(v1 + (v2 + (v3 + (v4 + []))))
  {
    var s3 := [" " + t4] + [];
    var s2 := [" " + t3] + s3;
    var s1 := [" " + t2] + s2;
    ParsePaddedOk(" " + t4, t4, v4, [], []);
    ParsePaddedOk(" " + t3, t3, v3, s3, v4 + []);
    ParsePaddedOk(" " + t2, t2, v2, s2, v3 + (v4 + []));
    ParseBlocksCons(t1, s1, v1);
  }

  lemma SteppedClean(t: string)
    requires t == "10-20:2"
    ensures CleanToken(t)
  {
  }

  /** The four documented blocks. */
  lemma DocParseBlocks(blocks: seq<string>, xs: seq<int>)
    requires blocks == ["1-3", " 5", " 9", " 10-20:2"]
    requires xs == [1, 2, 3, 5, 9, 10, 12, 14, 16, 18, 20]
    ensures ParseBlocks(blocks) == Ok(xs)
  {
    var t1, t2, t3, t4 := "1-3", "5", "9", "10-20:2";
    var v1, v2, v3, v4 := [1, 2, 3], [5], [9], [10, 12, 14, 16, 18, 20];
    FirstBlock(t1, v1);
    DigitBlock(t2, 5);
    DigitBlock(t3, 9);
    SteppedBlock(t4, v4);
    DocBlocksShape(blocks, t1, t2, t3, t4);
    ParseFour(blocks, t1, t2, t3, t4, v1, v2, v3, v4);
    DocValues(v1, v2, v3, v4, xs);
  }

  lemma DocBlocksShape(blocks: seq<string>, t1: string, t2: string, t3: string, t4: string)
    requires blocks == ["1-3", " 5", " 9", " 10-20:2"]
    requires t1 == "1-3" && t2 == "5" && t3 == "9" && t4 == "10-20:2"
    ensures blocks == [t1] + ([" " + t2] + ([" " + t3] + ([" " + t4] + [])))
  {
    assert " " + t2 == blocks[1] && " " + t3 == blocks[2] && " " + t4 == blocks[3];
  }

  lemma DocValues(v1: seq<int>, v2: seq<int>, v3: seq<int>, v4: seq<int>, xs: seq<int>)
    requires v1 == [1, 2, 3] && v2 == [5] && v3 == [9] && v4 == [10, 12, 14, 16, 18, 20]
    requires xs == [1, 2, 3, 5, 9, 10, 12, 14, 16, 18, 20]
    ensures v1 + (v2 + (v3 + (v4 + []))) == xs
  {
  }

  /** The documented example: '1-3, 5, 9, 10-20:2' stands for the frames
      1, 2, 3, 5, 9, 10, 12, 14, 16, 18 and 20. */
  lemma ParseDocExample(s: string, xs: seq<int>)
    requires s == "1-3, 5, 9, 10-20:2"
    requires xs == [1, 2, 3, 5, 9, 10, 12, 14, 16, 18, 20]
    ensures ParseFrameString(s) == Ok(xs)
  {
    var a, b, c, d := "1-3", " 5", " 9", " 10-20:2";
    DocBlocks(s, a, b, c, d);
    DocParseBlocks([a, b, c, d], xs);
    SortedStays(xs);
  }

  /** An ascending list without repeats is its own `sorted(set(...))`. */
  lemma SortedStays(xs: seq<int>)
    requires xs == [1, 2, 3, 5, 9, 10, 12, 14, 16, 18, 20]
    ensures SortUnique(xs) == xs
  {
    assert StrictlyAscending(xs);
    AscendingUnique(SortUnique(xs), xs);
  }
}

=== FILE: range_expr.dfy ===
/** The frame-range notation of `Sequence.prettyPrintFrameList` and
    `Sequence.parseFrameString`: comma-separated blocks `start[-end][:step]`.
    Printing collapses streaks of consecutive frames; parsing expands blocks
    and returns the distinct frames in ascending order. */
module RangeExpr {
  import opened Results
  import opened Text
  import opened Seqs

  predicate StrictlyAscending(xs: seq<int>)
  {
    forall i, j :: 0 <= i < j < |xs| ==> xs[i] < xs[j]
  }

  /** Two ascending lists without repeats that hold the same values are equal. */
  lemma {:induction false} AscendingUnique(a: seq<int>, b: seq<int>)
    requires StrictlyAscending(a) && StrictlyAscending(b)
    requires forall x :: x in a <==> x in b
    ensures a == b
  {
    if a != [] {
      assert a[0] in a;
    }
    if b != [] {
      assert b[0] in b;
    }
    if a != [] && b != [] {
      assert a[0] in b && b[0] in a;
      assert a[0] == b[0];
      forall x | x in a[1..]
        ensures x in b[1..]
      {
        assert x in b && x != b[0];
      }
      forall x | x in b[1..]
        ensures x in a[1..]
      {
        assert x in a && x != a[0];
      }
      AscendingUnique(a[1..], b[1..]);
    }
  }

  // ====================================================== printing

  /** The loop state of prettyPrintFrameList: no streak yet (both variables
      `None`), or a streak running from `start` to `last`. */
  datatype Streak = Idle | Open(start: int, last: int)

  /** The parts a finished streak contributes: one number, two numbers for a
      streak of two, `start-last` for a longer one. */
  function StreakTokens(start: int, last: int): seq<string>
  {
    if start == last then [IntToString(last)]
    else if last - start == 1 then [IntToString(start), IntToString(last)]
    else [IntToString(start) + "-" + IntToString(last)]
  }

  /** The parts the loop appends from state `st` on, the final emission after
      the loop included (`str(None)` when no frame was seen). With
      `zeroIsUnset` a streak whose start is 0 is treated as no streak, which is
      what the truth test on `currRangeStart` does. */
  function Walk(st: Streak, rest: seq<int>, zeroIsUnset: bool): (parts: seq<string>)
    ensures parts != []
    decreases |rest|
  {
    if rest == [] then
      match st
      case Idle => ["None"]
      case Open(s, l) => StreakTokens(s, l)
    else
      var f := rest[0];
      if st.Idle? || (zeroIsUnset && st.start == 0) then Walk(Open(f, f), rest[1..], zeroIsUnset)
      else if f != st.last + 1 then StreakTokens(st.start, st.last) + Walk(Open(f, f), rest[1..], zeroIsUnset)
      else Walk(Open(st.start, f), rest[1..], zeroIsUnset)
  }

  /** `Sequence.prettyPrintFrameList(frames)` as the source computes it. */
  function PrettyPrintFrameList(frames: seq<int>): (r: string)
    ensures frames == [] ==> r == "None"
    ensures frames != [] ==> r == Join(", ", RenderRuns(Runs(frames, true)))
  {
    if frames == [] then Join(", ", Walk(Idle, frames, true))
    else
      WalkRendersRuns(frames, true);
      Join(", ", Walk(Idle, frames, true))
  }

  /** prettyPrintFrameList with the streak test `currRangeStart is None`, so
      that a streak may start at frame 0. */
  function PrettyPrintFrameListIntended(frames: seq<int>): (r: string)
    ensures frames == [] ==> r == "None"
    ensures frames != [] ==> r == Join(", ", RenderRuns(Runs(frames, false)))
  {
    if frames == [] then Join(", ", Walk(Idle, frames, false))
    else
      WalkRendersRuns(frames, false);
      Join(", ", Walk(Idle, frames, false))
  }

  // ------------------------------------------------------ runs, the reference reading

  /** How many leading elements of `rest` continue a streak that ends at `last`. */
  function Continuation(last: int, rest: seq<int>): (k: nat)
    ensures k <= |rest|
    decreases |rest|
  {
    if rest == [] || rest[0] != last + 1 then 0 else 1 + Continuation(rest[0], rest[1..])
  }

  /** The first `k` values go up by one from `last`, and the next one does not. */
  lemma {:induction false} ContinuationMeaning(last: int, rest: seq<int>)
    ensures var k := Continuation(last, rest);
            (forall i :: 0 <= i < k ==> rest[i] == last + 1 + i)
            && (k < |rest| ==> rest[k] != (if k == 0 then last else rest[k - 1]) + 1)
    decreases |rest|
  {
    if rest != [] && rest[0] == last + 1 {
      ContinuationMeaning(rest[0], rest[1..]);
    }
  }

  /** The streaks the printer reports, read off the list directly: each run is
      a maximal stretch of consecutive values, given by its first and last
      value. With `zeroIsUnset`, a 0 that would begin a run and is followed by
      more frames is dropped. */
  function Runs(xs: seq<int>, zeroIsUnset: bool): (runs: seq<(int, int)>)
    ensures xs != [] ==> runs != []
    decreases |xs|
  {
    if xs == [] then []
    else if zeroIsUnset && xs[0] == 0 && |xs| > 1 then Runs(xs[1..], zeroIsUnset)
    else
      var k := Continuation(xs[0], xs[1..]);
      [(xs[0], xs[k])] + Runs(xs[k + 1..], zeroIsUnset)
  }

  /** Every run starts no later than it ends. */
  predicate Ordered(runs: seq<(int, int)>)
  {
    forall i :: 0 <= i < |runs| ==> runs[i].0 <= runs[i].1
  }

  lemma {:induction false} RunsOrdered(xs: seq<int>, zeroIsUnset: bool)
    ensures Ordered(Runs(xs, zeroIsUnset))
    decreases |xs|
  {
    if xs != [] {
      if zeroIsUnset && xs[0] == 0 && |xs| > 1 {
        RunsOrdered(xs[1..], zeroIsUnset);
      } else {
        var k := Continuation(xs[0], xs[1..]);
        ContinuationMeaning(xs[0], xs[1..]);
        RunsHead(xs, zeroIsUnset);
        RunsOrdered(xs[k + 1..], zeroIsUnset);
        if k > 0 {
          assert xs[k] == xs[1..][k - 1];
        }
        OrderedCons((xs[0], xs[k]), Runs(xs[k + 1..], zeroIsUnset));
      }
    }
  }

  lemma OrderedCons(h: (int, int), more: seq<(int, int)>)
    requires h.0 <= h.1 && Ordered(more)
    ensures Ordered([h] + more)
  {
    var runs := [h] + more;
    assert forall i :: 1 <= i < |runs| ==> runs[i] == more[i - 1];
  }

  function RenderRuns(runs: seq<(int, int)>): seq<string>
  {
    if runs == [] then [] else StreakTokens(runs[0].0, runs[0].1) + RenderRuns(runs[1..])
  }

  /** Once a streak has started (at a value that is not treated as unset), the
      loop emits it when the consecutive values run out, and carries on as if
      starting afresh. */
  lemma {:induction false} WalkOpen(s: int, l: int, rest: seq<int>, zeroIsUnset: bool)
    requires !(zeroIsUnset && s == 0)
    ensures var k := Continuation(l, rest);
            var end := if k == 0 then l else rest[k - 1];
            Walk(Open(s, l), rest, zeroIsUnset)
              == StreakTokens(s, end) + (if k == |rest| then [] else Walk(Idle, rest[k..], zeroIsUnset))
    decreases |rest|
  {
    if rest != [] && rest[0] == l + 1 {
      var k' := Continuation(rest[0], rest[1..]);
      WalkOpen(s, rest[0], rest[1..], zeroIsUnset);
      assert rest[1..][k'..] == rest[1 + k'..];
    }
  }

  /** The loop of prettyPrintFrameList emits exactly the tokens of the runs. */
  lemma {:induction false} WalkRendersRuns(xs: seq<int>, zeroIsUnset: bool)
    requires xs != []
    ensures Walk(Idle, xs, zeroIsUnset) == RenderRuns(Runs(xs, zeroIsUnset))
    decreases |xs|
  {
    var x := xs[0];
    if zeroIsUnset && x == 0 && |xs| > 1 {
      WalkRendersRuns(xs[1..], zeroIsUnset);
      assert xs[1..][1..] == xs[2..];
    } else if zeroIsUnset && x == 0 {
      assert xs == [0];
    } else {
      WalkOpen(x, x, xs[1..], zeroIsUnset);
      var k := Continuation(x, xs[1..]);
      RunsHead(xs, zeroIsUnset);
      var more := Runs(xs[k + 1..], zeroIsUnset);
      assert xs[k] == if k == 0 then x else xs[1..][k - 1];
      assert RenderRuns([(x, xs[k])] + more) == StreakTokens(x, xs[k]) + RenderRuns(more);
      if k < |xs| - 1 {
        WalkRendersRuns(xs[k + 1..], zeroIsUnset);
        assert xs[1..][k..] == xs[k + 1..];
      }
    }
  }

  /** One step of Runs when the first value is kept. */
  lemma RunsHead(xs: seq<int>, zeroIsUnset: bool)
    requires xs != [] && !(zeroIsUnset && xs[0] == 0 && |xs| > 1)
    ensures var k := Continuation(xs[0], xs[1..]);
            Runs(xs, zeroIsUnset) == [(xs[0], xs[k])] + Runs(xs[k + 1..], zeroIsUnset)
  {
  }

  /** No run starts right after the previous one ends. */
  predicate Separated(runs: seq<(int, int)>)
  {
    forall i :: 0 <= i < |runs| - 1 ==> runs[i + 1].0 != runs[i].1 + 1
  }

  lemma SeparatedCons(h: (int, int), more: seq<(int, int)>)
    requires Separated(more)
    requires more != [] ==> more[0].0 != h.1 + 1
    ensures Separated([h] + more)
  {
    var runs := [h] + more;
    assert forall i :: 1 <= i < |runs| ==> runs[i] == more[i - 1];
  }

  /** Adjacent runs never touch: each run is as long as it can be. */
  lemma {:induction false} RunsAreMaximal(xs: seq<int>, zeroIsUnset: bool)
    requires !zeroIsUnset || 0 !in xs
    ensures Separated(Runs(xs, zeroIsUnset))
    decreases |xs|
  {
    if xs != [] {
      var k := Continuation(xs[0], xs[1..]);
      ZeroFreeHead(xs, zeroIsUnset);
      RunsHead(xs, zeroIsUnset);
      ZeroFreeSuffix(xs, k + 1, zeroIsUnset);
      RunsAreMaximal(xs[k + 1..], zeroIsUnset);
      NextRunStarts(xs, zeroIsUnset);
      SeparatedCons((xs[0], xs[k]), Runs(xs[k + 1..], zeroIsUnset));
    }
  }

  lemma ZeroFreeHead(xs: seq<int>, zeroIsUnset: bool)
    requires xs != [] && (!zeroIsUnset || 0 !in xs)
    ensures !(zeroIsUnset && xs[0] == 0 && |xs| > 1)
  {
    assert xs[0] in xs;
  }

  lemma ZeroFreeSuffix(xs: seq<int>, n: nat, zeroIsUnset: bool)
    requires n <= |xs| && (!zeroIsUnset || 0 !in xs)
    ensures !zeroIsUnset || 0 !in xs[n..]
  {
    assert forall y :: y in xs[n..] ==> y in xs;
  }

  /** The run after the first one starts at a value that does not continue it. */
  lemma NextRunStarts(xs: seq<int>, zeroIsUnset: bool)
    requires xs != [] && (!zeroIsUnset || 0 !in xs)
    ensures var k := Continuation(xs[0], xs[1..]);
            k + 1 < |xs| ==> Runs(xs[k + 1..], zeroIsUnset)[0].0 != xs[k] + 1
  {
    var k := Continuation(xs[0], xs[1..]);
    ContinuationMeaning(xs[0], xs[1..]);
    if k + 1 < |xs| {
      var rest := xs[k + 1..];
      assert rest[0] == xs[1..][k];
      assert rest[0] in xs;
      RunsHead(rest, zeroIsUnset);
      if k > 0 {
        assert xs[k] == xs[1..][k - 1];
      }
    }
  }

  // ====================================================== parsing

  /** The groups of `blockRegex` matched at the start of a block. */
  datatype Block = Block(start: int, end: Option<int>, step: Option<nat>)

  datatype ParseError =
    | EndBeforeStart(block: string)  // the range assertion fails
    | ZeroStep(block: string)        // `range()` refuses a step of 0

  /** The length of the run of digits that `s` starts with. */
  function LeadingDigits(s: string): (n: nat)
    ensures n <= |s| && AllDigits(s[..n]) && (n < |s| ==> !IsDigit(s[n]))
  {
    if s != [] && IsDigit(s[0]) then
      var n := 1 + LeadingDigits(s[1..]);
      assert s[..n] == [s[0]] + s[1..][..n - 1];
      n
    else 0
  }

  /** The pattern `-?\d+` at the start of `s`: its value and its length. */
  function SignedNumber(s: string): (r: Option<(int, nat)>)
    ensures r.Some? ==> 0 < r.value.1 <= |s|
  {
    if |s| > 0 && s[0] == '-' && LeadingDigits(s[1..]) > 0 then
      var n := LeadingDigits(s[1..]);
      var v: int := DigitsValue(s[1..][..n]);
      Some((-v, 1 + n))
    else if LeadingDigits(s) > 0 then
      var n := LeadingDigits(s);
      Some((DigitsValue(s[..n]), n))
    else None
  }

  /** `blockRegex.match(s)`: a number, then optionally `-` and a number, then
      optionally `:` and digits; whatever follows is ignored. */
  function MatchBlock(s: string): (r: Option<Block>)
    ensures r.Some? <==> SignedNumber(s).Some?
    ensures r.Some? ==> r.value.start == SignedNumber(s).value.0
  {
    match SignedNumber(s)
    case None => None
    case Some(first) =>
      var rest := s[first.1..];
      var second := if |rest| > 0 && rest[0] == '-' then SignedNumber(rest[1..]) else None;
      var tail := if second.Some? then rest[1 + second.value.1..] else rest;
      var incLength := if |tail| > 0 && tail[0] == ':' then LeadingDigits(tail[1..]) else 0;
      Some(Block(first.0,
                 if second.Some? then Some(second.value.0) else None,
                 if incLength > 0 then Some(DigitsValue(tail[1..][..incLength])) else None))
  }

  /** `x` is one of `start`, `start + step`, ... not beyond `end`. */
  predicate OnGrid(x: int, start: int, end: int, step: nat)
    requires step > 0
  {
    start <= x <= end && (x - start) % step == 0
  }

  /** `range(start, end + 1, step)`. */
  function Expand(start: int, end: int, step: nat): (r: seq<int>)
    requires step > 0
    ensures StrictlyAscending(r)
    ensures forall x :: x in r <==> OnGrid(x, start, end, step)
    decreases if end < start then 0 else end - start + 1
  {
    if end < start then []
    else
      var rest := Expand(start + step, end, step);
      var r := [start] + rest;
      forall x
        ensures x in r <==> OnGrid(x, start, end, step)
      {
        ModStep(x - start, step);
        assert OnGrid(x, start + step, end, step) <==> x in rest;
      }
      assert forall i :: 0 < i < |r| ==> r[i] == rest[i - 1] && r[i] in rest;
      r
  }

  /** The end (defaulting to the start) and step (defaulting to 1) a block uses. */
  function EndOf(b: Block): int { b.end.GetOr(b.start) }
  function StepOf(b: Block): nat { b.step.GetOr(1) }

  /** A matched block the parser refuses. */
  predicate Rejects(text: string)
  {
    MatchBlock(text).Some? && (EndOf(MatchBlock(text).value) < MatchBlock(text).value.start
                                 || StepOf(MatchBlock(text).value) == 0)
  }

  /** The frames a block stands for: `start`, `start + step`, ... up to `end`. */
  predicate Denotes(text: string, x: int)
  {
    MatchBlock(text).Some? &&
    var b := MatchBlock(text).value;
    StepOf(b) > 0 && OnGrid(x, b.start, EndOf(b), StepOf(b))
  }

  function ExpandBlock(text: string, b: Block): (r: Result<seq<int>, ParseError>)
    ensures EndOf(b) < b.start ==> r == Err(EndBeforeStart(text))
    ensures b.start <= EndOf(b) && StepOf(b) == 0 ==> r == Err(ZeroStep(text))
    ensures r.Ok? ==> StepOf(b) > 0 && StrictlyAscending(r.value)
                      && forall x :: x in r.value <==> OnGrid(x, b.start, EndOf(b), StepOf(b))
  {
    if EndOf(b) < b.start then Err(EndBeforeStart(text))
    else if StepOf(b) == 0 then Err(ZeroStep(text))
    else Ok(Expand(b.start, EndOf(b), StepOf(b)))
  }

  /** What one matched block contributes: refused exactly when `Rejects`
      says so, otherwise exactly the frames it denotes. */
  lemma ExpandBlockMeaning(text: string)
    ensures MatchBlock(text).None? ==> !Rejects(text) && forall x :: !Denotes(text, x)
    ensures MatchBlock(text).Some? ==>
              var r := ExpandBlock(text, MatchBlock(text).value);
              (r.Err? <==> Rejects(text)) && (r.Ok? ==> forall x :: x in r.value <==> Denotes(text, x))
  {
  }

  /** A raw block, once stripped, is refused. */
  predicate Refused(block: string) { Rejects(Strip(block)) }

  /** A raw block, once stripped, stands for frame `x`. */
  predicate Covers(block: string, x: int) { Denotes(Strip(block), x) }

  predicate SomeRefused(blocks: seq<string>)
  {
    AnyAt(blocks, Refused)
  }

  predicate SomeCovers(blocks: seq<string>, x: int)
  {
    AnyAt(blocks, b => Covers(b, x))
  }

  /** `values` in front of the frames of a parse that succeeded; a failed parse stays failed. */
  function Prepend(values: seq<int>, more: Result<seq<int>, ParseError>): Result<seq<int>, ParseError>
  {
    if more.Err? then more else Ok(values + more.value)
  }

  /** One round of the loop over blocks: the stripped block `text` in front of
      the outcome `more` of the blocks after it. */
  function ParseBlock(text: string, more: Result<seq<int>, ParseError>): (r: Result<seq<int>, ParseError>)
    ensures MatchBlock(text).None? ==> r == more
    ensures more.Err? ==> r.Err?
    ensures r.Err? && more.Ok? ==> Rejects(text)
    ensures r.Ok? ==> more.Ok? && |more.value| <= |r.value| && r.value[|r.value| - |more.value|..] == more.value
  {
    match MatchBlock(text)
    case None => more
    case Some(b) =>
      match ExpandBlock(text, b)
      case Err(e) => Err(e)
      case Ok(values) => Prepend(values, more)
  }

  /** The loop over blocks: each block is stripped, an unmatched block is
      skipped, and the first refused block aborts the whole parse. */
  function ParseBlocks(blocks: seq<string>): (r: Result<seq<int>, ParseError>)
    ensures r.Err? ==> SomeRefused(blocks)
  {
    if blocks == [] then Ok([])
    else
      RefusedStep(blocks);
      ParseBlock(Strip(blocks[0]), ParseBlocks(blocks[1..]))
  }

  /** A block fails the parse exactly when it is refused; otherwise it adds
      exactly the frames it denotes. */
  lemma ParseBlockMeaning(text: string, more: Result<seq<int>, ParseError>)
    ensures ParseBlock(text, more).Err? <==> Rejects(text) || more.Err?
    ensures ParseBlock(text, more).Ok? ==>
              forall x :: x in ParseBlock(text, more).value <==> Denotes(text, x) || x in more.value
  {
    ExpandBlockMeaning(text);
  }

  /** The parse of a list of blocks fails exactly when one of them is refused,
      and otherwise yields exactly the frames some block denotes. */
  lemma {:induction false} ParseBlocksMeaning(blocks: seq<string>)
    ensures ParseBlocks(blocks).Err? <==> SomeRefused(blocks)
    ensures ParseBlocks(blocks).Ok? ==> forall x :: x in ParseBlocks(blocks).value <==> SomeCovers(blocks, x)
  {
    if blocks != [] {
      ParseBlocksMeaning(blocks[1..]);
      ParseBlockMeaning(Strip(blocks[0]), ParseBlocks(blocks[1..]));
      ParseBlocksStep(blocks);
    }
  }

  /** The index quantifiers of ParseBlocks, split at the first block. */
  lemma ParseBlocksStep(blocks: seq<string>)
    requires blocks != []
    ensures SomeRefused(blocks) <==> Refused(blocks[0]) || SomeRefused(blocks[1..])
    ensures forall x :: SomeCovers(blocks, x) <==> Covers(blocks[0], x) || SomeCovers(blocks[1..], x)
  {
    RefusedStep(blocks);
    forall x
      ensures SomeCovers(blocks, x) <==> Covers(blocks[0], x) || SomeCovers(blocks[1..], x)
    {
      CoversStep(blocks, x);
    }
  }

  lemma RefusedStep(blocks: seq<string>)
    requires blocks != []
    ensures SomeRefused(blocks) <==> Refused(blocks[0]) || SomeRefused(blocks[1..])
  {
    AnyAtStep(blocks, Refused);
  }

  lemma CoversStep(blocks: seq<string>, x: int)
    requires blocks != []
    ensures SomeCovers(blocks, x) <==> Covers(blocks[0], x) || SomeCovers(blocks[1..], x)
  {
    AnyAtStep(blocks, b => Covers(b, x));
  }

  function InsertUnique(x: int, ys: seq<int>): (r: seq<int>)
    requires StrictlyAscending(ys)
    ensures StrictlyAscending(r)
    ensures forall z :: z in r <==> z == x || z in ys
  {
    if ys == [] then [x]
    else if x < ys[0] then
      AscendingTail(ys);
      AscendingCons(x, ys);
      [x] + ys
    else if x == ys[0] then ys
    else
      AscendingTail(ys);
      var rest := InsertUnique(x, ys[1..]);
      AscendingCons(ys[0], rest);
      [ys[0]] + rest
  }

  lemma AscendingTail(ys: seq<int>)
    requires ys != [] && StrictlyAscending(ys)
    ensures StrictlyAscending(ys[1..])
    ensures forall z :: z in ys ==> z == ys[0] || z in ys[1..]
    ensures forall z :: z in ys[1..] ==> ys[0] < z
  {
    assert ys == [ys[0]] + ys[1..];
  }

  lemma AscendingCons(h: int, xs: seq<int>)
    requires StrictlyAscending(xs) && forall z :: z in xs ==> h < z
    ensures StrictlyAscending([h] + xs)
  {
    var r := [h] + xs;
    assert forall i :: 1 <= i < |r| ==> r[i] == xs[i - 1] && r[i] in xs;
  }

  /** `sorted(set(xs))`. */
  function SortUnique(xs: seq<int>): (r: seq<int>)
    ensures StrictlyAscending(r)
    ensures forall z :: z in r <==> z in xs
  {
    if xs == [] then [] else InsertUnique(xs[0], SortUnique(xs[1..]))
  }

  /** `Sequence.parseFrameString(s)`: the frames the comma-separated blocks of
      `s` stand for, ascending and without repeats. */
  function ParseFrameString(s: string): (r: Result<seq<int>, ParseError>)
    ensures r.Ok? ==> StrictlyAscending(r.value)
    ensures r.Ok? ==> forall x :: x in r.value <==> SomeCovers(Split(s, ','), x)
    ensures r.Err? <==> SomeRefused(Split(s, ','))
  {
    var blocks := Split(s, ',');
    var parsed := ParseBlocks(blocks);
    ParseBlocksMeaning(blocks);
    if parsed.Err? then Err(parsed.error) else Ok(SortUnique(parsed.value))
  }

  // ====================================================== round trip

  /** A printed token: no comma and no white space at either end. */
  predicate CleanToken(t: string)
  {
    t != [] && ',' !in t && !IsSpace(t[0]) && !IsSpace(t[|t| - 1])
  }

  lemma {:induction false} LeadingDigitsOfDigits(d: string, rest: string)
    requires AllDigits(d)
    requires rest == [] || !IsDigit(rest[0])
    ensures LeadingDigits(d + rest) == |d|
    ensures (d + rest)[..|d|] == d
  {
    if d != [] {
      assert (d + rest)[1..] == d[1..] + rest;
      LeadingDigitsOfDigits(d[1..], rest);
    } else {
      assert d + rest == rest;
    }
  }

  /** `-?\d+` reads back the decimal form of any integer. */
  lemma SignedNumberOfInt(n: int, rest: string)
    requires rest == [] || !IsDigit(rest[0])
    ensures SignedNumber(IntToString(n) + rest) == Some((n, |IntToString(n)|))
  {
    if n >= 0 {
      SignedNumberOfDigits(NatToString(n), rest);
    } else {
      NegativeIntPrefix(IntToString(n) + rest, NatToString(-n), rest);
      SignedNumberOfNegative(IntToString(n) + rest, NatToString(-n), rest);
    }
  }

  lemma NegativeIntPrefix(s: string, d: string, rest: string)
    requires |d| > 0 && s == "-" + d + rest
    ensures |s| > 0 && s[0] == '-' && s[1..] == d + rest
  {
  }

  lemma SignedNumberOfDigits(d: string, rest: string)
    requires |d| > 0 && AllDigits(d)
    requires rest == [] || !IsDigit(rest[0])
    ensures SignedNumber(d + rest) == Some((DigitsValue(d) as int, |d|))
  {
    var s := d + rest;
    LeadingDigitsOfDigits(d, rest);
    assert s[0] == d[0] && IsDigit(d[0]);
  }

  lemma SignedNumberOfNegative(s: string, d: string, rest: string)
    requires |d| > 0 && AllDigits(d)
    requires rest == [] || !IsDigit(rest[0])
    requires |s| > 0 && s[0] == '-' && s[1..] == d + rest
    ensures SignedNumber(s) == Some((-(DigitsValue(d) as int), 1 + |d|))
  {
    LeadingDigitsOfDigits(d, rest);
    NegativeNumber(s, d, rest);
  }

  lemma NegativeNumber(s: string, d: string, rest: string)
    requires |d| > 0 && |s| > 0 && s[0] == '-' && s[1..] == d + rest
    requires LeadingDigits(d + rest) == |d| && (d + rest)[..|d|] == d && AllDigits(d)
    ensures SignedNumber(s) == Some((-(DigitsValue(d) as int), 1 + |d|))
  {
  }

  lemma IntTokenIsClean(n: int)
    ensures CleanToken(IntToString(n))
    ensures IsDigit(IntToString(n)[|IntToString(n)| - 1])
  {
    var s := IntToString(n);
    if n < 0 {
      assert forall i :: 1 <= i < |s| ==> s[i] == NatToString(-n)[i - 1];
    }
  }

  lemma SingleToken(a: int)
    ensures MatchBlock(IntToString(a)) == Some(Block(a, None, None))
  {
    SignedNumberOfInt(a, []);
    assert IntToString(a) + [] == IntToString(a);
  }

  /** A block that is exactly `first-second`. */
  lemma MatchWholeRange(s: string, n: nat, u: string, v: int, w: int)
    requires SignedNumber(s) == Some((v, n))
    requires s[n..] == "-" + u
    requires SignedNumber(u) == Some((w, |u|))
    ensures MatchBlock(s) == Some(Block(v, Some(w), None))
  {
    var rest := s[n..];
    assert rest[1..] == u;
    assert rest[1 + |u|..] == [];
  }

  lemma RangeTokenMatches(a: int, b: int)
    ensures MatchBlock(IntToString(a) + "-" + IntToString(b)) == Some(Block(a, Some(b), None))
  {
    SignedNumberOfInt(a, "-" + IntToString(b));
    SignedNumberOfInt(b, []);
    RangeMatchStep(IntToString(a), IntToString(b), a, b);
  }

  lemma RangeMatchStep(sa: string, sb: string, a: int, b: int)
    requires SignedNumber(sa + ("-" + sb)) == Some((a, |sa|))
    requires SignedNumber(sb + []) == Some((b, |sb|))
    ensures MatchBlock(sa + "-" + sb) == Some(Block(a, Some(b), None))
  {
    var t := sa + "-" + sb;
    assert t == sa + ("-" + sb);
    assert sb + [] == sb;
    assert t[|sa|..] == "-" + sb;
    MatchWholeRange(t, |sa|, sb, a, b);
  }

  lemma RangeTokenClean(a: int, b: int)
    ensures CleanToken(IntToString(a) + "-" + IntToString(b))
  {
    IntTokenIsClean(a);
    IntTokenIsClean(b);
    CleanAroundDash(IntToString(a), IntToString(b));
  }

  lemma CleanAroundDash(sa: string, sb: string)
    requires CleanToken(sa) && CleanToken(sb)
    ensures CleanToken(sa + "-" + sb)
  {
    var t := sa + "-" + sb;
    assert t[0] == sa[0];
    assert t[|t| - 1] == sb[|sb| - 1];
    assert forall i :: 0 <= i < |t| ==> t[i] == '-' || t[i] in sa || t[i] in sb;
  }

  /** Every token of a list is clean. */
  predicate AllClean(tokens: seq<string>)
  {
    forall i :: 0 <= i < |tokens| ==> CleanToken(tokens[i])
  }

  lemma AllCleanAppend(u: seq<string>, v: seq<string>)
    requires AllClean(u) && AllClean(v)
    ensures AllClean(u + v)
  {
    assert forall i :: |u| <= i < |u + v| ==> (u + v)[i] == v[i - |u|];
  }

  /** The tokens of one streak are clean. */
  lemma StreakTokensClean(a: int, b: int)
    ensures AllClean(StreakTokens(a, b))
  {
    IntTokenIsClean(a);
    IntTokenIsClean(b);
    if b - a > 1 || b < a {
      RangeTokenClean(a, b);
    }
  }

  /** Parsing one clean token in front of more blocks. */
  lemma ParseBlocksCons(t: string, rest: seq<string>, values: seq<int>)
    requires CleanToken(t)
    requires MatchBlock(t).Some? && ExpandBlock(t, MatchBlock(t).value) == Ok(values)
    ensures ParseBlocks([t] + rest) == Prepend(values, ParseBlocks(rest))
  {
    StripClean([], t);
    assert [] + t == t;
    assert ([t] + rest)[1..] == rest;
  }

  lemma ExpandOne(a: int)
    ensures Expand(a, a, 1) == [a]
  {
    assert Expand(a + 1, a, 1) == [];
  }

  lemma ExpandPair(a: int)
    ensures Expand(a, a + 1, 1) == [a, a + 1]
  {
    ExpandOne(a + 1);
  }

  function FlattenRuns(runs: seq<(int, int)>): seq<int>
  {
    if runs == [] then [] else Expand(runs[0].0, runs[0].1, 1) + FlattenRuns(runs[1..])
  }

  /** Every printed token is clean. */
  lemma {:induction false} RenderedTokensClean(runs: seq<(int, int)>)
    ensures AllClean(RenderRuns(runs))
  {
    if runs != [] {
      RenderedTokensClean(runs[1..]);
      StreakTokensClean(runs[0].0, runs[0].1);
      AllCleanAppend(StreakTokens(runs[0].0, runs[0].1), RenderRuns(runs[1..]));
    }
  }

  /** Parsing the tokens of one streak in front of more blocks. */
  lemma ParseStreak(a: int, b: int, more: seq<string>)
    requires a <= b
    ensures ParseBlocks(StreakTokens(a, b) + more) == Prepend(Expand(a, b, 1), ParseBlocks(more))
  {
    if a == b {
      ParseSingle(a, more);
      ExpandOne(a);
    } else if b - a == 1 {
      ParsePair(a, more);
      ExpandPair(a);
    } else {
      ParseRange(a, b, more);
    }
  }

  lemma ParseRange(a: int, b: int, more: seq<string>)
    requires b - a > 1
    ensures ParseBlocks(StreakTokens(a, b) + more) == Prepend(Expand(a, b, 1), ParseBlocks(more))
  {
    var t := IntToString(a) + "-" + IntToString(b);
    RangeTokenClean(a, b);
    RangeTokenMatches(a, b);
    RangeExpands(t, a, b);
    ParseBlocksCons(t, more, Expand(a, b, 1));
  }

  lemma RangeExpands(t: string, a: int, b: int)
    requires a <= b && MatchBlock(t) == Some(Block(a, Some(b), None))
    ensures ExpandBlock(t, MatchBlock(t).value) == Ok(Expand(a, b, 1))
  {
  }

  lemma PrependTwice(u: seq<int>, v: seq<int>, r: Result<seq<int>, ParseError>)
    ensures Prepend(u, Prepend(v, r)) == Prepend(u + v, r)
  {
    if r.Ok? {
      assert u + (v + r.value) == (u + v) + r.value;
    }
  }

  lemma ParsePair(a: int, more: seq<string>)
    ensures ParseBlocks([IntToString(a), IntToString(a + 1)] + more) == Prepend([a, a + 1], ParseBlocks(more))
  {
    var sa, sb := IntToString(a), IntToString(a + 1);
    ConsPair(sa, sb, more);
    ParseSingle(a, [sb] + more);
    ParseSingle(a + 1, more);
    PrependTwice([a], [a + 1], ParseBlocks(more));
    assert [a] + [a + 1] == [a, a + 1];
  }

  lemma ConsPair(x: string, y: string, more: seq<string>)
    ensures [x, y] + more == [x] + ([y] + more)
  {
  }

  lemma ParseSingle(a: int, more: seq<string>)
    ensures ParseBlocks([IntToString(a)] + more) == Prepend([a], ParseBlocks(more))
  {
    ExpandOne(a);
    IntTokenIsClean(a);
    SingleToken(a);
    ParseBlocksCons(IntToString(a), more, Expand(a, a, 1));
  }

  /** Parsing the rendered runs expands each run back to its values. */
  lemma {:induction false} ParseRenderedRuns(runs: seq<(int, int)>)
    requires Ordered(runs)
    ensures ParseBlocks(RenderRuns(runs)) == Ok(FlattenRuns(runs))
  {
    if runs != [] {
      var (a, b) := runs[0];
      ParseRenderedRuns(runs[1..]);
      ParseStreak(a, b, RenderRuns(runs[1..]));
    }
  }

  lemma CommaSpace(pre: string, t: string, j: string)
    ensures pre + (t + ", " + j) == (pre + t) + [','] + (" " + j)
  {
  }

  lemma AllCleanTail(tokens: seq<string>)
    requires tokens != [] && AllClean(tokens)
    ensures CleanToken(tokens[0]) && AllClean(tokens[1..])
  {
    assert forall i :: 0 <= i < |tokens| - 1 ==> tokens[1..][i] == tokens[i + 1];
  }

  /** A clean token strips to itself. */
  lemma StripOfClean(t: string)
    requires CleanToken(t)
    ensures Strip(t) == t
  {
    StripClean([], t);
    assert [] + t == t;
  }

  /** Blocks that strip to clean tokens parse like the tokens. */
  lemma {:induction false} ParseBlocksPointwise(xs: seq<string>, ys: seq<string>)
    requires Pointwise(xs, ys, Strip) && AllClean(ys)
    ensures ParseBlocks(xs) == ParseBlocks(ys)
    decreases |xs|
  {
    if xs != [] {
      PointwiseTail(xs, ys, Strip);
      AllCleanTail(ys);
      ParseBlocksPointwise(xs[1..], ys[1..]);
      StripOfClean(ys[0]);
      ParseBlocksHeads(xs, ys);
    }
  }

  lemma ParseBlocksHeads(xs: seq<string>, ys: seq<string>)
    requires xs != [] && ys != [] && Strip(xs[0]) == Strip(ys[0])
    requires ParseBlocks(xs[1..]) == ParseBlocks(ys[1..])
    ensures ParseBlocks(xs) == ParseBlocks(ys)
  {
  }

  /** Splitting the ", "-joined tokens at commas gives one piece per token,
      which strips to that token. */
  lemma {:induction false} SplitJoined(tokens: seq<string>, pre: string)
    requires tokens != [] && AllClean(tokens)
    requires pre == "" || pre == " "
    ensures Pointwise(Split(pre + Join(", ", tokens), ','), tokens, Strip)
  {
    var t, rest := tokens[0], tokens[1..];
    AllCleanTail(tokens);
    PaddedToken(pre, t);
    if rest == [] {
      SplitLast(tokens, pre);
    } else {
      SplitJoined(rest, " ");
      SplitJoinedStep(tokens, pre);
      PointwiseCons(pre + t, Split(" " + Join(", ", rest), ','), t, rest, Strip);
    }
  }

  /** A clean token behind `pre` has no comma and strips back to the token. */
  lemma PaddedToken(pre: string, t: string)
    requires CleanToken(t) && (pre == "" || pre == " ")
    ensures ',' !in pre + t && Strip(pre + t) == t
  {
    StripClean(pre, t);
  }

  lemma SplitLast(tokens: seq<string>, pre: string)
    requires |tokens| == 1
    requires ',' !in pre + tokens[0] && Strip(pre + tokens[0]) == tokens[0]
    ensures Pointwise(Split(pre + Join(", ", tokens), ','), tokens, Strip)
  {
    SplitWithout(pre + tokens[0], ',');
  }

  lemma SplitJoinedStep(tokens: seq<string>, pre: string)
    requires |tokens| > 1 && ',' !in pre + tokens[0]
    ensures Split(pre + Join(", ", tokens), ',') == [pre + tokens[0]] + Split(" " + Join(", ", tokens[1..]), ',')
    ensures tokens == [tokens[0]] + tokens[1..]
  {
    var t, j := tokens[0], Join(", ", tokens[1..]);
    assert Join(", ", tokens) == t + ", " + j;
    CommaSpace(pre, t, j);
    SplitAfter(pre + t, ',', " " + j);
  }

  /** Splitting the ", "-joined tokens at commas and stripping each piece gives
      the tokens back, so the parser sees exactly the printed blocks. */
  lemma ParseJoined(tokens: seq<string>)
    requires tokens != [] && AllClean(tokens)
    ensures ParseBlocks(Split(Join(", ", tokens), ',')) == ParseBlocks(tokens)
  {
    SplitJoined(tokens, "");
    EmptyPre(Join(", ", tokens));
    ParseBlocksPointwise(Split(Join(", ", tokens), ','), tokens);
  }

  lemma EmptyPre(s: string)
    ensures "" + s == s
  {
  }

  lemma {:induction false} ExpandConsecutive(ys: seq<int>)
    requires ys != []
    requires forall i :: 0 <= i < |ys| ==> ys[i] == ys[0] + i
    ensures Expand(ys[0], ys[|ys| - 1], 1) == ys
  {
    if |ys| > 1 {
      ExpandConsecutive(ys[1..]);
    } else {
      assert Expand(ys[0] + 1, ys[0], 1) == [];
    }
  }

  /** The first run covers exactly the values up to where the streak breaks. */
  lemma FirstRunCovers(xs: seq<int>)
    requires xs != []
    ensures var k := Continuation(xs[0], xs[1..]);
            Expand(xs[0], xs[k], 1) == xs[..k + 1]
  {
    var k := Continuation(xs[0], xs[1..]);
    var head := xs[..k + 1];
    ContinuationMeaning(xs[0], xs[1..]);
    assert forall i :: 1 <= i < |head| ==> head[i] == xs[1..][i - 1];
    ExpandConsecutive(head);
  }

  lemma FlattenCons(run: (int, int), more: seq<(int, int)>)
    ensures FlattenRuns([run] + more) == Expand(run.0, run.1, 1) + FlattenRuns(more)
  {
    assert ([run] + more)[1..] == more;
  }

  /** Laying the runs end to end gives the list back, whenever no value is
      dropped by the zero test. */
  lemma {:induction false} RunsCover(xs: seq<int>, zeroIsUnset: bool)
    requires !zeroIsUnset || 0 !in xs
    ensures FlattenRuns(Runs(xs, zeroIsUnset)) == xs
    decreases |xs|
  {
    if xs != [] {
      var k := Continuation(xs[0], xs[1..]);
      ZeroFreeHead(xs, zeroIsUnset);
      RunsHead(xs, zeroIsUnset);
      ZeroFreeSuffix(xs, k + 1, zeroIsUnset);
      RunsCover(xs[k + 1..], zeroIsUnset);
      FirstRunCovers(xs);
      FlattenCons((xs[0], xs[k]), Runs(xs[k + 1..], zeroIsUnset));
      CoverStep(xs, k, Runs(xs, zeroIsUnset), Runs(xs[k + 1..], zeroIsUnset));
    }
  }

  lemma CoverStep(xs: seq<int>, k: nat, runs: seq<(int, int)>, more: seq<(int, int)>)
    requires k < |xs| && runs == [(xs[0], xs[k])] + more
    requires FlattenRuns(more) == xs[k + 1..]
    requires Expand(xs[0], xs[k], 1) == xs[..k + 1]
    requires FlattenRuns([(xs[0], xs[k])] + more) == Expand(xs[0], xs[k], 1) + FlattenRuns(more)
    ensures FlattenRuns(runs) == xs
  {
    assert xs == xs[..k + 1] + xs[k + 1..];
  }

  /** Parsing what prettyPrintFrameList prints gives the list back, for every
      non-empty ascending list of distinct frames without frame 0. */
  lemma RoundTrip(xs: seq<int>)
    requires xs != [] && StrictlyAscending(xs) && 0 !in xs
    ensures ParseFrameString(PrettyPrintFrameList(xs)) == Ok(xs)
  {
    var runs := Runs(xs, true);
    WalkRendersRuns(xs, true);
    RunsOrdered(xs, true);
    ParseRenderedRuns(runs);
    RenderedTokensClean(runs);
    ParseJoined(RenderRuns(runs));
    RunsCover(xs, true);
    AscendingUnique(SortUnique(xs), xs);
  }

  /** With the streak test corrected, the round trip holds for every non-empty
      ascending list of distinct frames, frame 0 and negative frames included. */
  lemma RoundTripIntended(xs: seq<int>)
    requires xs != [] && StrictlyAscending(xs)
    ensures ParseFrameString(PrettyPrintFrameListIntended(xs)) == Ok(xs)
  {
    var runs := Runs(xs, false);
    WalkRendersRuns(xs, false);
    RunsOrdered(xs, false);
    ParseRenderedRuns(runs);
    RenderedTokensClean(runs);
    ParseJoined(RenderRuns(runs));
    RunsCover(xs, false);
    AscendingUnique(SortUnique(xs), xs);
  }

  /** As written, a streak starting at frame 0 loses the 0: [0, 1, 2] prints
      as "1, 2" and parses back as [1, 2]. */
  lemma ZeroStartIsDropped()
    ensures PrettyPrintFrameList([0, 1, 2]) == "1, 2"
    ensures PrettyPrintFrameListIntended([0, 1, 2]) == "0-2"
    ensures ParseFrameString(PrettyPrintFrameList([0, 1, 2])) != Ok([0, 1, 2])
  {
    assert IntToString(0) == "0" && IntToString(1) == "1" && IntToString(2) == "2";
    var xs := [0, 1, 2];
    assert xs[1..] == [1, 2] && xs[1..][1..] == [2] && xs[1..][1..][1..] == [];
    assert Walk(Open(1, 2), [], true) == ["1", "2"];
    assert Walk(Idle, xs, true) == ["1", "2"];
    assert "0" + "-" + "2" == "0-2";
    assert Walk(Open(0, 2), [], false) == ["0-2"];
    assert Walk(Idle, xs, false) == ["0-2"];
    var printed := PrettyPrintFrameList(xs);
    assert printed == "1, 2";
    RoundTrip([1, 2]);
    assert [1, 2] != xs;
  }
}

=== FILE: results.dfy ===
/** Failure-carrying values used across the model: `Option` for Python's
    `None`-or-value results and `Result` for calls that can raise. */
module Results {

  datatype Option<+T> = None | Some(value: T)
  {
    function GetOr(default: T): T
    {
      match this
      case Some(v) => v
      case None => default
    }
  }

  /** `Err` stands for a Python exception escaping the call. */
  datatype Result<+T, +E> = Ok(value: T) | Err(error: E)
}

=== FILE: scan.dfy ===
/** The directory scan of `Sequence._getFrameListFromDir`, with the directory
    listing given as a sequence of names in the order the listing returns them.

    The first name that decomposes fixes ("locks in") the prefix, the
    extension and the padding; later names must decompose with that prefix
    and extension and have a token of that length. With a range, frames
    outside it are dropped. The kept frames are then sorted by number. */
module Scan {
  import opened Results
  import opened Text
  import opened Frames
  import opened Seqs

  /** What the first frame name fixes for the rest of the scan. */
  datatype Lock = Lock(prefix: string, ext: string, padding: nat)

  function LockOf(g: Groups): Lock { Lock(g.prefix, g.ext, |g.padding|) }

  /** The `range` filter: `()` keeps everything, `(lo, hi)` keeps lo..hi inclusive. */
  predicate InRange(n: int, range: Option<(int, int)>)
  {
    range.None? || (range.value.0 <= n && n <= range.value.1)
  }

  /** Once locked, the pattern is the escaped literal prefix and extension,
      which a name matches exactly when its own decomposition has them
      (Frames.DecomposeComplete); the token length is checked separately. */
  predicate Fits(g: Groups, lock: Lock)
  {
    g.prefix == lock.prefix && g.ext == lock.ext && |g.padding| == lock.padding
  }

  /** The loop of `_getFrameListFromDir` before the sort: the frames kept, in
      listing order, starting from lock state `lock`. */
  function Collect(listing: seq<string>, lock: Option<Lock>, range: Option<(int, int)>): (r: seq<Frame>)
    ensures |r| <= |listing|
    ensures forall f :: f in r ==> InRange(f.number, range)
    decreases |listing|
  {
    if listing == [] then []
    else
      var g := Decompose(listing[0]);
      if g.None? then Collect(listing[1..], lock, range)
      else if lock.None? then InRangeFrame(g.value, range) + Collect(listing[1..], Some(LockOf(g.value)), range)
      else if !Fits(g.value, lock.value) then Collect(listing[1..], lock, range)
      else InRangeFrame(g.value, range) + Collect(listing[1..], lock, range)
  }

  /** The frame of a decomposed name, if it passes the range filter. */
  function InRangeFrame(g: Groups, range: Option<(int, int)>): (r: seq<Frame>)
    requires WellFormed(g)
    ensures |r| <= 1 && forall f :: f in r ==> InRange(f.number, range)
  {
    if InRange(FrameOf(g).number, range) then [FrameOf(g)] else []
  }

  // ------------------------------------------------------ the declarative reading

  /** The groups of the first name in the listing that decomposes. */
  function FirstGroups(listing: seq<string>): (r: Option<Groups>)
    ensures r.Some? ==> WellFormed(r.value)
    ensures r.Some? <==> AnyAt(listing, IsFrameName)
  {
    if listing == [] then None
    else
      AnyAtStep(listing, IsFrameName);
      if Decompose(listing[0]).Some? then Decompose(listing[0])
      else FirstGroups(listing[1..])
  }

  predicate IsFrameName(name: string) { Decompose(name).Some? }

  /** A name the scan keeps once `lock` is in force. */
  predicate Keeps(name: string, lock: Lock, range: Option<(int, int)>)
  {
    Decompose(name).Some? && Fits(Decompose(name).value, lock)
    && InRange(FrameOf(Decompose(name).value).number, range)
  }

  /** A kept name and the frame it contributes. */
  predicate Builds(name: string, lock: Lock, range: Option<(int, int)>, f: Frame)
  {
    Keeps(name, lock, range) && f == FrameOf(Decompose(name).value)
  }

  /** The frames of the names kept under `lock`, in listing order. */
  function Kept(listing: seq<string>, lock: Lock, range: Option<(int, int)>): seq<Frame>
  {
    if listing == [] then [] else KeptFrame(listing[0], lock, range) + Kept(listing[1..], lock, range)
  }

  /** The frame of one name, if the scan keeps it. */
  function KeptFrame(name: string, lock: Lock, range: Option<(int, int)>): seq<Frame>
  {
    if Keeps(name, lock, range) then [FrameOf(Decompose(name).value)] else []
  }

  /** Some name of the listing builds `f`. */
  predicate SomeBuilds(listing: seq<string>, lock: Lock, range: Option<(int, int)>, f: Frame)
  {
    AnyAt(listing, name => Builds(name, lock, range, f))
  }

  /** The kept frames are exactly those some name of the listing builds. */
  lemma {:induction false} KeptMembers(listing: seq<string>, lock: Lock, range: Option<(int, int)>)
    ensures forall f :: f in Kept(listing, lock, range) <==> SomeBuilds(listing, lock, range, f)
  {
    if listing != [] {
      KeptMembers(listing[1..], lock, range);
      forall f
        ensures f in Kept(listing, lock, range) <==> SomeBuilds(listing, lock, range, f)
      {
        AnyAtStep(listing, name => Builds(name, lock, range, f));
        KeptHead(listing, lock, range, f);
      }
    }
  }

  /** One step of Kept, seen through membership. */
  lemma KeptHead(listing: seq<string>, lock: Lock, range: Option<(int, int)>, f: Frame)
    requires listing != []
    ensures f in Kept(listing, lock, range) <==> Builds(listing[0], lock, range, f) || f in Kept(listing[1..], lock, range)
  {
  }

  /** Once locked, the loop keeps exactly the names that fit the lock and the range. */
  lemma {:induction false} CollectLocked(listing: seq<string>, lock: Lock, range: Option<(int, int)>)
    ensures Collect(listing, Some(lock), range) == Kept(listing, lock, range)
    decreases |listing|
  {
    if listing != [] {
      CollectLocked(listing[1..], lock, range);
      LockedStep(listing, lock, range);
    }
  }

  /** One locked round of the loop adds what Kept adds for the name. */
  lemma LockedStep(listing: seq<string>, lock: Lock, range: Option<(int, int)>)
    requires listing != []
    ensures Collect(listing, Some(lock), range) == KeptFrame(listing[0], lock, range) + Collect(listing[1..], Some(lock), range)
  {
  }

  /** The loop locks onto the first decomposable name and from then on keeps
      exactly the names that fit that lock and the range (the first name
      itself included when it is in range). */
  lemma {:induction false} CollectLocksOnFirst(listing: seq<string>, range: Option<(int, int)>)
    ensures Collect(listing, None, range)
         == if FirstGroups(listing).None? then [] else Kept(listing, LockOf(FirstGroups(listing).value), range)
    decreases |listing|
  {
    if listing != [] {
      match Decompose(listing[0])
      case None =>
        CollectLocksOnFirst(listing[1..], range);
        var first := FirstGroups(listing[1..]);
        if first.Some? {
          assert Kept(listing, LockOf(first.value), range) == Kept(listing[1..], LockOf(first.value), range);
        }
      case Some(g) =>
        CollectLocked(listing[1..], LockOf(g), range);
        assert Keeps(listing[0], LockOf(g), range) <==> InRange(FrameOf(g).number, range);
    }
  }

  // ------------------------------------------------------ sorting

  predicate SortedByNumber(fs: seq<Frame>)
  {
    forall i, j :: 0 <= i < j < |fs| ==> fs[i].number <= fs[j].number
  }

  /** Inserts `f` in front of the first frame whose number is not smaller, so
      that frames with equal numbers keep their order (Python's sort is stable). */
  function InsertByNumber(f: Frame, fs: seq<Frame>): (r: seq<Frame>)
    requires SortedByNumber(fs)
    ensures SortedByNumber(r)
    ensures multiset(r) == multiset(fs) + multiset{f}
    ensures r[0] == f || (fs != [] && r[0] == fs[0])
  {
    if fs == [] then [f]
    else if f.number <= fs[0].number then
      SortedCons(f, fs);
      [f] + fs
    else
      SortedTail(fs);
      var more := InsertByNumber(f, fs[1..]);
      InsertedHead(fs, more, f);
      SortedCons(fs[0], more);
      MultisetCons(fs, more, f);
      [fs[0]] + more
  }

  lemma SortedTail(fs: seq<Frame>)
    requires fs != [] && SortedByNumber(fs)
    ensures SortedByNumber(fs[1..])
  {
  }

  lemma InsertedHead(fs: seq<Frame>, more: seq<Frame>, f: Frame)
    requires fs != [] && SortedByNumber(fs) && fs[0].number < f.number
    requires more != [] && (more[0] == f || (fs[1..] != [] && more[0] == fs[1..][0]))
    ensures fs[0].number <= more[0].number
  {
    if more[0] != f {
      assert more[0] == fs[1];
    }
  }

  lemma SortedCons(h: Frame, fs: seq<Frame>)
    requires SortedByNumber(fs) && (fs != [] ==> h.number <= fs[0].number)
    ensures SortedByNumber([h] + fs)
  {
    var r := [h] + fs;
    assert forall i :: 1 <= i < |r| ==> r[i] == fs[i - 1];
  }

  lemma MultisetCons(fs: seq<Frame>, more: seq<Frame>, f: Frame)
    requires fs != [] && multiset(more) == multiset(fs[1..]) + multiset{f}
    ensures multiset([fs[0]] + more) == multiset(fs) + multiset{f}
  {
    assert fs == [fs[0]] + fs[1..];
  }

  /** `frameList.sort(key=lambda f: f.getNumber())`. */
  function SortByNumber(fs: seq<Frame>): (r: seq<Frame>)
    ensures SortedByNumber(r)
    ensures multiset(r) == multiset(fs)
  {
    if fs == [] then []
    else
      assert fs == [fs[0]] + fs[1..];
      InsertByNumber(fs[0], SortByNumber(fs[1..]))
  }

  /** `_getFrameListFromDir(dir, prefix, ext, range)` with the default patterns. */
  function FramesFromListing(listing: seq<string>, range: Option<(int, int)>): (r: seq<Frame>)
    ensures SortedByNumber(r)
    ensures multiset(r) == multiset(Collect(listing, None, range))
  {
    SortByNumber(Collect(listing, None, range))
  }

  /** A frame with the prefix, extension and padding of a lock. */
  predicate Carries(f: Frame, lock: Lock)
  {
    f.prefix == lock.prefix && f.ext == lock.ext && f.padding == lock.padding
  }

  /** Every kept frame carries the lock and lies in the range. */
  lemma {:induction false} KeptCarries(listing: seq<string>, lock: Lock, range: Option<(int, int)>)
    ensures forall f :: f in Kept(listing, lock, range) ==> Carries(f, lock) && InRange(f.number, range)
  {
    if listing != [] {
      KeptCarries(listing[1..], lock, range);
      KeptFrameCarries(listing[0], lock, range);
    }
  }

  lemma KeptFrameCarries(name: string, lock: Lock, range: Option<(int, int)>)
    ensures forall f :: f in KeptFrame(name, lock, range) ==> Carries(f, lock) && InRange(f.number, range)
  {
  }

  /** The scan is the sorted loop result: the same frames. */
  lemma FramesAreCollected(listing: seq<string>, range: Option<(int, int)>)
    ensures forall f :: f in FramesFromListing(listing, range) <==> f in Collect(listing, None, range)
    ensures Collect(listing, None, range) == [] ==> FramesFromListing(listing, range) == []
  {
    var r := FramesFromListing(listing, range);
    var c := Collect(listing, None, range);
    assert forall f :: f in r <==> f in multiset(r);
    assert forall f :: f in c <==> f in multiset(c);
    if c == [] {
      assert |r| == |multiset(r)| == 0;
    }
  }

  /** Every frame of a scan carries the locked prefix, extension and padding,
      and lies in the range; without a frame name the scan is empty. */
  lemma FramesCarryLock(listing: seq<string>, range: Option<(int, int)>)
    ensures FirstGroups(listing).None? ==> FramesFromListing(listing, range) == []
    ensures FirstGroups(listing).Some? ==>
              var lock := LockOf(FirstGroups(listing).value);
              var r := FramesFromListing(listing, range);
              forall i :: 0 <= i < |r| ==> Carries(r[i], lock) && InRange(r[i].number, range)
  {
    CollectLocksOnFirst(listing, range);
    FramesAreCollected(listing, range);
    if FirstGroups(listing).Some? {
      var lock := LockOf(FirstGroups(listing).value);
      KeptCarries(listing, lock, range);
      CarriesOfSameMembers(FramesFromListing(listing, range), Collect(listing, None, range), lock, range);
    }
  }

  lemma CarriesOfSameMembers(r: seq<Frame>, c: seq<Frame>, lock: Lock, range: Option<(int, int)>)
    requires forall f :: f in r <==> f in c
    requires forall f :: f in c ==> Carries(f, lock) && InRange(f.number, range)
    ensures forall i :: 0 <= i < |r| ==> Carries(r[i], lock) && InRange(r[i].number, range)
  {
    assert forall i :: 0 <= i < |r| ==> r[i] in r;
  }

  /** A frame is in the scan exactly when some name in the listing fits the
      lock and the range and builds it. */
  lemma FramesFromListingMeaning(listing: seq<string>, range: Option<(int, int)>)
    ensures FirstGroups(listing).Some? ==>
              var lock := LockOf(FirstGroups(listing).value);
              forall f :: f in FramesFromListing(listing, range) <==>
                exists i :: 0 <= i < |listing| && Builds(listing[i], lock, range, f)
  {
    CollectLocksOnFirst(listing, range);
    FramesAreCollected(listing, range);
    if FirstGroups(listing).Some? {
      var lock := LockOf(FirstGroups(listing).value);
      KeptMembers(listing, lock, range);
      forall f
        ensures SomeBuilds(listing, lock, range, f) <==> exists i :: 0 <= i < |listing| && Builds(listing[i], lock, range, f)
      {
      }
    }
  }
}

=== FILE: seqs.dfy ===
/** Two generic facts about sequences used by several modules: some element
    satisfies a predicate, and one sequence is another mapped element by
    element. */
module Seqs {
  /** Some element of `xs` satisfies `p`. */
  predicate AnyAt<T>(xs: seq<T>, p: T -> bool)
  {
    exists i :: 0 <= i < |xs| && p(xs[i])
  }

  lemma AnyAtStep<T>(xs: seq<T>, p: T -> bool)
    requires xs != []
    ensures AnyAt(xs, p) <==> p(xs[0]) || AnyAt(xs[1..], p)
  {
    if AnyAt(xs, p) {
      var i :| 0 <= i < |xs| && p(xs[i]);
      if i > 0 {
        assert xs[i] == xs[1..][i - 1];
      }
    }
    if AnyAt(xs[1..], p) {
      var i :| 0 <= i < |xs[1..]| && p(xs[1..][i]);
      assert xs[i + 1] == xs[1..][i];
    }
  }

  /** `f` maps `xs` to `ys`, element by element. */
  ghost predicate Pointwise<A, B>(xs: seq<A>, ys: seq<B>, f: A -> B)
  {
    |xs| == |ys| && forall i :: 0 <= i < |xs| ==> f(xs[i]) == ys[i]
  }

  lemma PointwiseCons<A, B>(x: A, xs: seq<A>, y: B, ys: seq<B>, f: A -> B)
    requires f(x) == y && Pointwise(xs, ys, f)
    ensures Pointwise([x] + xs, [y] + ys, f)
  {
    assert forall i :: 1 <= i < |xs| + 1 ==> ([x] + xs)[i] == xs[i - 1] && ([y] + ys)[i] == ys[i - 1];
  }

  lemma PointwiseTail<A, B>(xs: seq<A>, ys: seq<B>, f: A -> B)
    requires xs != [] && Pointwise(xs, ys, f)
    ensures f(xs[0]) == ys[0] && Pointwise(xs[1..], ys[1..], f)
  {
    assert forall i :: 0 <= i < |xs| - 1 ==> xs[1..][i] == xs[i + 1] && ys[1..][i] == ys[i + 1];
  }
}

=== FILE: sequence.dfy ===
/** `Sequence` of the newer revision: a scanned frame sequence and what is
    derived from it (range, length, missing frames, the frame-field getters
    and the iterator). */
module Sequences {
  import opened Results
  import opened Text
  import opened Frames
  import opened Scan
  import opened RangeExpr

  /** A scanned sequence: its directory, its frames sorted by number, and the
      stored range `(first, last)`, which is `()` (here `None`) when no frame
      was found. */
  datatype Sequence = Sequence(dir: string, frames: seq<Frame>, range: Option<(int, int)>)

  /** The Python exceptions the operations below can raise on an empty sequence. */
  datatype SequenceError =
    | IndexError   // indexing the empty range tuple or the empty frame list
    | TypeError    // `range(*())`: range() called without arguments

  /** The range `__init__` stores: the numbers of the first and the last frame. */
  function RangeOf(frames: seq<Frame>): (r: Option<(int, int)>)
    requires SortedByNumber(frames)
    ensures r.Some? <==> frames != []
    ensures r.Some? ==>
              r.value.0 == frames[0].number && r.value.1 == frames[|frames| - 1].number
              && forall i :: 0 <= i < |frames| ==> r.value.0 <= frames[i].number <= r.value.1
  {
    if frames == [] then None else Some((frames[0].number, frames[|frames| - 1].number))
  }

  /** `Sequence(dir, range)` over a directory whose listing is `listing`. */
  function NewSequence(dir: string, listing: seq<string>, filter: Option<(int, int)>): (s: Sequence)
    ensures s.dir == dir && s.frames == FramesFromListing(listing, filter)
    ensures s.range == RangeOf(s.frames)
  {
    var frames := FramesFromListing(listing, filter);
    Sequence(dir, frames, RangeOf(frames))
  }

  /** `getFramesAsNumberList()`. */
  function Numbers(frames: seq<Frame>): (ns: seq<int>)
    ensures |ns| == |frames|
    ensures forall i :: 0 <= i < |frames| ==> ns[i] == frames[i].number
  {
    if frames == [] then [] else [frames[0].number] + Numbers(frames[1..])
  }

  /** `getLength()`: `range[1] - range[0] + 1`, an IndexError on `()`. */
  function GetLength(s: Sequence): (r: Result<int, SequenceError>)
    ensures r.Err? <==> s.range.None?
  {
    if s.range.None? then Err(IndexError) else Ok(s.range.value.1 - s.range.value.0 + 1)
  }

  /** The length of a scanned sequence counts the frame numbers from the first
      frame's to the last frame's: every frame lies in that window and both
      ends are frames. Without frames it fails. */
  lemma LengthSpansFrames(dir: string, listing: seq<string>, filter: Option<(int, int)>)
    ensures var s := NewSequence(dir, listing, filter);
            GetLength(s).Err? <==> s.frames == []
    ensures var s := NewSequence(dir, listing, filter);
            GetLength(s).Ok? ==>
              var n, lo := GetLength(s).value, s.frames[0].number;
              n >= 1 && s.frames[|s.frames| - 1].number == lo + n - 1
              && forall i :: 0 <= i < |s.frames| ==> lo <= s.frames[i].number < lo + n
  {
  }

  /** The loop of getMissingFrames: the numbers from `i` up to but not
      including `hi` that are not in `current`, ascending. */
  function Gaps(i: int, hi: int, current: seq<int>): (m: seq<int>)
    ensures StrictlyAscending(m)
    ensures forall x :: x in m <==> i <= x < hi && x !in current
    decreases hi - i
  {
    if i >= hi then []
    else
      var more := Gaps(i + 1, hi, current);
      if i in current then more
      else
        assert forall k :: 0 <= k < |more| ==> more[k] in more;
        [i] + more
  }

  /** What getMissingFrames returns: the list, or its pretty-printed form. */
  datatype Missing = Listed(values: seq<int>) | Printed(text: string)

  /** `getMissingFrames(format)`: the numbers in `range(lo, hi)` that are not
      frame numbers; with `format` the pretty-printed list instead. */
  function GetMissingFrames(s: Sequence, format: bool): (r: Result<Missing, SequenceError>)
    ensures r.Err? <==> s.range.None?
    ensures r.Ok? ==> (r.value.Printed? <==> format)
    ensures r.Ok? && !format ==>
              StrictlyAscending(r.value.values)
              && forall x :: x in r.value.values <==>
                   s.range.value.0 <= x < s.range.value.1 && x !in Numbers(s.frames)
    ensures r.Ok? && format ==>
              r.value.text == PrettyPrintFrameList(GetMissingFrames(s, false).value.values)
  {
    match s.range
    case None => Err(TypeError)
    case Some((lo, hi)) =>
      var missing := Gaps(lo, hi, Numbers(s.frames));
      Ok(if format then Printed(PrettyPrintFrameList(missing)) else Listed(missing))
  }

  /** Since the last frame's number is the end of the range, leaving the end
      out of the loop loses nothing: the missing frames of a scanned sequence
      are all the gaps between its first and last frame, ends included. */
  lemma MissingAreAllGaps(dir: string, listing: seq<string>, filter: Option<(int, int)>)
    ensures var s := NewSequence(dir, listing, filter);
            var r := GetMissingFrames(s, false);
            r.Ok? ==> forall x :: x in r.value.values <==>
              s.frames[0].number <= x <= s.frames[|s.frames| - 1].number
              && forall i :: 0 <= i < |s.frames| ==> s.frames[i].number != x
  {
    var s := NewSequence(dir, listing, filter);
    forall x {
      NotANumber(s.frames, x);
    }
  }

  /** A value is not a frame number exactly when no frame has it. */
  lemma NotANumber(frames: seq<Frame>, x: int)
    ensures x !in Numbers(frames) <==> forall i :: 0 <= i < |frames| ==> frames[i].number != x
  {
    var ns := Numbers(frames);
    if x in ns {
      var i :| 0 <= i < |ns| && ns[i] == x;
      assert frames[i].number == x;
    } else {
      assert forall i :: 0 <= i < |frames| ==> ns[i] in ns;
    }
  }

  /** The pretty-printed missing frames parse back to the missing frames,
      unless frame 0 is among them (it is dropped by the printer); no missing
      frames print as "None", which parses to nothing. */
  lemma PrintedMissingParses(s: Sequence)
    requires s.range.Some?
    ensures var m := GetMissingFrames(s, false).value.values;
            0 !in m ==> ParseFrameString(GetMissingFrames(s, true).value.text) == Ok(m)
  {
    var m := GetMissingFrames(s, false).value.values;
    if 0 !in m {
      if m == [] {
        NoneParsesEmpty();
      } else {
        RoundTrip(m);
      }
    }
  }

  /** "None" is not a block, so it parses to the empty list. */
  lemma NoneParsesEmpty()
    ensures ParseFrameString("None") == Ok([])
  {
    SplitWithout("None", ',');
    NoneStrips("None");
    NoneIsNoBlock("None");
    assert ParseBlocks(["None"]) == ParseBlock("None", ParseBlocks([]));
  }

  lemma NoneStrips(t: string)
    requires t == "None"
    ensures Strip(t) == t
  {
    assert t[0] == 'N' && t[|t| - 1] == 'e';
    StripClean([], t);
    assert [] + t == t;
  }

  lemma NoneIsNoBlock(t: string)
    requires t == "None"
    ensures MatchBlock(t).None?
  {
    assert t[0] == 'N';
    assert LeadingDigits(t) == 0;
  }

  // ------------------------------------------------------ getters

  /** `getPadding()`, `getPrefix()`, `getExt()`: fields of the first frame, an
      IndexError when there is none. */
  function GetPadding(s: Sequence): (r: Result<nat, SequenceError>)
    ensures r.Err? <==> s.frames == []
  {
    if s.frames == [] then Err(IndexError) else Ok(s.frames[0].padding)
  }

  function GetPrefix(s: Sequence): (r: Result<string, SequenceError>)
    ensures r.Err? <==> s.frames == []
  {
    if s.frames == [] then Err(IndexError) else Ok(s.frames[0].prefix)
  }

  function GetExt(s: Sequence): (r: Result<string, SequenceError>)
    ensures r.Err? <==> s.frames == []
  {
    if s.frames == [] then Err(IndexError) else Ok(s.frames[0].ext)
  }

  /** For a scanned sequence the getters describe every frame, not only the
      first: they give the prefix, extension and padding of the first frame
      name of the listing. */
  lemma GettersDescribeEveryFrame(dir: string, listing: seq<string>, filter: Option<(int, int)>)
    ensures var s := NewSequence(dir, listing, filter);
            s.frames != [] ==>
              FirstGroups(listing).Some?
              && var lock := LockOf(FirstGroups(listing).value);
              GetPrefix(s) == Ok(lock.prefix) && GetExt(s) == Ok(lock.ext) && GetPadding(s) == Ok(lock.padding)
              && forall i :: 0 <= i < |s.frames| ==> Carries(s.frames[i], lock)
  {
    FramesCarryLock(listing, filter);
    var frames := NewSequence(dir, listing, filter).frames;
    if frames != [] {
      assert Carries(frames[0], LockOf(FirstGroups(listing).value));
    }
  }

  // ------------------------------------------------------ iterator

  datatype Stop = StopIteration

  /** `next()` with the cursor `index`: the frame at the cursor and the
      advanced cursor, or StopIteration at the end. */
  function Next(s: Sequence, index: nat): (r: Result<(Frame, nat), Stop>)
    requires index <= |s.frames|
    ensures r.Err? <==> index == |s.frames|
    ensures r.Ok? ==> r.value.1 == index + 1 && r.value.0 == s.frames[index]
  {
    if index == |s.frames| then Err(StopIteration) else Ok((s.frames[index], index + 1))
  }

  /** Calling `next()` from cursor `index` until StopIteration: the frames
      produced and the cursor left behind. Iterating from a cursor yields the
      remaining frames in order, each exactly once, and leaves the cursor at
      the end; since the cursor is never reset, a second loop over the same
      instance starts there and yields nothing. */
  function Drain(s: Sequence, index: nat): (r: (seq<Frame>, nat))
    requires index <= |s.frames|
    ensures r.0 == s.frames[index..]
    ensures r.1 == |s.frames|
    decreases |s.frames| - index
  {
    match Next(s, index)
    case Err(_) => ([], index)
    case Ok((f, i)) =>
      var rest := Drain(s, i);
      ([f] + rest.0, rest.1)
  }
}

=== FILE: settings.dfy ===
/** The dictionary rules of `SettingsFile`: `set` with its overwrite rule and
    e-mail validation, and `get` with its default. The settings are the
    dictionary `json.loads` produced; reading and writing the file is not
    modelled. */
module Settings {
  import opened Results
  import opened Text

  /** A JSON value as `json.loads` returns it (numbers other than integers
      are not modelled). */
  datatype Value =
    | Null
    | Bool(b: bool)
    | Int(i: int)
    | Str(s: string)
    | List(items: seq<Value>)
    | Object(fields: map<string, Value>)

  type SettingsMap = map<string, Value>

  /** Python's truth test. */
  predicate Truthy(v: Value)
  {
    match v
    case Null => false
    case Bool(b) => b
    case Int(i) => i != 0
    case Str(s) => s != []
    case List(items) => items != []
    case Object(fields) => fields != map[]
  }

  /** The class-level settings used until a settings file has been read. */
  const Defaults: SettingsMap := map[
    "version" := Str("v1.0.0"),
    "disabledTools" := List([Str("savePrefsToStuhome"), Str("calculateMocapLocomotion")]),
    "autoCheckUpdates" := Bool(false)
  ]

  /** `ValidationType.EMAIL`. */
  const Email := 1

  datatype SettingsError =
    | InvalidEmail   // the ValueError raised for a value that is not an address
    | NotAString     // re.match raises TypeError on a value that is not a string

  // ------------------------------------------------------ the e-mail pattern

  /** The text after the first '@' up to the next '@', if any. */
  function Domain(s: string): string
    requires '@' in s
  {
    var rest := s[IndexOf(s, '@') + 1..];
    rest[..DomainEnd(rest)]
  }

  /** Where the text after the first '@' stops: at the next '@', or at the end. */
  function DomainEnd(rest: string): (n: nat)
    ensures n <= |rest| && '@' !in rest[..n]
  {
    if '@' in rest then IndexOf(rest, '@')
    else
      assert rest[..|rest|] == rest;
      |rest|
  }

  /** A '.' with at least one character on either side. */
  predicate HasInnerDot(d: string)
  {
    exists j :: 1 <= j < |d| - 1 && d[j] == '.'
  }

  /** The test the pattern amounts to: a non-empty local part, and a '.'
      inside the text between the first '@' and the next one. */
  predicate Accepts(s: string)
  {
    '@' in s && IndexOf(s, '@') > 0 && HasInnerDot(Domain(s))
  }

  /** The pattern matched at the start of `s` with '@' at `a` and '\.' at `d`:
      one or more non-'@' characters on each side of both (the last group
      needs only one, since the match is not anchored at the end). */
  predicate MatchAt(s: string, a: int, d: int)
  {
    0 < a && a + 1 < d && d + 2 <= |s| && s[a] == '@' && s[d] == '.'
    && '@' !in s[..a] && '@' !in s[a + 1..d + 2]
  }

  ghost predicate EmailShape(s: string)
  {
    exists a, d :: MatchAt(s, a, d)
  }

  /** `re.match(r'[^@]+@[^@]+\.[^@]+', s)` succeeds: it accepts exactly the
      strings that start with a match of the pattern. */
  predicate EmailMatches(s: string): (b: bool)
    ensures b <==> EmailShape(s)
  {
    AcceptsShape(s);
    Accepts(s)
  }

  /** The decision procedure agrees with the pattern. */
  lemma AcceptsShape(s: string)
    ensures Accepts(s) <==> EmailShape(s)
  {
    if Accepts(s) {
      MatchesHasShape(s);
    }
    if EmailShape(s) {
      var a, d :| MatchAt(s, a, d);
      ShapeMatches(s, a, d);
    }
  }

  lemma MatchesHasShape(s: string)
    requires Accepts(s)
    ensures MatchAt(s, IndexOf(s, '@'), IndexOf(s, '@') + 1 + InnerDot(Domain(s)))
  {
    DomainWithin(s);
    ShapeFromDomain(s, IndexOf(s, '@'), Domain(s), InnerDot(Domain(s)));
  }

  /** The domain is the text right after the first '@', and holds no '@'. */
  lemma DomainWithin(s: string)
    requires '@' in s
    ensures var a := IndexOf(s, '@');
            a + 1 + |Domain(s)| <= |s| && Domain(s) == s[a + 1..a + 1 + |Domain(s)|] && '@' !in Domain(s)
  {
    var a := IndexOf(s, '@');
    var rest := s[a + 1..];
    assert rest[..DomainEnd(rest)] == s[a + 1..a + 1 + DomainEnd(rest)];
  }

  lemma ShapeFromDomain(s: string, a: nat, dom: string, j: int)
    requires 0 < a < |s| && s[a] == '@' && '@' !in s[..a]
    requires a + 1 + |dom| <= |s| && dom == s[a + 1..a + 1 + |dom|] && '@' !in dom
    requires 1 <= j < |dom| - 1 && dom[j] == '.'
    ensures MatchAt(s, a, a + 1 + j)
  {
    assert s[a + 1..a + 1 + j + 2] == dom[..j + 2];
  }

  /** Some position of an inner dot. */
  ghost function InnerDot(d: string): (j: int)
    requires HasInnerDot(d)
    ensures 1 <= j < |d| - 1 && d[j] == '.'
  {
    var j :| 1 <= j < |d| - 1 && d[j] == '.'; j
  }

  lemma ShapeMatches(s: string, a: int, d: int)
    requires MatchAt(s, a, d)
    ensures Accepts(s)
  {
    assert '@' in s[..a + 1];
    var first := IndexOf(s, '@');
    assert first == a;
    var rest := s[a + 1..];
    var j := d - a - 1;
    assert rest[..j + 2] == s[a + 1..d + 2];
    if '@' in rest {
      var k := IndexOf(rest, '@');
      assert k >= j + 2;
    }
    assert Domain(s)[j] == '.';
  }

  /** The pattern on a few addresses. */
  lemma EmailExamples(good: string, noDot: string, noLocal: string)
    requires good == "a@b.c" && noDot == "a@b" && noLocal == "@b.c"
    ensures EmailMatches(good) && !EmailMatches(noDot) && !EmailMatches(noLocal)
  {
    assert MatchAt(good, 1, 3);
    AcceptsShape(good);
    assert noDot[1] == '@' && '@' !in noDot[..1];
    assert IndexOf(noDot, '@') == 1;
    assert Domain(noDot) == "b";
    assert noLocal[0] == '@';
  }

  // ------------------------------------------------------ set / get

  /** `set(setting, value, overwrite, validation)`: an existing truthy setting
      is kept when `overwrite` is false; otherwise the value is validated
      and stored under `setting`. */
  function Set(settings: SettingsMap, setting: string, value: Value, overwrite: bool, validation: Option<int>)
    : (r: Result<SettingsMap, SettingsError>)
    ensures Keeps(settings, setting, overwrite) ==> r == Ok(settings)
    ensures r.Err? <==> !Keeps(settings, setting, overwrite) && RefusedBy(value, validation)
    ensures r.Ok? && !Keeps(settings, setting, overwrite) ==>
              r.value.Keys == settings.Keys + {setting} && r.value[setting] == value
              && forall k :: k in settings && k != setting ==> r.value[k] == settings[k]
  {
    if setting in settings && Truthy(settings[setting]) && !overwrite then Ok(settings)
    else if validation.Some? && validation.value != 0 && validation.value == Email && !value.Str? then Err(NotAString)
    else if validation.Some? && validation.value != 0 && validation.value == Email && !EmailMatches(value.s) then Err(InvalidEmail)
    else Ok(settings[setting := value])
  }

  /** The call leaves an existing truthy setting alone. */
  predicate Keeps(settings: SettingsMap, setting: string, overwrite: bool)
  {
    !overwrite && setting in settings && Truthy(settings[setting])
  }

  /** The e-mail validation refuses the value. */
  predicate RefusedBy(value: Value, validation: Option<int>)
  {
    validation == Some(Email) && !(value.Str? && EmailMatches(value.s))
  }

  /** `get(setting, default)`. */
  function Get(settings: SettingsMap, setting: string, default: Value): (v: Value)
    ensures setting !in settings ==> v == default
    ensures setting in settings ==> v == settings[setting]
  {
    if setting in settings then settings[setting] else default
  }

  /** After a set that was not skipped and not refused, get returns the new
      value and every other setting reads as before; a refused set changes
      nothing, since the result is an error and the caller keeps its map. */
  lemma GetAfterSet(settings: SettingsMap, setting: string, value: Value, overwrite: bool,
                    validation: Option<int>, other: string, default: Value)
    requires Set(settings, setting, value, overwrite, validation).Ok?
    ensures var after := Set(settings, setting, value, overwrite, validation).value;
            (!Keeps(settings, setting, overwrite) ==> Get(after, setting, default) == value)
            && (other != setting ==> Get(after, other, default) == Get(settings, other, default))
  {
  }

  /** Setting the same value twice is the same as setting it once. */
  lemma SetTwice(settings: SettingsMap, setting: string, value: Value, overwrite: bool, validation: Option<int>)
    requires Set(settings, setting, value, overwrite, validation).Ok?
    ensures var once := Set(settings, setting, value, overwrite, validation).value;
            Set(once, setting, value, overwrite, validation) == Ok(once)
  {
    var once := Set(settings, setting, value, overwrite, validation).value;
    if !Keeps(settings, setting, overwrite) {
      assert once[setting := value] == once;
    }
  }

  /** With the default settings, a new setting is added whatever `overwrite`
      says ... */
  lemma DefaultsAddEmail(key: string, address: string)
    requires key == "email" && address == "a@b.c"
    ensures Set(Defaults, key, Str(address), false, Some(Email)).Ok?
  {
    assert key !in Defaults by {
      assert key[0] == 'e' && "version"[0] == 'v' && "disabledTools"[0] == 'd' && "autoCheckUpdates"[0] == 'a';
    }
    EmailExamples(address, "a@b", "@b.c");
  }

  /** ... while `version` is only replaced when overwriting ... */
  lemma DefaultsKeepVersion(key: string, v: Value)
    requires key == "version"
    ensures Set(Defaults, key, v, false, None) == Ok(Defaults)
    ensures Set(Defaults, key, v, true, None) == Ok(Defaults[key := v])
  {
    assert key in Defaults && Defaults[key] == Str("v1.0.0");
  }

  /** ... and `get` falls back to its default only for a missing setting. */
  lemma DefaultsGet(present: string, missing: string)
    requires present == "autoCheckUpdates" && missing == "missing"
    ensures Get(Defaults, present, Null) == Bool(false)
    ensures Get(Defaults, missing, Int(3)) == Int(3)
  {
    assert missing !in Defaults by {
      assert missing[0] == 'm' && "version"[0] == 'v' && "disabledTools"[0] == 'd' && "autoCheckUpdates"[0] == 'a';
    }
  }
}

=== FILE: text.dfy ===
/** Character classes, decimal conversion and the handful of Python 2 `str`
    operations the engine relies on (`split`, `join`, `strip`, `int()`,
    `str()` of an integer). Python 2 byte strings have ASCII semantics, so the
    character classes below are the ASCII ones. */
module Text {
  import opened Results

  predicate IsDigit(c: char) { '0' <= c <= '9' }
  predicate IsLower(c: char) { 'a' <= c <= 'z' }
  predicate IsUpper(c: char) { 'A' <= c <= 'Z' }
  predicate IsLetter(c: char) { IsLower(c) || IsUpper(c) }

  /** C-locale `isspace`: blank, tab, newline, vertical tab, form feed, carriage return. */
  predicate IsSpace(c: char) { c == ' ' || 9 <= c as int <= 13 }

  predicate AllDigits(s: string) { forall i :: 0 <= i < |s| ==> IsDigit(s[i]) }
  predicate AllLetters(s: string) { forall i :: 0 <= i < |s| ==> IsLetter(s[i]) }
  predicate NoSpace(s: string) { forall i :: 0 <= i < |s| ==> !IsSpace(s[i]) }

  function DigitValue(c: char): nat
    requires IsDigit(c)
  {
    c as int - '0' as int
  }

  function DigitChar(d: nat): (c: char)
    requires d < 10
    ensures IsDigit(c) && DigitValue(c) == d
  {
    ('0' as int + d) as char
  }

  /** The value of a decimal digit string, most significant digit first. */
  function DigitsValue(s: string): nat
    requires AllDigits(s)
  {
    if s == [] then 0 else DigitsValue(s[..|s| - 1]) * 10 + DigitValue(s[|s| - 1])
  }

  /** `str(n)` for a non-negative integer. */
  function NatToString(n: nat): (s: string)
    ensures |s| > 0 && AllDigits(s)
    ensures DigitsValue(s) == n
    ensures |s| > 1 ==> s[0] != '0'
  {
    if n < 10 then [DigitChar(n)]
    else
      var t := NatToString(n / 10);
      var s := t + [DigitChar(n % 10)];
      assert s[..|s| - 1] == t;
      s
  }

  /** `str(n)` for any integer. */
  function IntToString(n: int): (s: string)
    ensures |s| > 0
    ensures n >= 0 ==> s == NatToString(n)
    ensures n < 0 ==> s == "-" + NatToString(-n)
  {
    if n < 0 then "-" + NatToString(-n) else NatToString(n)
  }

  /** `s * n` for a string and a non-negative count. */
  function Repeat(s: string, n: nat): (r: string)
    ensures |r| == |s| * n
    ensures forall i :: 0 <= i < |r| ==> r[i] in s
  {
    if n == 0 then [] else s + Repeat(s, n - 1)
  }

  /** The remainder is unique: `q * m + r` with `0 <= r < m` leaves `r`. */
  lemma ModUnique(a: int, m: nat, q: int, r: int)
    requires m > 0 && 0 <= r < m && a == q * m + r
    ensures a % m == r
  {
    var q' := a / m;
    assert a == q' * m + a % m;
    assert q' > q ==> q' * m >= (q + 1) * m;
    assert q' < q ==> q' * m <= (q - 1) * m;
  }

  /** Stepping back by `step` keeps the remainder; a positive offset below
      `step` is not a multiple of it. */
  lemma ModStep(d: int, step: nat)
    requires step > 0
    ensures (d - step) % step == d % step
    ensures 0 < d < step ==> d % step != 0
  {
    var q := d / step;
    assert d - step == (q - 1) * step + d % step;
    ModUnique(d - step, step, q - 1, d % step);
  }

  /** `s * n` is `s` over and over: position `i` holds `s[i % |s|]`. */
  lemma {:induction false} RepeatAt(s: string, n: nat)
    requires s != []
    ensures forall i :: 0 <= i < |Repeat(s, n)| ==> Repeat(s, n)[i] == s[i % |s|]
  {
    if n > 0 {
      var rest := Repeat(s, n - 1);
      RepeatAt(s, n - 1);
      var r := s + rest;
      assert Repeat(s, n) == r;
      forall i | 0 <= i < |r|
        ensures r[i] == s[i % |s|]
      {
        if i < |s| {
          ModUnique(i, |s|, 0, i);
        } else {
          assert r[i] == rest[i - |s|];
          ModStep(i, |s|);
        }
      }
    }
  }

  /** The decimal form of `n`, left-padded with zeros to at least `width`
      characters: the inverse of reading a padded frame token. */
  function ZeroPad(n: nat, width: nat): (s: string)
    ensures AllDigits(s) && |s| >= width && |s| > 0
  {
    var t := NatToString(n);
    if |t| >= width then t else Repeat("0", width - |t|) + t
  }

  lemma {:induction false} LeadingZeroIsIgnored(t: string)
    requires AllDigits(t)
    ensures AllDigits("0" + t) && DigitsValue("0" + t) == DigitsValue(t)
  {
    var s := "0" + t;
    if t != [] {
      assert s[..|s| - 1] == "0" + t[..|t| - 1];
      LeadingZeroIsIgnored(t[..|t| - 1]);
    }
  }

  lemma {:induction false} LeadingNonZeroIsPositive(t: string)
    requires |t| > 0 && AllDigits(t) && t[0] != '0'
    ensures DigitsValue(t) >= 1
  {
    if |t| > 1 {
      LeadingNonZeroIsPositive(t[..|t| - 1]);
    }
  }

  /** A digit string without a superfluous leading zero is the decimal form of its value. */
  lemma {:induction false} NatToStringOfDigits(s: string)
    requires |s| > 0 && AllDigits(s) && (|s| == 1 || s[0] != '0')
    ensures NatToString(DigitsValue(s)) == s
  {
    var t := s[..|s| - 1];
    if |s| == 1 {
      assert DigitChar(DigitValue(s[0])) == s[0];
    } else {
      LeadingNonZeroIsPositive(t);
      NatToStringOfDigits(t);
      var v := DigitsValue(s);
      assert v / 10 == DigitsValue(t) && v % 10 == DigitValue(s[|s| - 1]);
      assert DigitChar(DigitValue(s[|s| - 1])) == s[|s| - 1];
      assert s == t + [s[|s| - 1]];
    }
  }

  /** Reading a token and writing its value back at the token's width gives the
      token again: leading zeros only carry the width. */
  lemma {:induction false} ZeroPadOfDigits(s: string)
    requires |s| > 0 && AllDigits(s)
    ensures ZeroPad(DigitsValue(s), |s|) == s
  {
    if |s| == 1 || s[0] != '0' {
      NatToStringOfDigits(s);
    } else {
      var rest := s[1..];
      assert s == "0" + rest;
      LeadingZeroIsIgnored(rest);
      ZeroPadOfDigits(rest);
      var t := NatToString(DigitsValue(rest));
      assert |t| <= |rest|;
      assert Repeat("0", |s| - |t|) == "0" + Repeat("0", |rest| - |t|);
    }
  }

  // ---------------------------------------------------------------- split / join

  function IndexOf(s: string, c: char): (i: nat)
    requires c in s
    ensures i < |s| && s[i] == c && c !in s[..i]
  {
    if s[0] == c then 0
    else
      var j := IndexOf(s[1..], c);
      assert s[..j + 1] == [s[0]] + s[1..][..j];
      j + 1
  }

  /** `s.split(sep)` for a one-character separator: the pieces between the
      separators, an empty piece wherever two separators touch. */
  function Split(s: string, sep: char): (parts: seq<string>)
    ensures |parts| > 0
    ensures forall i :: 0 <= i < |parts| ==> sep !in parts[i]
    ensures |parts[0]| <= |s|
    decreases |s|
  {
    if sep !in s then [s]
    else
      var i := IndexOf(s, sep);
      [s[..i]] + Split(s[i + 1..], sep)
  }

  /** `sep.join(parts)`. */
  function Join(sep: string, parts: seq<string>): string
  {
    if parts == [] then ""
    else if |parts| == 1 then parts[0]
    else parts[0] + sep + Join(sep, parts[1..])
  }

  /** Joining the pieces of a split with the separator gives the input back. */
  lemma {:induction false} JoinSplit(s: string, sep: char)
    ensures Join([sep], Split(s, sep)) == s
    decreases |s|
  {
    if sep in s {
      var i := IndexOf(s, sep);
      JoinSplit(s[i + 1..], sep);
      assert s == s[..i] + [sep] + s[i + 1..];
    }
  }

  lemma {:induction false} IndexOfAfter(a: string, c: char, b: string)
    requires c !in a
    ensures c in a + [c] + b && IndexOf(a + [c] + b, c) == |a|
  {
    var s := a + [c] + b;
    assert s[|a|] == c;
    var i := IndexOf(s, c);
    assert forall k :: 0 <= k < |a| ==> s[k] == a[k];
  }

  /** Splitting at the first separator peels off the text before it. */
  lemma SplitAfter(a: string, sep: char, b: string)
    requires sep !in a
    ensures Split(a + [sep] + b, sep) == [a] + Split(b, sep)
  {
    var s := a + [sep] + b;
    IndexOfAfter(a, sep, b);
    assert s[..|a|] == a;
    assert s[|a| + 1..] == b;
  }

  lemma SplitWithout(s: string, sep: char)
    requires sep !in s
    ensures Split(s, sep) == [s]
  {
  }

  lemma SplitThree(a: string, b: string, c: string, sep: char)
    requires sep !in a && sep !in b && sep !in c
    ensures Split(a + [sep] + b + [sep] + c, sep) == [a, b, c]
  {
    assert a + [sep] + b + [sep] + c == a + [sep] + (b + [sep] + c);
    SplitAfter(a, sep, b + [sep] + c);
    SplitAfter(b, sep, c);
    SplitWithout(c, sep);
  }

  // ---------------------------------------------------------------- strip

  function LStrip(s: string): (r: string)
    ensures r == [] || !IsSpace(r[0])
    ensures |r| <= |s| && r == s[|s| - |r|..]
    ensures forall i :: 0 <= i < |s| - |r| ==> IsSpace(s[i])
  {
    if s != [] && IsSpace(s[0]) then LStrip(s[1..]) else s
  }

  function RStrip(s: string): (r: string)
    ensures r == [] || !IsSpace(r[|r| - 1])
    ensures |r| <= |s| && r == s[..|r|]
    ensures forall i :: |r| <= i < |s| ==> IsSpace(s[i])
  {
    if s != [] && IsSpace(s[|s| - 1]) then RStrip(s[..|s| - 1]) else s
  }

  /** `s.strip()`: the input without its leading and trailing white space. */
  function Strip(s: string): (r: string)
    ensures r == [] || (!IsSpace(r[0]) && !IsSpace(r[|r| - 1]))
    ensures |r| <= |s|
  {
    var l := LStrip(s);
    var r := RStrip(l);
    assert r != [] ==> r[0] == l[0];
    r
  }

  lemma StripClean(pad: string, t: string)
    requires forall i :: 0 <= i < |pad| ==> IsSpace(pad[i])
    requires t != [] && !IsSpace(t[0]) && !IsSpace(t[|t| - 1])
    ensures Strip(pad + t) == t
  {
    if pad != [] {
      assert (pad + t)[1..] == pad[1..] + t;
      StripClean(pad[1..], t);
    } else {
      assert pad + t == t;
    }
  }

  /** Trailing white space after a token that ends in a non-space is what
      `rstrip` removes. */
  lemma {:induction false} RStripClean(t: string, pad: string)
    requires forall i :: 0 <= i < |pad| ==> IsSpace(pad[i])
    requires t != [] && !IsSpace(t[|t| - 1])
    ensures RStrip(t + pad) == t
    decreases |pad|
  {
    if pad != [] {
      var p := pad[..|pad| - 1];
      assert (t + pad)[..|t + pad| - 1] == t + p;
      RStripClean(t, p);
    } else {
      assert t + pad == t;
    }
  }

  /** `strip()` removes the white space on both sides of a token and keeps
      the token itself, inner white space included. */
  lemma {:induction false} StripPadded(pad: string, t: string, pad2: string)
    requires forall i :: 0 <= i < |pad| ==> IsSpace(pad[i])
    requires forall i :: 0 <= i < |pad2| ==> IsSpace(pad2[i])
    requires t != [] && !IsSpace(t[0]) && !IsSpace(t[|t| - 1])
    ensures Strip(pad + t + pad2) == t
    decreases |pad|
  {
    if pad != [] {
      assert (pad + t + pad2)[1..] == pad[1..] + t + pad2;
      StripPadded(pad[1..], t, pad2);
    } else {
      assert pad + t + pad2 == t + pad2;
      assert LStrip(t + pad2) == t + pad2;
      RStripClean(t, pad2);
    }
  }

  // ---------------------------------------------------------------- int()

  /** Python 2 `int(s)`: surrounding white space, an optional sign, then one or
      more decimal digits; anything else raises `ValueError` (here `None`). */
  function ParseInt(s: string): (r: Option<int>)
    ensures |s| > 0 && AllDigits(s) ==> r == Some(DigitsValue(s))
  {
    var t := Strip(s);
    assert |s| > 0 && AllDigits(s) ==> t == s by {
      if |s| > 0 && AllDigits(s) {
        StripClean([], s);
      }
    }
    if |t| > 1 && (t[0] == '+' || t[0] == '-') && AllDigits(t[1..]) then
      var v: int := DigitsValue(t[1..]);
      Some(if t[0] == '-' then -v else v)
    else if |t| > 0 && AllDigits(t) then Some(DigitsValue(t))
    else None
  }

  /** `int(str(n)) == n`. */
  lemma ParseIntOfIntToString(n: int)
    ensures ParseInt(IntToString(n)) == Some(n)
  {
    if n < 0 {
      ParseIntNegative(NatToString(-n));
    }
  }

  /** `int('-' + d)` of a non-empty digit string is minus its value. */
  lemma ParseIntNegative(d: string)
    requires d != [] && AllDigits(d)
    ensures ParseInt("-" + d) == Some(-(DigitsValue(d) as int))
  {
    var s := "-" + d;
    assert [] + s == s && s[1..] == d;
    StripClean([], s);
  }

  /** Removes every occurrence of `c`: `s.replace(c, '')`. */
  function Remove(s: string, c: char): (r: string)
    ensures c !in r
    ensures |r| <= |s|
    ensures forall x :: x != c ==> (x in r <==> x in s)
  {
    if s == [] then []
    else (if s[0] == c then [] else [s[0]]) + Remove(s[1..], c)
  }
}

=== FILE: versions.dfy ===
/** Release-version helpers shared, line for line, by both `fileutils.py`
    modules: `compareVersions`, `getLargerVersions`, and the two dictionary
    merges `mergeDict` and `mergeJsonFiles`. */
module FileUtils {
  import opened Results
  import opened Text

  /** The Python exceptions these helpers can raise. */
  datatype VersionError =
    | IndexError   // a version with too few components
    | ValueError   // `int()` of a component that is not a number
    | KeyError     // a release entry without 'tag_name'

  // ------------------------------------------------------ compareVersions

  /** The loop of compareVersions from component `i` on: `Ok(true)` when B is
      found larger, `Ok(false)` when it is found smaller or all three
      components are equal. Python evaluates `int(bParts[i])` before
      `aParts[i]`, which fixes which error comes first. */
  function CompareFrom(aParts: seq<string>, bParts: seq<string>, i: nat): (r: Result<bool, VersionError>)
    requires i <= 3
    ensures (forall j :: i <= j < 3 ==> Numeric(aParts, j) && Numeric(bParts, j)) ==> r.Ok?
    ensures r.Err? ==> exists j :: i <= j < 3 && !(Numeric(aParts, j) && Numeric(bParts, j))
    decreases 3 - i
  {
    if i == 3 then Ok(false)
    else if i >= |bParts| then assert !Numeric(bParts, i); Err(IndexError)
    else
      match ParseInt(bParts[i])
      case None => assert !Numeric(bParts, i); Err(ValueError)
      case Some(b) =>
        if i >= |aParts| then assert !Numeric(aParts, i); Err(IndexError)
        else
          match ParseInt(aParts[i])
          case None => assert !Numeric(aParts, i); Err(ValueError)
          case Some(a) => if b - a == 0 then CompareFrom(aParts, bParts, i + 1) else Ok(b - a > 0)
  }

  /** Component `j` exists and `int()` reads it. */
  predicate Numeric(parts: seq<string>, j: nat)
  {
    j < |parts| && ParseInt(parts[j]).Some?
  }

  /** `compareVersions(verA, verB)`: `verB` when B is the larger version,
      `None` otherwise. */
  function CompareVersions(verA: string, verB: string): (r: Result<Option<string>, VersionError>)
    ensures r.Ok? && r.value.Some? ==> r.value.value == verB
  {
    match CompareFrom(Split(verA, '.'), Split(verB, '.'), 0)
    case Err(e) => Err(e)
    case Ok(larger) => Ok(if larger then Some(verB) else None)
  }

  /** A version as major, minor and build: the first three '.'-separated
      components read as integers; later components play no part. */
  function Triple(parts: seq<string>): Option<(int, int, int)>
  {
    if |parts| < 3 || ParseInt(parts[0]).None? || ParseInt(parts[1]).None? || ParseInt(parts[2]).None? then None
    else Some((ParseInt(parts[0]).value, ParseInt(parts[1]).value, ParseInt(parts[2]).value))
  }

  /** `b` comes after `a` in the lexicographic order of the triples. */
  predicate Newer(b: (int, int, int), a: (int, int, int))
  {
    b.0 > a.0 || (b.0 == a.0 && (b.1 > a.1 || (b.1 == a.1 && b.2 > a.2)))
  }

  /** For versions with three numeric leading components the comparison
      succeeds, and returns B exactly when B's triple is lexicographically
      greater than A's. */
  lemma CompareVersionsMeaning(verA: string, verB: string)
    requires Triple(Split(verA, '.')).Some? && Triple(Split(verB, '.')).Some?
    ensures CompareVersions(verA, verB)
         == if Newer(Triple(Split(verB, '.')).value, Triple(Split(verA, '.')).value)
            then Ok(Some(verB)) else Ok(None)
  {
    CompareFromTriple(Split(verA, '.'), Split(verB, '.'));
  }

  lemma CompareFromTriple(aParts: seq<string>, bParts: seq<string>)
    requires Triple(aParts).Some? && Triple(bParts).Some?
    ensures CompareFrom(aParts, bParts, 0) == Ok(Newer(Triple(bParts).value, Triple(aParts).value))
  {
    var ta, tb := Triple(aParts).value, Triple(bParts).value;
    assert ParseInt(aParts[0]) == Some(ta.0) && ParseInt(bParts[0]) == Some(tb.0);
    assert ParseInt(aParts[1]) == Some(ta.1) && ParseInt(bParts[1]) == Some(tb.1);
    assert ParseInt(aParts[2]) == Some(ta.2) && ParseInt(bParts[2]) == Some(tb.2);
    CompareFromStep(aParts, bParts, 2, ta.2, tb.2);
    assert CompareFrom(aParts, bParts, 2) == Ok(tb.2 > ta.2);
    CompareFromStep(aParts, bParts, 1, ta.1, tb.1);
    assert CompareFrom(aParts, bParts, 1) == Ok(tb.1 > ta.1 || (tb.1 == ta.1 && tb.2 > ta.2));
    CompareFromStep(aParts, bParts, 0, ta.0, tb.0);
  }

  /** One round of the loop on two numeric components. */
  lemma CompareFromStep(aParts: seq<string>, bParts: seq<string>, i: nat, a: int, b: int)
    requires i < 3 && i < |aParts| && i < |bParts|
    requires ParseInt(aParts[i]) == Some(a) && ParseInt(bParts[i]) == Some(b)
    ensures CompareFrom(aParts, bParts, i) == if a == b then CompareFrom(aParts, bParts, i + 1) else Ok(b > a)
  {
  }

  /** A component missing or not a number, while the components before it
      agree, is an error. */
  lemma CompareVersionsFailsOnShort(verA: string, verB: string)
    requires Triple(Split(verA, '.')).None? && Split(verA, '.') == Split(verB, '.')
    ensures CompareVersions(verA, verB).Err?
  {
    var p := Split(verA, '.');
    if |p| >= 1 && ParseInt(p[0]).Some? {
      if |p| >= 2 && ParseInt(p[1]).Some? {
        assert CompareFrom(p, p, 0) == CompareFrom(p, p, 1) == CompareFrom(p, p, 2);
      } else {
        assert CompareFrom(p, p, 0) == CompareFrom(p, p, 1);
      }
    }
  }

  lemma {:induction false} CompareFromSame(p: seq<string>, i: nat)
    requires i <= 3
    ensures CompareFrom(p, p, i) != Ok(true)
    decreases 3 - i
  {
    if i < 3 && i < |p| && ParseInt(p[i]).Some? {
      CompareFromSame(p, i + 1);
    }
  }

  lemma {:induction false} CompareFromAsymmetric(a: seq<string>, b: seq<string>, i: nat)
    requires i <= 3
    ensures !(CompareFrom(a, b, i) == Ok(true) && CompareFrom(b, a, i) == Ok(true))
    decreases 3 - i
  {
    if i < 3 && i < |a| && i < |b| && ParseInt(a[i]).Some? && ParseInt(b[i]).Some? {
      CompareFromAsymmetric(a, b, i + 1);
    }
  }

  /** No version is larger than itself, and of two versions at most one is
      the larger: compareVersions is a strict order where it succeeds. */
  lemma CompareVersionsIsStrict(verA: string, verB: string)
    ensures CompareVersions(verA, verA) != Ok(Some(verA))
    ensures !(CompareVersions(verA, verB).Ok? && CompareVersions(verA, verB).value.Some?
              && CompareVersions(verB, verA).Ok? && CompareVersions(verB, verA).value.Some?)
  {
    CompareFromSame(Split(verA, '.'), 0);
    CompareFromAsymmetric(Split(verA, '.'), Split(verB, '.'), 0);
  }

  /** The triple of a version spelled from three digit strings. */
  lemma TripleOf(a: string, b: string, c: string)
    requires |a| > 0 && |b| > 0 && |c| > 0 && AllDigits(a) && AllDigits(b) && AllDigits(c)
    ensures Triple(Split(a + "." + b + "." + c, '.')) == Some((DigitsValue(a), DigitsValue(b), DigitsValue(c)))
  {
    assert '.' !in a && '.' !in b && '.' !in c by {
      assert forall k :: 0 <= k < |a| ==> a[k] != '.';
      assert forall k :: 0 <= k < |b| ==> b[k] != '.';
      assert forall k :: 0 <= k < |c| ==> c[k] != '.';
    }
    SplitThree(a, b, c, '.');
  }

  /** The examples of the documentation, each in both directions: the
      larger version is returned, the smaller one is not. */
  lemma CompareVersionsExamples(v100: string, v101: string, v105: string, v213: string, v221: string)
    requires v100 == "1.0.0" && v101 == "1.0.1" && v105 == "1.0.5" && v213 == "2.1.3" && v221 == "2.2.1"
    ensures CompareVersions(v100, v101) == Ok(Some(v101)) && CompareVersions(v101, v100) == Ok(None)
    ensures CompareVersions(v105, v221) == Ok(Some(v221)) && CompareVersions(v221, v105) == Ok(None)
    ensures CompareVersions(v213, v221) == Ok(Some(v221)) && CompareVersions(v221, v213) == Ok(None)
  {
    Version100(v100);
    Version101(v101);
    Version105(v105);
    Version213(v213);
    Version221(v221);
    OrderedPair(v100, v101, (1, 0, 0), (1, 0, 1));
    OrderedPair(v105, v221, (1, 0, 5), (2, 2, 1));
    OrderedPair(v213, v221, (2, 1, 3), (2, 2, 1));
  }

  lemma Version100(v: string) requires v == "1.0.0" ensures Triple(Split(v, '.')) == Some((1, 0, 0))
  { VersionTriple(v, "1", "0", "0", (1, 0, 0)); }

  lemma Version101(v: string) requires v == "1.0.1" ensures Triple(Split(v, '.')) == Some((1, 0, 1))
  { VersionTriple(v, "1", "0", "1", (1, 0, 1)); }

  lemma Version105(v: string) requires v == "1.0.5" ensures Triple(Split(v, '.')) == Some((1, 0, 5))
  { VersionTriple(v, "1", "0", "5", (1, 0, 5)); }

  lemma Version213(v: string) requires v == "2.1.3" ensures Triple(Split(v, '.')) == Some((2, 1, 3))
  { VersionTriple(v, "2", "1", "3", (2, 1, 3)); }

  lemma Version221(v: string) requires v == "2.2.1" ensures Triple(Split(v, '.')) == Some((2, 2, 1))
  { VersionTriple(v, "2", "2", "1", (2, 2, 1)); }

  /** Two versions whose triples are ordered compare that way round only. */
  lemma OrderedPair(lo: string, hi: string, tlo: (int, int, int), thi: (int, int, int))
    requires Triple(Split(lo, '.')) == Some(tlo) && Triple(Split(hi, '.')) == Some(thi)
    requires Newer(thi, tlo)
    ensures CompareVersions(lo, hi) == Ok(Some(hi)) && CompareVersions(hi, lo) == Ok(None)
  {
    CompareVersionsMeaning(lo, hi);
    CompareVersionsMeaning(hi, lo);
  }

  lemma VersionTriple(v: string, a: string, b: string, c: string, t: (int, int, int))
    requires |a| == |b| == |c| == 1 && IsDigit(a[0]) && IsDigit(b[0]) && IsDigit(c[0])
    requires v == a + "." + b + "." + c
    requires t == (DigitValue(a[0]), DigitValue(b[0]), DigitValue(c[0]))
    ensures Triple(Split(v, '.')) == Some(t)
  {
    TripleOf(a, b, c);
    OneDigit(a);
    OneDigit(b);
    OneDigit(c);
  }

  lemma OneDigit(s: string)
    requires |s| == 1 && IsDigit(s[0])
    ensures AllDigits(s) && DigitsValue(s) == DigitValue(s[0])
  {
    assert s[..0] == [];
  }

  // ------------------------------------------------------ getLargerVersions

  /** A release entry of the GitHub API, reduced to its string fields. */
  type Release = map<string, string>

  /** The test of the comprehension for one entry: its 'tag_name' and
      `compareTo`, both with every 'v' removed, compared. */
  function IsLarger(compareTo: string, v: Release): (r: Result<bool, VersionError>)
    ensures r.Err? <==> "tag_name" !in v || CompareVersions(Remove(compareTo, 'v'), Remove(v["tag_name"], 'v')).Err?
    ensures r == Ok(true) <==>
              "tag_name" in v && CompareVersions(Remove(compareTo, 'v'), Remove(v["tag_name"], 'v')) == Ok(Some(Remove(v["tag_name"], 'v')))
  {
    if "tag_name" !in v then Err(KeyError)
    else
      match CompareVersions(Remove(compareTo, 'v'), Remove(v["tag_name"], 'v'))
      case Err(e) => Err(e)
      case Ok(found) => Ok(found.Some?)
  }

  /** The test of the comprehension on every entry. */
  function Verdicts(compareTo: string, versions: seq<Release>): (vs: seq<Result<bool, VersionError>>)
    ensures |vs| == |versions|
    ensures forall i :: 0 <= i < |versions| ==> vs[i] == IsLarger(compareTo, versions[i])
  {
    seq(|versions|, i requires 0 <= i < |versions| => IsLarger(compareTo, versions[i]))
  }

  /** A list comprehension with a filter whose test gave `verdicts`: the
      entries whose test is true, in their order; the first test that raises
      raises out of the comprehension. */
  function Keep<T>(verdicts: seq<Result<bool, VersionError>>, xs: seq<T>): Result<seq<T>, VersionError>
    requires |verdicts| == |xs|
  {
    if xs == [] then Ok([])
    else
      match verdicts[0]
      case Err(e) => Err(e)
      case Ok(keep) =>
        match Keep(verdicts[1..], xs[1..])
        case Err(e) => Err(e)
        case Ok(more) => Ok((if keep then [xs[0]] else []) + more)
  }

  /** `getLargerVersions(compareTo, otherVersions)`: the entries that are
      larger, in their order; the first failing entry raises. */
  function GetLargerVersions(compareTo: string, versions: seq<Release>): (r: Result<seq<Release>, VersionError>)
    ensures r.Err? <==> SomeFails(compareTo, versions)
    ensures r.Ok? ==> exists ix :: Selects(ix, r.value, versions) && KeepsExactly(ix, compareTo, versions)
  {
    FilterMeaning(compareTo, versions);
    Keep(Verdicts(compareTo, versions), versions)
  }

  /** `r` is the subsequence of `xs` at the strictly increasing positions `ix`. */
  ghost predicate Selects<T>(ix: seq<nat>, r: seq<T>, xs: seq<T>)
  {
    |ix| == |r|
    && (forall k :: 0 <= k < |ix| ==> ix[k] < |xs| && r[k] == xs[ix[k]])
    && (forall k, l :: 0 <= k < l < |ix| ==> ix[k] < ix[l])
  }

  /** `ix` holds exactly the positions whose test is true. */
  predicate Marks(ix: seq<nat>, verdicts: seq<Result<bool, VersionError>>)
  {
    forall i :: 0 <= i < |verdicts| ==> (i in ix <==> verdicts[i] == Ok(true))
  }

  predicate Fails(verdicts: seq<Result<bool, VersionError>>)
  {
    exists i :: 0 <= i < |verdicts| && verdicts[i].Err?
  }

  function Shift(ix: seq<nat>): (r: seq<nat>)
    ensures |r| == |ix| && forall k :: 0 <= k < |ix| ==> r[k] == ix[k] + 1
  {
    if ix == [] then [] else [ix[0] + 1] + Shift(ix[1..])
  }

  /** The comprehension fails exactly when some test raises; otherwise it is
      the order-preserving selection of the entries whose test is true. */
  lemma {:induction false} KeepMeaning<T>(verdicts: seq<Result<bool, VersionError>>, xs: seq<T>)
    requires |verdicts| == |xs|
    ensures Keep(verdicts, xs).Err? <==> Fails(verdicts)
    ensures Keep(verdicts, xs).Ok? ==>
              exists ix :: Selects(ix, Keep(verdicts, xs).value, xs) && Marks(ix, verdicts)
  {
    if xs != [] {
      KeepMeaning(verdicts[1..], xs[1..]);
      FailsStep(verdicts);
      var r := Keep(verdicts, xs);
      if r.Ok? {
        var more := Keep(verdicts[1..], xs[1..]).value;
        var jx :| Selects(jx, more, xs[1..]) && Marks(jx, verdicts[1..]);
        var keep := verdicts[0] == Ok(true);
        var ix := (if keep then [0] else []) + Shift(jx);
        SelectsCons(jx, more, xs, keep);
        MarksCons(jx, verdicts, keep);
        assert r.value == (if keep then [xs[0]] else []) + more;
        assert Selects(ix, r.value, xs) && Marks(ix, verdicts);
      }
    } else {
      assert Selects([], [], xs) && Marks([], verdicts);
    }
  }

  lemma MarksCons(jx: seq<nat>, verdicts: seq<Result<bool, VersionError>>, keep: bool)
    requires verdicts != [] && Marks(jx, verdicts[1..])
    requires keep == (verdicts[0] == Ok(true))
    ensures Marks((if keep then [0] else []) + Shift(jx), verdicts)
  {
    var ix := (if keep then [0] else []) + Shift(jx);
    forall i | 0 <= i < |verdicts|
      ensures i in ix <==> verdicts[i] == Ok(true)
    {
      InShift(jx, i);
      if i > 0 {
        assert verdicts[i] == verdicts[1..][i - 1];
      }
    }
  }

  lemma InShift(jx: seq<nat>, i: nat)
    ensures i in Shift(jx) <==> i > 0 && i - 1 in jx
  {
    if i > 0 && i - 1 in jx {
      var k :| 0 <= k < |jx| && jx[k] == i - 1;
      assert Shift(jx)[k] == i;
    }
  }

  lemma SelectsCons<T>(jx: seq<nat>, more: seq<T>, xs: seq<T>, keep: bool)
    requires xs != [] && Selects(jx, more, xs[1..])
    ensures Selects((if keep then [0] else []) + Shift(jx), (if keep then [xs[0]] else []) + more, xs)
  {
  }

  lemma FailsStep(verdicts: seq<Result<bool, VersionError>>)
    requires verdicts != []
    ensures Fails(verdicts) <==> verdicts[0].Err? || Fails(verdicts[1..])
  {
    var tail := verdicts[1..];
    if Fails(verdicts) {
      var i :| 0 <= i < |verdicts| && verdicts[i].Err?;
      if i > 0 {
        assert tail[i - 1].Err?;
      }
    }
    if Fails(tail) {
      var i :| 0 <= i < |tail| && tail[i].Err?;
      assert verdicts[i + 1].Err?;
    }
  }

  /** An entry the comprehension raises on. */
  predicate Unreadable(compareTo: string, v: Release)
  {
    IsLarger(compareTo, v).Err?
  }

  predicate SomeFails(compareTo: string, versions: seq<Release>)
  {
    exists i :: 0 <= i < |versions| && Unreadable(compareTo, versions[i])
  }

  /** An entry the comprehension keeps. */
  predicate Larger(compareTo: string, v: Release)
  {
    IsLarger(compareTo, v) == Ok(true)
  }

  /** The positions the filter keeps. */
  predicate KeepsExactly(ix: seq<nat>, compareTo: string, vs: seq<Release>)
  {
    forall i :: 0 <= i < |vs| ==> (i in ix <==> Larger(compareTo, vs[i]))
  }

  /** The comprehension over the verdicts fails exactly when some entry
      cannot be compared; otherwise it is the order-preserving filter of the
      entries that are larger than `compareTo`. */
  lemma FilterMeaning(compareTo: string, versions: seq<Release>)
    ensures Keep(Verdicts(compareTo, versions), versions).Err? <==> SomeFails(compareTo, versions)
    ensures Keep(Verdicts(compareTo, versions), versions).Ok? ==>
              exists ix :: Selects(ix, Keep(Verdicts(compareTo, versions), versions).value, versions)
                           && KeepsExactly(ix, compareTo, versions)
  {
    var vs := Verdicts(compareTo, versions);
    KeepMeaning(vs, versions);
    assert Fails(vs) <==> SomeFails(compareTo, versions) by {
      if Fails(vs) {
        var i :| 0 <= i < |vs| && vs[i].Err?;
        assert Unreadable(compareTo, versions[i]);
      }
      if SomeFails(compareTo, versions) {
        var i :| 0 <= i < |versions| && Unreadable(compareTo, versions[i]);
        assert vs[i].Err?;
      }
    }
    var r := Keep(vs, versions);
    if r.Ok? {
      var ix :| Selects(ix, r.value, versions) && Marks(ix, vs);
      assert KeepsExactly(ix, compareTo, versions) by {
        forall i | 0 <= i < |versions|
          ensures i in ix <==> Larger(compareTo, versions[i])
        {
          assert vs[i] == IsLarger(compareTo, versions[i]);
        }
      }
    }
  }

  // ------------------------------------------------------ merging

  /** `mergeDict(source, target)`: a copy of `source` updated with `target`. */
  function MergeDict<K, V>(source: map<K, V>, target: map<K, V>): (m: map<K, V>)
    ensures m.Keys == source.Keys + target.Keys
    ensures forall k :: k in target ==> m[k] == target[k]
    ensures forall k :: k in source && k !in target ==> m[k] == source[k]
  {
    source + target
  }

  /** `mergeJsonFiles(source, target)`: the keys of `source`, each with the
      value of `target` when it has one; keys only `target` has are dropped. */
  function MergeJsonFiles<K, V>(source: map<K, V>, target: map<K, V>): (m: map<K, V>)
    ensures m.Keys == source.Keys
    ensures forall k :: k in source ==> m[k] == if k in target then target[k] else source[k]
  {
    map k | k in source :: if k in target then target[k] else source[k]
  }

  /** The two merges of the two revisions agree on the source's keys: the
      newer one adds the keys only the target has. Merging again with the
      same target changes nothing. */
  lemma MergesAgree<K, V>(source: map<K, V>, target: map<K, V>)
    ensures MergeJsonFiles(source, target) == map k | k in source :: MergeDict(source, target)[k]
    ensures target.Keys <= source.Keys ==> MergeJsonFiles(source, target) == MergeDict(source, target)
    ensures MergeDict(MergeDict(source, target), target) == MergeDict(source, target)
  {
  }
}
